=== FILE: README.md ===
# reader: full-text search bookkeeping, filter arguments and feed parsing

This project is a Dafny model of the core of the `reader` feed library.

**Search state (`_search.py`).** The search engine keeps three things beside the `entries` and `feeds` tables:
- the `entries_search_sync_state` records, one per entry, carrying `to_update`, `to_delete` and the `es_rowids` of its index rows;
- the `entries_search` full-text rows;
- the rowid counter.

The SQLite triggers that mark records when entries and feeds change are modelled as functions from state to state (`search_model.dfy`). So are `enable` / `disable` and the two chunked drain loops of `update`. The class `Search.Database` (`search.dfy`) performs them in place: the record map and the index map are fields that its methods reassign.

**Central invariant.** The invariant everything preserves is `SearchModel.Coherent`:
- every rowid a record lists is an index row that points back at it, and every index row is listed by its entry's record;
- rowids still to be handed out lie above those in use;
- with search enabled, the entries are exactly the records not marked for deletion;
- with search disabled, there are no records and no rows.

**Results and errors.** The same file's mapping of SQLite errors onto `SearchNotEnabledError` / `InvalidSearchQueryError` and the conversion of a result row into an `EntrySearchResult` are in `search_results.dfy`.

**Helpers (`_utils.py`, in `utils.dfy`).** The model covers:
- the keyset pager `join_paginated_iter`, proved against a function `Paginate` over an arbitrary page source;
- `zero_or_one`, `exactly_one`, `chunks`;
- the consumption counter `count_consumed`, a class.

**Argument parsing (`_types.py`, in `types.dfy`).** The model covers:
- tag filter normalisation;
- the tristate filter;
- the `from_args` validators of the entry and feed filter options;
- the reserved-name scheme;
- `EntryUpdateIntent.new`.

**Feed parsing (`_feedparser_lazy.py`, in `feedparser_lazy.dfy`).** The translation of a feedparser result into `FeedData` / `EntryData`. Feedparser's loosely typed result is a `PyValue.Value`: none, bool, int, (finite) float, string, list, dictionary, or anything else.

**Dependencies passed in as parameters.** Two collaborators the code calls but does not define are parameters of the model:
- HTML stripping is a function `string -> string`;
- `HighlightedString.extract` is an `Extract<H>`.

Neither is interpreted.

**NULL comparisons.** SQL `!=` on NULL is reproduced (`SearchModel.SqlNe`). As a consequence, the entry update trigger does not fire when a column goes from NULL to a value (`SearchModel.NullToTextIsNotReindexed`). That is the behaviour of the trigger as written.

## Model

| member | source | states |
|---|---|---|
| SearchResults.ClassifyOperationalError | myenv/lib/python3.10/site-packages/reader/_search.py:65-89 | SearchNotEnabled exactly when enabled and the lower-cased message mentions "no such table"; otherwise InvalidSearchQuery exactly when query and a query-error fragment occurs, carrying the original message; else re-raise |
| SearchResults.LowerIdempotent | myenv/lib/python3.10/site-packages/reader/_search.py:79 | lower-casing twice is lower-casing once |
| SearchResults.ClassificationIgnoresCase | myenv/lib/python3.10/site-packages/reader/_search.py:79-87 | the classification of a message and of its lower-cased form agree |
| SearchResults.MissingTableMeansNotEnabled | myenv/lib/python3.10/site-packages/reader/_search.py:81-82 | "no such table: X" with enabled gives SearchNotEnabled |
| SearchResults.SyntaxErrorIsInvalidQuery | myenv/lib/python3.10/site-packages/reader/_search.py:84-87 | an fts5 syntax error during a query becomes InvalidSearchQuery with the same message |
| SearchResults.SyntaxErrorOutsideQueryIsReraised | myenv/lib/python3.10/site-packages/reader/_search.py:84-89 | the same error outside a query is re-raised |
| SearchResults.OdSet | myenv/lib/python3.10/site-packages/reader/_search.py:983-991 | ordered-dict assignment: an existing key keeps its place and gets the new value, a new key is appended, other entries are unchanged |
| SearchResults.ContentOf | myenv/lib/python3.10/site-packages/reader/_search.py:983-991 | the content dictionary has distinct keys |
| SearchResults.ContentKeepsOrder | myenv/lib/python3.10/site-packages/reader/_search.py:983-991 | when content paths are distinct, the content is the highlighted snippets with a path, in row order |
| SearchResults.HighlightedKeys | myenv/lib/python3.10/site-packages/reader/_search.py:988-989 | every content key is a present (truthy) path of the row |
| SearchResults.ContentOfSnoc | myenv/lib/python3.10/site-packages/reader/_search.py:983-991 | one more snippet assigns its path in the ordered dict, or is skipped when its path is empty |
| SearchResults.RepeatedPathExample | myenv/lib/python3.10/site-packages/reader/_search.py:983-991 | a repeated path keeps its first position and takes its last value |
| SearchResults.EntrySearchResultFactory | myenv/lib/python3.10/site-packages/reader/_search.py:960-997 | feed URL and id carried over; ".title" present iff the title is truthy; the feed title goes under ".feed.user_title" or ".feed.title" by the user-title flag and only when truthy; no other metadata keys; content as ContentOf |
| SearchModel.RecordedRowsAreIndexRows | myenv/lib/python3.10/site-packages/reader/_search.py:715-746 | under the consistency invariant, the rowids a record lists are exactly the index rows pointing at its entry |
| SearchModel.InsertEntryOf | myenv/lib/python3.10/site-packages/reader/_search.py:268-309 | inserting an entry changes only the entries table and the sync records |
| SearchModel.InsertEntryRecord | myenv/lib/python3.10/site-packages/reader/_search.py:268-309 | with search enabled, the new entry gets a record marked to_update and not to_delete, reusing the es_rowids of an existing record (the esss_exists trigger) and otherwise empty; other records unchanged |
| SearchModel.InsertEntryKeepsCoherent | myenv/lib/python3.10/site-packages/reader/_search.py:268-309 | the insert triggers keep Coherent |
| SearchModel.UpdateEntryOf | myenv/lib/python3.10/site-packages/reader/_search.py:310-331 | an entry update touches neither feeds, index nor rowid counter and adds no records |
| SearchModel.Reindexable | myenv/lib/python3.10/site-packages/reader/_search.py:317-320 | the WHEN clause of the entry update trigger: title, summary or content differs under SQL `!=`, where NULL on either side is not a difference |
| SearchModel.UpdateEntryRecord | myenv/lib/python3.10/site-packages/reader/_search.py:310-331 | the record becomes to_update iff it was or title, summary or content (each item's type, value and language) changed under SQL NULL comparison; to_delete, rowids and other records unchanged |
| SearchModel.NullToTextIsNotReindexed | myenv/lib/python3.10/site-packages/reader/_search.py:317-320 | a summary going from NULL to text leaves the records untouched |
| SearchModel.LanguageChangeIsReindexed | myenv/lib/python3.10/site-packages/reader/_search.py:310-331 | changing only the language of a content item marks the record to_update |
| SearchModel.UpdateEntryKeepsCoherent | myenv/lib/python3.10/site-packages/reader/_search.py:310-331 | the update trigger keeps Coherent |
| SearchModel.DeleteEntryOf | myenv/lib/python3.10/site-packages/reader/_search.py:332-345 | the entry is gone; feeds, index and record keys unchanged |
| SearchModel.DeleteEntryRecord | myenv/lib/python3.10/site-packages/reader/_search.py:332-345 | the deleted entry's record is marked to_delete, all else in it and in other records unchanged, index untouched |
| SearchModel.DeleteEntryKeepsCoherent | myenv/lib/python3.10/site-packages/reader/_search.py:332-345 | the delete trigger keeps Coherent |
| SearchModel.UpdateFeedTitleOf | myenv/lib/python3.10/site-packages/reader/_search.py:350-366 | a feed title change leaves entries, index and record keys alone |
| SearchModel.MarkFeed | myenv/lib/python3.10/site-packages/reader/_search.py:361-365 | every record of the feed is marked to_update; the set of records is unchanged |
| SearchModel.FeedTitleMarksFeed | myenv/lib/python3.10/site-packages/reader/_search.py:350-366 | when title or user_title changes (SQL !=), every record of that feed becomes to_update and all other records are unchanged |
| SearchModel.UpdateFeedTitleKeepsCoherent | myenv/lib/python3.10/site-packages/reader/_search.py:350-366 | the feed title trigger keeps Coherent |
| SearchModel.Rekey | myenv/lib/python3.10/site-packages/reader/_search.py:401-403 | moving keys from one feed URL to another keeps every value, leaves no key under the old URL and invents none |
| SearchModel.MoveRecords | myenv/lib/python3.10/site-packages/reader/_search.py:393-403 | the rename trigger's last two statements: the old URL's index rows point at the new URL, then its records are rekeyed |
| SearchModel.RenameFeedOf | myenv/lib/python3.10/site-packages/reader/_search.py:374-407 | a rename to a new URL moves the feed, its entries and (with search enabled) its records off the old URL; an absent or unchanged URL is a no-op; renaming onto an existing feed fails |
| SearchModel.MoveRecordsKeepsListed | myenv/lib/python3.10/site-packages/reader/_search.py:393-403 | re-pointing the index rows of moved records keeps every listed rowid pointing back at its record |
| SearchModel.MoveRecordsKeepsOwned | myenv/lib/python3.10/site-packages/reader/_search.py:393-403 | after the move every index row is still listed by its entry's record |
| SearchModel.MoveRecordsKeepsTracked | myenv/lib/python3.10/site-packages/reader/_search.py:401-403 | moving entries and records together keeps entries and live records in step |
| SearchModel.RenameFeedKeepsCoherent | myenv/lib/python3.10/site-packages/reader/_search.py:374-407 | a successful rename keeps Coherent |
| SearchModel.RenameToFreeUrlSucceeds | myenv/lib/python3.10/site-packages/reader/_search.py:374-407 | renaming an existing feed to an unused URL succeeds |
| SearchModel.EnableOf | myenv/lib/python3.10/site-packages/reader/_search.py:178-248 | enabling from disabled creates an empty index and one to_update record with no rowids per existing entry; entries and feeds untouched |
| SearchModel.EnableIdempotent | myenv/lib/python3.10/site-packages/reader/_search.py:178-186 | enabling twice is enabling once ("table already exists" is swallowed) |
| SearchModel.EnableKeepsCoherent | myenv/lib/python3.10/site-packages/reader/_search.py:178-248 | enable keeps Coherent |
| SearchModel.DisableOf | myenv/lib/python3.10/site-packages/reader/_search.py:409-437 | disabling drops all records and index rows, entries and feeds untouched |
| SearchModel.DisableKeepsCoherent | myenv/lib/python3.10/site-packages/reader/_search.py:409-437 | disable keeps Coherent |
| SearchModel.ChunkLimit | myenv/lib/python3.10/site-packages/reader/_search.py:472 | `chunk_size or 1`: at least one, and the chunk size when it is positive |
| SearchModel.DeleteRecords | myenv/lib/python3.10/site-packages/reader/_search.py:509-516 | the records of the given keys, and the index rows they list, are removed; entries, feeds and the rowid counter are untouched |
| SearchModel.DeleteRecordsKeepsCoherent | myenv/lib/python3.10/site-packages/reader/_search.py:509-516 | deleting the index rows and the records of to_delete entries keeps Coherent |
| SearchModel.DeleteRecordsProgress | myenv/lib/python3.10/site-packages/reader/_search.py:509-516 | the deleted keys leave the to_delete set and the selectable set |
| SearchModel.DeleteRecordsCompose | myenv/lib/python3.10/site-packages/reader/_search.py:464-523 | two delete chunks equal one delete of their union |
| SearchModel.Selectable | myenv/lib/python3.10/site-packages/reader/_search.py:558-578 | the insert query selects only to_update records joined to an existing entry and feed |
| SearchModel.SnapshotOf | myenv/lib/python3.10/site-packages/reader/_search.py:558-578 | a selected row carries the key, the record's rowids, the entry's last_updated, and is_feed_user_title iff the feed has a user title |
| SearchModel.ContentFragmentsPositions | myenv/lib/python3.10/site-packages/reader/_search.py:609-625 | the content fragments are exactly the items whose lower-cased type is missing, text/html, text/xhtml or text/plain, in order, each carrying its stripped value and its `.content[i].value` path |
| SearchModel.Fragments | myenv/lib/python3.10/site-packages/reader/_search.py:607-631 | never empty; the lone (None, None) pair exactly when no content and no summary are indexed; an indexed summary comes last with path ".summary" |
| SearchModel.Prepare | myenv/lib/python3.10/site-packages/reader/_search.py:633-650 | one index row per fragment, each pointing back at the entry, with the snapshot's rowids and last_updated |
| SearchModel.WriteOf | myenv/lib/python3.10/site-packages/reader/_search.py:677-746 | an entry is written iff search is enabled and its record is still to_update with the same rowids and the entry's last_updated is unchanged; otherwise nothing changes |
| SearchModel.CommitOf | myenv/lib/python3.10/site-packages/reader/_search.py:715-746 | the entry's listed rows are deleted, its new rows take fresh consecutive rowids, and its record lists them and is no longer to_update; entries and feeds are untouched |
| SearchModel.CommitIndexesEntry | myenv/lib/python3.10/site-packages/reader/_search.py:715-746 | replacing an entry's rows keeps Coherent and leaves the entry indexed as exactly the prepared rows |
| SearchModel.CommitKeepsOthers | myenv/lib/python3.10/site-packages/reader/_search.py:715-746 | writing one entry leaves every other entry's index rows as they were |
| SearchModel.CommitProgress | myenv/lib/python3.10/site-packages/reader/_search.py:737-746 | the written entry leaves the selectable set; to_delete and other records unchanged |
| SearchModel.WriteKeepsCoherent | myenv/lib/python3.10/site-packages/reader/_search.py:677-746 | a write step keeps Coherent, and a committed entry's record lists exactly its index rows |
| SearchModel.WriteAll | myenv/lib/python3.10/site-packages/reader/_search.py:655-749 | the chunk's entries written one after the other, each against the state the previous ones left; entries, feeds and the set of records are untouched |
| SearchModel.WriteAllProgress | myenv/lib/python3.10/site-packages/reader/_search.py:655-749 | writing a chunk read from one state removes exactly its keys from the selectable set and changes nothing else |
| SearchModel.WriteAllIndexes | myenv/lib/python3.10/site-packages/reader/_search.py:655-749 | writing a chunk keeps Coherent and leaves each of its entries indexed as its prepared rows |
| SearchModel.WriteAllKeepsOthers | myenv/lib/python3.10/site-packages/reader/_search.py:655-749 | writing a chunk leaves every entry outside it indexed as it was |
| SearchModel.PrepareIgnoresRecord | myenv/lib/python3.10/site-packages/reader/_search.py:636-649 | the rows prepared for an entry depend on its entry and feed, not on its record's rowids |
| SearchModel.DeletingLeavesSelectable | myenv/lib/python3.10/site-packages/reader/_search.py:457-462 | the delete phase removes no record the insert phase can select, since those records are not marked for deletion |
| SearchModel.DrainStep | myenv/lib/python3.10/site-packages/reader/_search.py:525-529 | one more insert chunk extends the set of entries indexed with the rows built from the starting state |
| Search.FetchLimited | myenv/lib/python3.10/site-packages/reader/_search.py:480-489 | `LIMIT n`: min(n, pool size) distinct keys from the pool |
| Search.BuildFragments | myenv/lib/python3.10/site-packages/reader/_search.py:607-631 | the fragment loop computes Fragments |
| Search.PrepareEntry | myenv/lib/python3.10/site-packages/reader/_search.py:633-650 | the row-building loop computes Prepare |
| Search.ReadChunk | myenv/lib/python3.10/site-packages/reader/_search.py:596-650 | one prepared entry per selected key, each pointing back at it and still pending in the state it was read from |
| Search.Database.constructor | myenv/lib/python3.10/site-packages/reader/_search.py:144-145 | a database starts with search disabled, no records, no index rows |
| Search.Database.InsertEntry | myenv/lib/python3.10/site-packages/reader/_search.py:268-309 | the state after an entry insert is InsertEntryOf, and Coherent is kept |
| Search.Database.UpdateEntry | myenv/lib/python3.10/site-packages/reader/_search.py:310-331 | the state after an entry update is UpdateEntryOf, and Coherent is kept |
| Search.Database.DeleteEntry | myenv/lib/python3.10/site-packages/reader/_search.py:332-345 | the state after an entry delete is DeleteEntryOf, and Coherent is kept |
| Search.Database.UpdateFeedTitle | myenv/lib/python3.10/site-packages/reader/_search.py:350-366 | the state after a feed title change is UpdateFeedTitleOf, and Coherent is kept |
| Search.Database.RenameFeed | myenv/lib/python3.10/site-packages/reader/_search.py:374-407 | a rename succeeds exactly when RenameFeedOf does and then yields its state; a failed rename changes nothing; Coherent is kept |
| Search.Database.ApplyRename | myenv/lib/python3.10/site-packages/reader/_search.py:374-407 | the UPDATE statement with its trigger: succeeds iff RenameFeedOf does and then yields its state; a failure leaves every table as it was |
| Search.Database.Enable | myenv/lib/python3.10/site-packages/reader/_search.py:178-248 | the state after enable is EnableOf, and Coherent is kept |
| Search.Database.Disable | myenv/lib/python3.10/site-packages/reader/_search.py:409-437 | the state after disable is DisableOf, and Coherent is kept |
| Search.Database.DeleteIndexRows | myenv/lib/python3.10/site-packages/reader/_search.py:509-512 | `DELETE FROM entries_search WHERE rowid = ?` for each rowid: exactly those rows leave the index |
| Search.Database.DeleteRowsOf | myenv/lib/python3.10/site-packages/reader/_search.py:509-512 | deletes the index rows every given record lists, and nothing else |
| Search.Database.DeleteRecordsOf | myenv/lib/python3.10/site-packages/reader/_search.py:513-516 | deletes the given records, and nothing else |
| Search.Database.DeleteOneChunk | myenv/lib/python3.10/site-packages/reader/_search.py:469-523 | deletes min(chunk, pending) distinct to_delete records and their index rows, keeps Coherent, and reports "more" iff a full chunk was fetched |
| Search.Database.DeleteFromSearch | myenv/lib/python3.10/site-packages/reader/_search.py:464-467 | the loop ends with no to_delete records left, all of them and their rows removed |
| Search.Database.InsertIndexRows | myenv/lib/python3.10/site-packages/reader/_search.py:720-735 | each insert gets the next rowid; the rows are added under consecutive rowids |
| Search.Database.WriteEntry | myenv/lib/python3.10/site-packages/reader/_search.py:677-746 | one guarded write step is WriteOf, and Coherent is kept |
| Search.Database.Commit | myenv/lib/python3.10/site-packages/reader/_search.py:715-746 | the new state is CommitOf: old rows deleted, new rows inserted, the record updated |
| Search.Database.WriteChunk | myenv/lib/python3.10/site-packages/reader/_search.py:655-749 | the per-entry loop over a chunk is WriteAll, and Coherent is kept; it runs against whatever state it is given, since each write re-checks its entry |
| Search.Database.InsertOneChunk | myenv/lib/python3.10/site-packages/reader/_search.py:531-749 | selects min(chunk, pending) to_update entries; each ends indexed as its prepared rows and leaves the selectable set; every other record is unchanged and every other entry stays indexed as it was; reports "more" iff any rows were selected |
| Search.Database.InsertIntoSearch | myenv/lib/python3.10/site-packages/reader/_search.py:525-529 | the loop ends with nothing left to update, entries and feeds untouched, and every entry that was to update indexed as the rows built from it |
| Search.Database.Update | myenv/lib/python3.10/site-packages/reader/_search.py:457-462 | with search disabled, SearchNotEnabled and no change; otherwise every live entry ends with a record neither to_update nor to_delete, and every entry that was to update is indexed as the rows built from it |
| Utils.ZeroOrOne | myenv/lib/python3.10/site-packages/reader/_utils.py:37-50 | succeeds iff exactly one item, or none and a default; the error is the made exception for none and an assertion failure for more than one |
| Utils.ExactlyOne | myenv/lib/python3.10/site-packages/reader/_utils.py:53-58 | succeeds iff exactly one item and returns it |
| Utils.ExactlyOneAgreesWithZeroOrOne | myenv/lib/python3.10/site-packages/reader/_utils.py:37-58 | on a non-empty input the two agree |
| Utils.PageLoop | myenv/lib/python3.10/site-packages/reader/_utils.py:98-118 | the chunked loop: asks for min(remaining, chunk) (or the chunk without a limit) from the last cursor, stops on an empty or short page or when the limit is used up |
| Utils.Paginate | myenv/lib/python3.10/site-packages/reader/_utils.py:61-118 | chunk size 0 makes one call for the limit; otherwise the chunked loop |
| Utils.JoinPaginatedIter | myenv/lib/python3.10/site-packages/reader/_utils.py:61-118 | the paging loop yields the items and makes the calls that Paginate describes |
| Utils.PagerUnchunked | myenv/lib/python3.10/site-packages/reader/_utils.py:86-96 | chunk size 0: one call asking for the limit from the given cursor |
| Utils.PagerLimit | myenv/lib/python3.10/site-packages/reader/_utils.py:98-118 | with a limit and a source that honours it, at most limit items are yielded and at most limit are requested |
| Utils.PagerRequests | myenv/lib/python3.10/site-packages/reader/_utils.py:98-118 | each call asks for min(limit − requested so far, chunk size), or the chunk size without a limit |
| Utils.PagerStoppingRule | myenv/lib/python3.10/site-packages/reader/_utils.py:98-118 | items are the first elements of the pages in order; the first call resumes from `last`, each later call from the last cursor of a full previous page; when paging stops early, the last page was short |
| Utils.PageLoopYields | myenv/lib/python3.10/site-packages/reader/_utils.py:100-118 | the items are the pages' first elements, in call order |
| Utils.PageLoopChained | myenv/lib/python3.10/site-packages/reader/_utils.py:100-118 | every call after the first follows a full page and resumes from its last cursor |
| Utils.PagerExampleChunked | myenv/lib/python3.10/site-packages/reader/_utils.py:73 | ten items in chunks of four take three calls |
| Utils.PagerExampleUnchunked | myenv/lib/python3.10/site-packages/reader/_utils.py:74-76 | chunk size 0 takes one call, from the start (one..ten) and from cursor 4 (five..ten) |
| Utils.PagerExampleFromCursor | myenv/lib/python3.10/site-packages/reader/_utils.py:75 | resuming from a cursor yields only the later items |
| Utils.PagerExampleLimited | myenv/lib/python3.10/site-packages/reader/_utils.py:77-78 | a limit of five yields five items, the last call asking for one |
| Utils.Chunks | myenv/lib/python3.10/site-packages/reader/_utils.py:121-131 | consecutive slices of n items, the last one possibly shorter; size 0 gives none |
| Utils.ChunkIter | myenv/lib/python3.10/site-packages/reader/_utils.py:121-131 | a negative size fails; otherwise the result is Chunks |
| Utils.ChunksConcat | myenv/lib/python3.10/site-packages/reader/_utils.py:121-131 | concatenating the chunks gives back the input |
| Utils.ChunksShape | myenv/lib/python3.10/site-packages/reader/_utils.py:121-131 | chunks are non-empty, at most n long, and all but the last exactly n |
| Utils.ChunksOfZero | myenv/lib/python3.10/site-packages/reader/_utils.py:121-131 | a size of zero yields no chunks |
| Utils.ChunksExample | myenv/lib/python3.10/site-packages/reader/_utils.py:121-131 | "ABCDE" by 2 is "AB", "CD", "E" |
| Utils.CountConsumed.constructor | myenv/lib/python3.10/site-packages/reader/_utils.py:134-147 | a fresh counter has consumed nothing |
| Utils.CountConsumed.Next | myenv/lib/python3.10/site-packages/reader/_utils.py:137-141 | yields the next item or ends; the count is the number of items whose consumer has resumed the generator |
| Utils.CountConsumed.GetCount | myenv/lib/python3.10/site-packages/reader/_utils.py:143-144 | reports the consumed count, never more than the items, and the position when not suspended |
| PyValue.IntOf | myenv/lib/python3.10/site-packages/reader/_feedparser_lazy.py:114-118 | `int(x)`: ints pass through, bools give 0 or 1, floats truncate toward zero, strings go through ParseInt, None and lists give no integer |
| PyValue.ParseIntExamples | myenv/lib/python3.10/site-packages/reader/_feedparser_lazy.py:116 | `int()` of a string strips its whitespace (form feed, no-break space, newline) but not the separator characters U+001C..U+001F, and a bare sign is no integer |
| PyValue.ParseIntOfIntToString | myenv/lib/python3.10/site-packages/reader/_feedparser_lazy.py:116 | parsing the decimal form of an integer gives it back |
| Types.EntryUpdateIntent.New | myenv/lib/python3.10/site-packages/reader/_types.py:336-339 | an intent is new iff first_updated_epoch is set |
| Types.NewMeansFirstSeen | myenv/lib/python3.10/site-packages/reader/_types.py:301-339 | for a well-formed intent, `new` iff first_updated is set iff recent_sort is set |
| Types.NormalizeTag | myenv/lib/python3.10/site-packages/reader/_types.py:356-373 | accepts bools and non-empty strings (a leading "-" negates), failing with the empty-tag or the elements message otherwise |
| Types.NormalizeTagValue | myenv/lib/python3.10/site-packages/reader/_types.py:356-373 | a canonical tag survives normalisation unchanged |
| Types.TagFilterOf | myenv/lib/python3.10/site-packages/reader/_types.py:348-391 | None is no filter, a bool is one single-tag group, a list is normalised group by group, anything else fails with the top-level message |
| Types.TagFilterArgument | myenv/lib/python3.10/site-packages/reader/_types.py:348-391 | the group loop computes TagFilterOf |
| Types.NormalizeAllIff | myenv/lib/python3.10/site-packages/reader/_types.py:375-391 | a group normalises iff each element is a valid tag, element by element |
| Types.GroupsIff | myenv/lib/python3.10/site-packages/reader/_types.py:375-391 | the groups normalise iff every element is valid, to a canonical filter |
| Types.TagFilterAccepts | myenv/lib/python3.10/site-packages/reader/_types.py:348-391 | accepts None, a bool, or a list of valid elements; a string or other scalar fails with the top-level message |
| Types.GroupsAppend | myenv/lib/python3.10/site-packages/reader/_types.py:375-391 | groups of a concatenation are the groups of each part, the first failure winning |
| Types.TagFilterRoundTrip | myenv/lib/python3.10/site-packages/reader/_types.py:348-391 | a canonical filter, written back as arguments, parses to itself |
| Types.TagFilterExample | myenv/lib/python3.10/site-packages/reader/_types.py:348-391 | [["a", "-b"], "c", [], True] parses to [[a, not b], [c], [True]] |
| Types.TristateFilterArgument | myenv/lib/python3.10/site-packages/reader/_types.py:405-416 | None → any, == True (True, 1, 1.0) → istrue, == False (False, 0, 0.0) → nottrue, a literal passes through, anything else fails with the listed message |
| Types.TristateNameRoundTrip | myenv/lib/python3.10/site-packages/reader/_types.py:394-402 | literal names and values are in bijection |
| Types.TristatePassesThrough | myenv/lib/python3.10/site-packages/reader/_types.py:413-415 | every literal is accepted as itself |
| Types.EntryFilterFromArgs | myenv/lib/python3.10/site-packages/reader/_types.py:433-462 | succeeds iff read, important, has_enclosures and feed_tags are valid, reporting the first invalid in that order; an entry overrides the feed URL |
| Types.FeedFilterFromArgs | myenv/lib/python3.10/site-packages/reader/_types.py:478-497 | succeeds iff tags, broken, updates_enabled and new are valid, reporting the first invalid in that order |
| Types.FromArgsAcceptsOne | myenv/lib/python3.10/site-packages/reader/_types.py:451-452 | the membership test `in (None, True, False)` accepts 1 and 1.0 (== True) and 0.0 (== False), and rejects 2 and 0.5 |
| Types.TristateOfFloats | myenv/lib/python3.10/site-packages/reader/_types.py:405-410 | 1.0 and 0.0 compare equal to True and False, so they select istrue and nottrue; 2.0 fails |
| Types.NameScheme.MakeReaderName | myenv/lib/python3.10/site-packages/reader/_types.py:514-515 | the reader prefix followed by the key |
| Types.NameScheme.MakePluginName | myenv/lib/python3.10/site-packages/reader/_types.py:517-521 | plugin prefix and name, then separator and key when one is given |
| Types.NamesInjective | myenv/lib/python3.10/site-packages/reader/_types.py:514-521 | distinct keys give distinct reader names and distinct plugin names |
| Types.PluginNameExtends | myenv/lib/python3.10/site-packages/reader/_types.py:517-521 | a plugin's keyed names extend its bare name |
| Types.NameSchemeFromValue | myenv/lib/python3.10/site-packages/reader/_types.py:506-512 | succeeds iff exactly the three string fields are given, copying them |
| Types.DefaultNameScheme | myenv/lib/python3.10/site-packages/reader/_types.py:524-530 | the default scheme gives ".reader.key", ".plugin.name.key" and ".plugin.name" |
| FeedParserLazy.DatetimeAttr | myenv/lib/python3.10/site-packages/reader/_feedparser_lazy.py:76-80 | a date is read iff the key is present and truthy |
| FeedParserLazy.ContentOf | myenv/lib/python3.10/site-packages/reader/_feedparser_lazy.py:103-106 | a content dict converts iff it has "value", keeping value, type and language |
| FeedParserLazy.ContentList | myenv/lib/python3.10/site-packages/reader/_feedparser_lazy.py:103-106 | the items converted one by one; the only failure is an item without "value" |
| FeedParserLazy.ContentListRule | myenv/lib/python3.10/site-packages/reader/_feedparser_lazy.py:103-106 | the content list converts iff every item has "value", item by item |
| FeedParserLazy.ContentIgnoresOtherKeys | myenv/lib/python3.10/site-packages/reader/_feedparser_lazy.py:105 | only value, type and language matter |
| FeedParserLazy.EnclosureOf | myenv/lib/python3.10/site-packages/reader/_feedparser_lazy.py:108-119 | an enclosure is kept iff its href is truthy; its length is `int(length)` when that parses |
| FeedParserLazy.EnclosureList | myenv/lib/python3.10/site-packages/reader/_feedparser_lazy.py:108-119 | the items with a truthy href converted in order, so never more enclosures than items |
| FeedParserLazy.EnclosureListRule | myenv/lib/python3.10/site-packages/reader/_feedparser_lazy.py:108-119 | every kept enclosure has a truthy href, and none is dropped when all hrefs are truthy |
| FeedParserLazy.EnclosureListAppend | myenv/lib/python3.10/site-packages/reader/_feedparser_lazy.py:108-119 | enclosures of a concatenation are concatenated enclosures |
| FeedParserLazy.ProcessEntryOf | myenv/lib/python3.10/site-packages/reader/_feedparser_lazy.py:87-132 | the id or RSS link, else a ParseError; then content, enclosures and the other fields of EntryData |
| FeedParserLazy.ProcessEntry | myenv/lib/python3.10/site-packages/reader/_feedparser_lazy.py:87-132 | the entry conversion computes ProcessEntryOf |
| FeedParserLazy.EntryIdRule | myenv/lib/python3.10/site-packages/reader/_feedparser_lazy.py:88-101 | the id is `id`, or `link` for RSS; with neither, the "no id or fallback" ParseError |
| FeedParserLazy.ProcessFeedOf | myenv/lib/python3.10/site-packages/reader/_feedparser_lazy.py:27-73 | a non-survivable bozo error and an unknown version each fail with their message; a result carries the URL and version |
| FeedParserLazy.ProcessFeed | myenv/lib/python3.10/site-packages/reader/_feedparser_lazy.py:27-73 | the entry loop computes ProcessFeedOf |
| FeedParserLazy.Collect | myenv/lib/python3.10/site-packages/reader/_feedparser_lazy.py:57-67 | the entries loop over a prefix: the converted entries and the first ParseError, or the other exception that escaped |
| FeedParserLazy.CollectIsFilter | myenv/lib/python3.10/site-packages/reader/_feedparser_lazy.py:57-67 | when entries fail only with ParseError, the loop keeps the successes in order and remembers the first error |
| FeedParserLazy.ProcessFeedEntries | myenv/lib/python3.10/site-packages/reader/_feedparser_lazy.py:57-73 | the feed fails iff it has entries and none converted, re-raising the first entry error; otherwise its entries are the successes |
| FeedParserLazy.NoEntries | myenv/lib/python3.10/site-packages/reader/_feedparser_lazy.py:57-73 | a feed with no entries succeeds with none |
| FeedParserLazy.CollectFailurePersists | myenv/lib/python3.10/site-packages/reader/_feedparser_lazy.py:58-61 | an error other than ParseError stops the loop: later entries do not change the result |

## Left out

- I/O, SQLite itself, connections, `get_db`, transactions, `BEGIN IMMEDIATE`, and the dependency check (`check_dependencies`) are not modelled. Each chunk step is one atomic state change.
- Concurrency is modelled only in one way. The insert chunk reads a snapshot (`Search.ReadChunk`). The write phase (`Search.Database.WriteChunk`, `SearchModel.WriteOf`) takes the prepared rows as a parameter, runs on any coherent state with search enabled, and re-checks each entry, so changes between read and write are allowed for there. `Search.Database.InsertOneChunk` runs the two phases back to back, and `disable` between them is not modelled.
- `search_entries`, `search_entry_counts`, the query builder and ranking are not part of this model. The factory ignores `rank`, as the source does.
- HTML stripping and `HighlightedString.extract` are uninterpreted parameters.
- Migrations, `_url_utils.py`, the plugins and the storage layer are not part of this model. Only one piece of the entries table's schema is assumed: renaming a feed moves its entries, as its ON UPDATE CASCADE does.
- SQLite may reuse a rowid after deleting the row that held it. The model hands out rowids from a counter that only grows.
- Logging and warnings are left out.
- `Utils.JoinPaginatedIter`: the pager is a lazy generator that may run forever. The model runs it against a pure page source for at most `maxCalls` calls, and the lemmas state the bound (`Utils.PagerStoppingRule`).
- `Utils.ChunkIter`: chunks are built eagerly, not lazily.
- `PyValue.IntOf`: strings of non-ASCII decimal digits (e.g. Arabic-Indic), integers written with underscores, NaN floats (`int()` raises ValueError, which `_feedparser_lazy.py:117` catches, so the length is dropped) and infinite floats (`int()` raises OverflowError, which is not caught there) are not modelled; `FloatValue` holds only finite reals.
- `PyValue.Lower`: lower-cases ASCII letters only. Python's `str.lower` covers all of Unicode.
- Datetimes are kept as raw values. Conversion with `_datetime_from_timetuple` is not modelled.
- The hashing of `EntryData` / `FeedData` and `entry_data_from_obj` are not modelled.
- The content JSON of an entry is taken as a list of dicts. Malformed JSON, and JSON that is not a list, are not modelled.
- `SearchResults.ContentOf`: states only that the keys are distinct when paths repeat. That they are a subset of the present paths is stated for distinct paths, through `SearchResults.ContentKeepsOrder` and `SearchResults.HighlightedKeys`.
- `Types.EntryFilterFromArgs`: takes the feed and entry arguments as already-resolved URL / id values. `_feed_argument` / `_entry_argument` are not modelled.
- Chunk sizes are natural numbers. A negative `chunk_size` setting is not modelled.

=== FILE: feedparser_lazy.dfy ===
/**
 * Turning the feed parser's result into the reader's feed and entry data
 * (reader/_feedparser_lazy.py): the feed-level error checks, the entry id
 * fallback for RSS, the content and enclosure clean-up, and the rule that
 * entries which fail to parse are skipped unless all of them fail.
 */
module FeedParserLazy {
  import opened Wrappers
  import opened PyValue
  import opened Types

  /** What the parser may report in `bozo_exception`. */
  datatype BozoException =
    | NoBozoException
    | CharacterEncodingOverride
    | NonXMLContentType
    | OtherBozoException

  /** One parsed entry: its fields, and its `content` and `enclosures` lists
      (empty when the key is missing), each item a dict. */
  datatype RawEntry = RawEntry(
    fields: map<string, Value>,
    content: seq<map<string, Value>>,
    enclosures: seq<map<string, Value>>)

  /** The parser's result: `d.get('bozo')`, `d.get('bozo_exception')`,
      `d.version`, `d.feed` and `d.entries`. */
  datatype ParserResult = ParserResult(
    bozo: Value,
    bozoException: BozoException,
    version: Option<string>,
    feed: map<string, Value>,
    entries: seq<RawEntry>)

  /** What processing raises: ParseError(url, message), or the TypeError of
      building a Content without a `value`, which no handler here catches. */
  datatype Raised = ParseError(url: string, message: string) | ContentWithoutValue

  /** The exceptions the parser documents as survivable. */
  predicate Survivable(e: BozoException)
  {
    e == CharacterEncodingOverride || e == NonXMLContentType
  }

  /** _get_datetime_attr: the time tuple under `key` when present and truthy
      (its conversion to a datetime is not part of this model). */
  function DatetimeAttr(thing: map<string, Value>, key: string): (r: Option<Value>)
    ensures r.Some? <==> key in thing && Truthy(thing[key])
    ensures r.Some? ==> r.value == thing[key]
  {
    if key in thing && Truthy(thing[key]) then Some(thing[key]) else None
  }

  // ---------------------------------------------------------------------
  // _process_entry

  /** `entry.get('id')`, or `entry.get('link')` when the id is falsy and the
      feed is RSS. */
  function EntryId(entry: RawEntry, isRss: bool): Value
  {
    var id := Get(entry.fields, "id");
    if !Truthy(id) && isRss then Get(entry.fields, "link") else id
  }

  const ContentKeys: set<string> := {"value", "type", "language"}
  const EnclosureKeys: set<string> := {"href", "type", "length"}

  /** Content(**data) over the kept keys of one content item. */
  function ContentOf(data: map<string, Value>): (r: Result<Content, Raised>)
    ensures r.Success? <==> "value" in data
    ensures r.Success? ==> r.value == Content(data["value"], Get(data, "type"), Get(data, "language"))
    ensures r.Failure? ==> r.error == ContentWithoutValue
  {
    var kept := Restrict(data, ContentKeys);
    if "value" in kept then Success(Content(kept["value"], Get(kept, "type"), Get(kept, "language")))
    else Failure(ContentWithoutValue)
  }

  /** The content list, item by item. */
  function ContentList(items: seq<map<string, Value>>): (r: Result<seq<Content>, Raised>)
    ensures r.Failure? ==> r.error == ContentWithoutValue
  {
    if items == [] then Success([])
    else
      match ContentList(items[..|items| - 1])
      case Failure(e) => Failure(e)
      case Success(cs) =>
        match ContentOf(items[|items| - 1])
        case Failure(e) => Failure(e)
        case Success(c) => Success(cs + [c])
  }

  /** `int(data['length'])` when the key is present, with a failed
      conversion dropping the key; Enclosure defaults a missing length to None. */
  function EnclosureLength(kept: map<string, Value>): (r: Option<int>)
    ensures "length" !in kept ==> r == None
    ensures "length" in kept ==> r == IntOf(kept["length"])
  {
    if "length" in kept then IntOf(kept["length"]) else None
  }

  /** The enclosure one item gives, or None when its href is falsy. */
  function EnclosureOf(data: map<string, Value>): (r: Option<Enclosure>)
    ensures r.Some? <==> Truthy(Get(data, "href"))
    ensures r.Some? ==> r.value.href == Get(data, "href") && r.value.enclosureType == Get(data, "type")
    ensures r.Some? ==> ("length" in data && IntOf(data["length"]).Some? <==> r.value.length.Some?)
    ensures r.Some? && r.value.length.Some? ==> IntOf(data["length"]) == r.value.length
  {
    var kept := Restrict(data, EnclosureKeys);
    var href := Get(kept, "href");
    if !Truthy(href) then None
    else Some(Enclosure(href, Get(kept, "type"), EnclosureLength(kept)))
  }

  /** The enclosure list: items without a truthy href are skipped. */
  function EnclosureList(items: seq<map<string, Value>>): (r: seq<Enclosure>)
    ensures |r| <= |items|
  {
    if items == [] then []
    else
      var e := EnclosureOf(items[|items| - 1]);
      EnclosureList(items[..|items| - 1]) + (if e.Some? then [e.value] else [])
  }

  /** _process_entry(feed_url, entry, is_rss), as a function of its input. */
  function ProcessEntryOf(feedUrl: string, entry: RawEntry, isRss: bool): Result<EntryData, Raised>
  {
    var id := EntryId(entry, isRss);
    if !Truthy(id) then Failure(ParseError(feedUrl, "entry with no id or fallback"))
    else
      match ContentList(entry.content)
      case Failure(e) => Failure(e)
      case Success(content) =>
        Success(EntryData(
          feedUrl,
          id,
          DatetimeAttr(entry.fields, "updated_parsed"),
          Get(entry.fields, "title"),
          Get(entry.fields, "link"),
          Get(entry.fields, "author"),
          DatetimeAttr(entry.fields, "published_parsed"),
          Get(entry.fields, "summary"),
          content,
          EnclosureList(entry.enclosures)))
  }

  /** _process_entry: the content and enclosure lists are built by loops. */
  method ProcessEntry(feedUrl: string, entry: RawEntry, isRss: bool) returns (r: Result<EntryData, Raised>)
    ensures r == ProcessEntryOf(feedUrl, entry, isRss)
  {
    var id := Get(entry.fields, "id");
    if !Truthy(id) && isRss {
      id := Get(entry.fields, "link");
    }
    if !Truthy(id) {
      return Failure(ParseError(feedUrl, "entry with no id or fallback"));
    }
    var content: seq<Content> := [];
    for i := 0 to |entry.content|
      invariant ContentList(entry.content[..i]) == Success(content)
    {
      assert entry.content[..i + 1][..i] == entry.content[..i];
      var item := ContentOf(entry.content[i]);
      if item.Failure? {
        ContentListFailurePersists(entry.content[..i + 1], entry.content[i + 1..]);
        assert entry.content[..i + 1] + entry.content[i + 1..] == entry.content;
        return Failure(item.error);
      }
      content := content + [item.value];
    }
    assert entry.content[..|entry.content|] == entry.content;
    var enclosures: seq<Enclosure> := [];
    for i := 0 to |entry.enclosures|
      invariant EnclosureList(entry.enclosures[..i]) == enclosures
    {
      assert entry.enclosures[..i + 1][..i] == entry.enclosures[..i];
      var data := Restrict(entry.enclosures[i], EnclosureKeys);
      var href := Get(data, "href");
      if !Truthy(href) {
        continue;
      }
      var length := None;
      if "length" in data {
        length := IntOf(data["length"]);
      }
      enclosures := enclosures + [Enclosure(href, Get(data, "type"), length)];
    }
    assert entry.enclosures[..|entry.enclosures|] == entry.enclosures;
    r := Success(EntryData(
      feedUrl,
      id,
      DatetimeAttr(entry.fields, "updated_parsed"),
      Get(entry.fields, "title"),
      Get(entry.fields, "link"),
      Get(entry.fields, "author"),
      DatetimeAttr(entry.fields, "published_parsed"),
      Get(entry.fields, "summary"),
      content,
      enclosures));
  }

  /** Once an item fails, the items after it do not matter. */
  lemma {:induction false} ContentListFailurePersists(xs: seq<map<string, Value>>, ys: seq<map<string, Value>>)
    requires ContentList(xs).Failure?
    ensures ContentList(xs + ys) == ContentList(xs)
    decreases |ys|
  {
    if ys == [] {
      assert xs + ys == xs;
    } else {
      var init := xs + ys[..|ys| - 1];
      ContentListFailurePersists(xs, ys[..|ys| - 1]);
      assert (xs + ys)[..|xs + ys| - 1] == init;
    }
  }

  /** The id rule: a truthy `id` is used as is; otherwise an RSS entry falls
      back to its `link`; an entry with neither raises ParseError. */
  lemma EntryIdRule(feedUrl: string, entry: RawEntry, isRss: bool)
    ensures var r := ProcessEntryOf(feedUrl, entry, isRss);
      var id := Get(entry.fields, "id");
      var link := Get(entry.fields, "link");
      && (Truthy(id) ==> r.Success? ==> r.value.id == id)
      && (!Truthy(id) && isRss ==> r.Success? ==> r.value.id == link)
      && (!Truthy(id) && (!isRss || !Truthy(link)) <==> r == Failure(ParseError(feedUrl, "entry with no id or fallback")))
  {
  }

  /** The content list keeps the items' order and, of each item, only its
      value, type and language; it fails exactly when an item has no value. */
  lemma {:induction false} ContentListRule(items: seq<map<string, Value>>)
    ensures ContentList(items).Success? <==> forall i :: 0 <= i < |items| ==> "value" in items[i]
    ensures ContentList(items).Success? ==>
      var cs := ContentList(items).value;
      |cs| == |items| &&
      forall i :: 0 <= i < |cs| ==> cs[i] == Content(items[i]["value"], Get(items[i], "type"), Get(items[i], "language"))
    decreases |items|
  {
    if items != [] {
      var init := items[..|items| - 1];
      ContentListRule(init);
      assert forall i :: 0 <= i < |init| ==> init[i] == items[i];
    }
  }

  /** Keys other than value, type and language make no difference. */
  lemma ContentIgnoresOtherKeys(d1: map<string, Value>, d2: map<string, Value>)
    requires Restrict(d1, ContentKeys) == Restrict(d2, ContentKeys)
    ensures ContentOf(d1) == ContentOf(d2)
  {
    assert "value" in d1 <==> "value" in Restrict(d1, ContentKeys);
    assert "type" in d1 <==> "type" in Restrict(d1, ContentKeys);
    assert "language" in d1 <==> "language" in Restrict(d1, ContentKeys);
  }

  /** Enclosures are handled one item at a time, in order. */
  lemma {:induction false} EnclosureListAppend(xs: seq<map<string, Value>>, ys: seq<map<string, Value>>)
    ensures EnclosureList(xs + ys) == EnclosureList(xs) + EnclosureList(ys)
    decreases |ys|
  {
    if ys == [] {
      assert xs + ys == xs;
    } else {
      var init := ys[..|ys| - 1];
      EnclosureListAppend(xs, init);
      assert (xs + ys)[..|xs + ys| - 1] == xs + init;
      assert (xs + ys)[|xs + ys| - 1] == ys[|ys| - 1];
    }
  }

  /** Every enclosure kept has a truthy href, and an item is dropped only
      when its href is falsy. */
  lemma {:induction false} EnclosureListRule(items: seq<map<string, Value>>)
    ensures forall e :: e in EnclosureList(items) ==> Truthy(e.href)
    ensures (forall i :: 0 <= i < |items| ==> Truthy(Get(items[i], "href"))) ==> |EnclosureList(items)| == |items|
    decreases |items|
  {
    if items != [] {
      var init := items[..|items| - 1];
      EnclosureListRule(init);
      assert forall i :: 0 <= i < |init| ==> init[i] == items[i];
    }
  }

  // ---------------------------------------------------------------------
  // _process_feed

  /** One turn of the entries loop: keep a processed entry, remember the
      first ParseError, let any other exception escape. */
  function Absorb(acc: (seq<EntryData>, Option<Raised>), result: Result<EntryData, Raised>): Result<(seq<EntryData>, Option<Raised>), Raised>
  {
    match result
    case Success(entry) => Success((acc.0 + [entry], acc.1))
    case Failure(e) =>
      if e.ParseError? then Success((acc.0, if acc.1.Some? then acc.1 else Some(e)))
      else Failure(e)
  }

  /** The entries loop over a prefix of `d.entries`: the entries processed so
      far and the first ParseError, or the exception that escaped. */
  function Collect(feedUrl: string, entries: seq<RawEntry>, isRss: bool): Result<(seq<EntryData>, Option<Raised>), Raised>
  {
    if entries == [] then Success(([], None))
    else
      match Collect(feedUrl, entries[..|entries| - 1], isRss)
      case Failure(e) => Failure(e)
      case Success(acc) => Absorb(acc, ProcessEntryOf(feedUrl, entries[|entries| - 1], isRss))
  }

  /** The entries loop takes one more entry. */
  lemma CollectStep(feedUrl: string, entries: seq<RawEntry>, i: nat, isRss: bool)
    requires i < |entries|
    ensures Collect(feedUrl, entries[..i + 1], isRss)
         == match Collect(feedUrl, entries[..i], isRss)
            case Failure(e) => Failure(e)
            case Success(acc) => Absorb(acc, ProcessEntryOf(feedUrl, entries[i], isRss))
  {
    assert entries[..i + 1][..i] == entries[..i];
  }

  /** The FeedData built from the parsed feed's fields. */
  function FeedOf(url: string, d: ParserResult): FeedData
  {
    FeedData(
      url,
      DatetimeAttr(d.feed, "updated_parsed"),
      Get(d.feed, "title"),
      Get(d.feed, "link"),
      Get(d.feed, "author"),
      Get(d.feed, "subtitle"),
      d.version)
  }

  /** _process_feed(url, d), as a function of its input. */
  function ProcessFeedOf(url: string, d: ParserResult): (r: Result<(FeedData, seq<EntryData>), Raised>)
    ensures Truthy(d.bozo) && !Survivable(d.bozoException) ==>
      r == Failure(ParseError(url, "error while parsing feed"))
    ensures !(Truthy(d.bozo) && !Survivable(d.bozoException)) && (d.version == None || d.version == Some("")) ==>
      r == Failure(ParseError(url, "unknown feed type"))
    ensures r.Success? ==> r.value.0.url == url && r.value.0.version == d.version
  {
    if Truthy(d.bozo) && !Survivable(d.bozoException) then
      Failure(ParseError(url, "error while parsing feed"))
    else if d.version == None || d.version == Some("") then
      Failure(ParseError(url, "unknown feed type"))
    else
      var isRss := StartsWith(d.version.value, "rss");
      var feed := FeedOf(url, d);
      match Collect(url, d.entries, isRss)
      case Failure(e) => Failure(e)
      case Success(acc) =>
        if acc.1.Some? && acc.0 == [] then Failure(acc.1.value)
        else Success((feed, acc.0))
  }

  /** _process_feed: the loop that appends entries and remembers the first
      ParseError. */
  method ProcessFeed(url: string, d: ParserResult) returns (r: Result<(FeedData, seq<EntryData>), Raised>)
    ensures r == ProcessFeedOf(url, d)
  {
    if Truthy(d.bozo) && !Survivable(d.bozoException) {
      return Failure(ParseError(url, "error while parsing feed"));
    }
    if d.version == None || d.version == Some("") {
      return Failure(ParseError(url, "unknown feed type"));
    }
    var isRss := StartsWith(d.version.value, "rss");
    var feed := FeedOf(url, d);
    var entries: seq<EntryData> := [];
    var firstParseError: Option<Raised> := None;
    for i := 0 to |d.entries|
      invariant Collect(url, d.entries[..i], isRss) == Success((entries, firstParseError))
    {
      var entry := ProcessEntry(url, d.entries[i], isRss);
      CollectStep(url, d.entries, i, isRss);
      if entry.Failure? {
        if !entry.error.ParseError? {
          CollectFailurePersists(url, d.entries[..i + 1], d.entries[i + 1..], isRss);
          assert d.entries[..i + 1] + d.entries[i + 1..] == d.entries;
          return Failure(entry.error);
        }
        if firstParseError.None? {
          firstParseError := Some(entry.error);
        }
      } else {
        entries := entries + [entry.value];
      }
    }
    assert d.entries[..|d.entries|] == d.entries;
    if firstParseError.Some? && entries == [] {
      return Failure(firstParseError.value);
    }
    return Success((feed, entries));
  }

  lemma {:induction false} CollectFailurePersists(url: string, xs: seq<RawEntry>, ys: seq<RawEntry>, isRss: bool)
    requires Collect(url, xs, isRss).Failure?
    ensures Collect(url, xs + ys, isRss) == Collect(url, xs, isRss)
    decreases |ys|
  {
    if ys == [] {
      assert xs + ys == xs;
    } else {
      CollectFailurePersists(url, xs, ys[..|ys| - 1], isRss);
      assert (xs + ys)[..|xs + ys| - 1] == xs + ys[..|ys| - 1];
    }
  }

  /** The entries that processed, in order. */
  function Successes(results: seq<Result<EntryData, Raised>>): (r: seq<EntryData>)
    ensures |r| <= |results|
  {
    if results == [] then []
    else Successes(results[..|results| - 1]) + (if results[|results| - 1].Success? then [results[|results| - 1].value] else [])
  }

  /** The first failure, if any. */
  function FirstFailure(results: seq<Result<EntryData, Raised>>): (r: Option<Raised>)
    ensures r.Some? <==> exists i :: 0 <= i < |results| && results[i].Failure?
  {
    if results == [] then None
    else if results[0].Failure? then Some(results[0].error)
    else
      var rest := FirstFailure(results[1..]);
      assert forall i :: 1 <= i < |results| ==> results[i] == results[1..][i - 1];
      assert rest.Some? ==> exists i :: 0 <= i < |results[1..]| && results[1..][i].Failure?;
      rest
  }

  /** What processing each entry on its own gives. */
  function EntryResults(url: string, entries: seq<RawEntry>, isRss: bool): (r: seq<Result<EntryData, Raised>>)
    ensures |r| == |entries|
    ensures forall i :: 0 <= i < |entries| ==> r[i] == ProcessEntryOf(url, entries[i], isRss)
  {
    seq(|entries|, i requires 0 <= i < |entries| => ProcessEntryOf(url, entries[i], isRss))
  }

  /** No entry raised anything but ParseError. */
  predicate OnlyParseErrors(results: seq<Result<EntryData, Raised>>)
  {
    forall i :: 0 <= i < |results| ==> results[i].Failure? ==> results[i].error.ParseError?
  }

  lemma {:induction false} FirstFailureSnoc(results: seq<Result<EntryData, Raised>>, last: Result<EntryData, Raised>)
    ensures FirstFailure(results + [last]) ==
      if FirstFailure(results).Some? then FirstFailure(results) else if last.Failure? then Some(last.error) else None
    decreases |results|
  {
    if results == [] {
      assert results + [last] == [last];
      assert [last][1..] == [];
    } else {
      assert (results + [last])[1..] == results[1..] + [last];
      FirstFailureSnoc(results[1..], last);
    }
  }

  /** The entries loop, read as a whole: with only ParseErrors among the
      entries, it keeps the successful entries in order and remembers the
      first error. */
  lemma {:induction false} CollectIsFilter(url: string, entries: seq<RawEntry>, isRss: bool)
    requires OnlyParseErrors(EntryResults(url, entries, isRss))
    ensures Collect(url, entries, isRss)
         == Success((Successes(EntryResults(url, entries, isRss)), FirstFailure(EntryResults(url, entries, isRss))))
    decreases |entries|
  {
    if entries != [] {
      var init := entries[..|entries| - 1];
      var results := EntryResults(url, entries, isRss);
      assert EntryResults(url, init, isRss) == results[..|results| - 1];
      assert OnlyParseErrors(EntryResults(url, init, isRss));
      CollectIsFilter(url, init, isRss);
      var last := results[|results| - 1];
      assert last == ProcessEntryOf(url, entries[|entries| - 1], isRss);
      assert entries[..|entries| - 1] == init;
      assert Collect(url, entries, isRss) == Absorb(Collect(url, init, isRss).value, last);
      assert results == results[..|results| - 1] + [last];
      FirstFailureSnoc(results[..|results| - 1], last);
      assert Successes(results) == Successes(results[..|results| - 1]) + (if last.Success? then [last.value] else []);
      assert FirstFailure(results) == FirstFailure(results[..|results| - 1] + [last]);
      var prefix := results[..|results| - 1];
      var acc := Collect(url, init, isRss).value;
      assert acc == (Successes(prefix), FirstFailure(prefix));
      if last.Failure? {
        assert last.error.ParseError?;
        assert Absorb(acc, last) == Success((acc.0, if acc.1.Some? then acc.1 else Some(last.error)));
        assert Successes(results) == Successes(results[..|results| - 1]) + [];
        assert Successes(results) == acc.0;
        assert FirstFailure(results) == (if acc.1.Some? then acc.1 else Some(last.error));
        assert Collect(url, entries, isRss) == Success((Successes(results), FirstFailure(results)));
      }
    }
  }

  /** Skip bad entries, but raise the first error if all of them failed: for
      a feed that passes the feed-level checks and whose entries raise only
      ParseError, processing fails exactly when there are entries and none
      of them processed, and then with the first entry's error; otherwise it
      returns the entries that processed, in order. */
  lemma ProcessFeedEntries(url: string, d: ParserResult)
    requires !(Truthy(d.bozo) && !Survivable(d.bozoException))
    requires d.version.Some? && d.version.value != ""
    requires OnlyParseErrors(EntryResults(url, d.entries, StartsWith(d.version.value, "rss")))
    ensures var results := EntryResults(url, d.entries, StartsWith(d.version.value, "rss"));
      && (ProcessFeedOf(url, d).Failure? <==> d.entries != [] && Successes(results) == [])
      && (ProcessFeedOf(url, d).Failure? ==>
            results != [] && results[0].Failure? && ProcessFeedOf(url, d).error == results[0].error)
      && (ProcessFeedOf(url, d).Success? ==> ProcessFeedOf(url, d).value.1 == Successes(results))
  {
    var isRss := StartsWith(d.version.value, "rss");
    var results := EntryResults(url, d.entries, isRss);
    CollectIsFilter(url, d.entries, isRss);
    SuccessesEmpty(results);
  }

  /** No success at all means every result failed. */
  lemma {:induction false} SuccessesEmpty(results: seq<Result<EntryData, Raised>>)
    ensures Successes(results) == [] <==> forall i :: 0 <= i < |results| ==> results[i].Failure?
    decreases |results|
  {
    if results != [] {
      var init := results[..|results| - 1];
      SuccessesEmpty(init);
      assert forall i :: 0 <= i < |init| ==> init[i] == results[i];
    }
  }

  /** A feed without entries processes to an empty entry list. */
  lemma NoEntries(url: string, d: ParserResult)
    requires !(Truthy(d.bozo) && !Survivable(d.bozoException))
    requires d.version.Some? && d.version.value != ""
    requires d.entries == []
    ensures ProcessFeedOf(url, d).Success? && ProcessFeedOf(url, d).value.1 == []
  {
  }
}

=== FILE: pyvalue.dfy ===
/**
 * Python values as the validators and the feed parser see them: only the
 * distinctions the reader library tests (None, bool, int, float, str, a
 * non-string sequence, anything else), Python truthiness and equality, and the few
 * string operations the library relies on (startswith, `in`, lower, str(int),
 * int(str)).
 */
module PyValue {
  import opened Wrappers

  /** FloatValue is a finite float; SeqValue is any non-string
      `collections.abc.Sequence` (list, tuple, ...); OtherValue is any other
      object (dict, set, ...). */
  datatype Value =
    | NoneValue
    | BoolValue(b: bool)
    | IntValue(i: int)
    | FloatValue(x: real)
    | StrValue(s: string)
    | SeqValue(items: seq<Value>)
    | OtherValue

  /** Python truthiness (`if v:`); other objects count as true. */
  predicate Truthy(v: Value)
  {
    match v
    case NoneValue => false
    case BoolValue(b) => b
    case IntValue(i) => i != 0
    case FloatValue(x) => x != 0.0
    case StrValue(s) => s != ""
    case SeqValue(xs) => xs != []
    case OtherValue => true
  }

  /** `v == True`: in Python, 1 == 1.0 == True. */
  predicate EqualsTrue(v: Value)
  {
    v == BoolValue(true) || v == IntValue(1) || v == FloatValue(1.0)
  }

  /** `v == False`: in Python, 0 == 0.0 == False. */
  predicate EqualsFalse(v: Value)
  {
    v == BoolValue(false) || v == IntValue(0) || v == FloatValue(0.0)
  }

  /** `v in (None, False, True)`. */
  predicate IsNoneOrBool(v: Value)
  {
    v == NoneValue || EqualsTrue(v) || EqualsFalse(v)
  }

  /** `d.get(key)` on a dict of values: None when the key is missing. */
  function Get(d: map<string, Value>, key: string): (r: Value)
    ensures key !in d ==> r == NoneValue
    ensures key in d ==> r == d[key]
  {
    if key in d then d[key] else NoneValue
  }

  /** `{k: v for k, v in d.items() if k in keys}`. */
  function Restrict(d: map<string, Value>, keys: set<string>): (r: map<string, Value>)
    ensures r.Keys == d.Keys * keys
    ensures forall k :: k in r ==> r[k] == d[k]
  {
    map k | k in d && k in keys :: d[k]
  }

  predicate StartsWith(s: string, prefix: string)
  {
    |prefix| <= |s| && s[..|prefix|] == prefix
  }

  /** `sub in s` for strings. */
  predicate Contains(s: string, sub: string)
  {
    exists i :: 0 <= i <= |s| - |sub| && OccursAt(s, sub, i)
  }

  predicate OccursAt(s: string, sub: string, i: int)
  {
    0 <= i <= |s| - |sub| && s[i..i + |sub|] == sub
  }

  function LowerChar(c: char): char
  {
    if 'A' <= c <= 'Z' then (c as int - 'A' as int + 'a' as int) as char else c
  }

  /** `s.lower()`, for ASCII letters. */
  function Lower(s: string): (r: string)
    ensures |r| == |s|
    ensures forall i :: 0 <= i < |s| ==> r[i] == LowerChar(s[i])
  {
    seq(|s|, i requires 0 <= i < |s| => LowerChar(s[i]))
  }

  predicate IsDigit(c: char)
  {
    '0' <= c <= '9'
  }

  function DigitChar(d: nat): char
    requires d < 10
  {
    ('0' as int + d) as char
  }

  /** `str(n)` for a non-negative int. */
  function NatToString(n: nat): (r: string)
    ensures |r| > 0
    ensures forall i :: 0 <= i < |r| ==> IsDigit(r[i])
    decreases n
  {
    if n < 10 then [DigitChar(n)] else NatToString(n / 10) + [DigitChar(n % 10)]
  }

  /** The value of a non-empty string of decimal digits. */
  function DigitsValue(s: string): nat
    requires forall i :: 0 <= i < |s| ==> IsDigit(s[i])
  {
    if s == [] then 0 else 10 * DigitsValue(s[..|s| - 1]) + DigitValue(s[|s| - 1])
  }

  function DigitValue(c: char): nat
    requires IsDigit(c)
  {
    c as int - '0' as int
  }

  lemma {:induction false} DigitsValueOfNatToString(n: nat)
    ensures DigitsValue(NatToString(n)) == n
    decreases n
  {
    if n >= 10 {
      var r := NatToString(n);
      assert r[..|r| - 1] == NatToString(n / 10);
      DigitsValueOfNatToString(n / 10);
    }
  }

  /** `str(n)` never maps two numbers to the same text. */
  lemma NatToStringInjective(m: nat, n: nat)
    requires NatToString(m) == NatToString(n)
    ensures m == n
  {
    DigitsValueOfNatToString(m);
    DigitsValueOfNatToString(n);
  }

  /** `str(i)` for any int. */
  function IntToString(i: int): (r: string)
  {
    if i < 0 then "-" + NatToString(-i) else NatToString(i)
  }

  /** The whitespace `int()` strips around its digits: ASCII tab to carriage
      return and space, and the non-ASCII characters `str.isspace()` accepts
      (NEL, no-break space, the Unicode spaces, the line and paragraph
      separators). The ASCII separators 0x1c-0x1f are not stripped. */
  predicate IsSpace(c: char)
  {
    ('\t' <= c <= '\r') || c == ' '
    || c == '\U{85}' || c == '\U{a0}' || c == '\U{1680}' || ('\U{2000}' <= c <= '\U{200a}')
    || c == '\U{2028}' || c == '\U{2029}' || c == '\U{202f}' || c == '\U{205f}' || c == '\U{3000}'
  }

  function TrimLeft(s: string): (r: string)
    ensures |r| <= |s|
    ensures r == [] || !IsSpace(r[0])
  {
    if s != [] && IsSpace(s[0]) then TrimLeft(s[1..]) else s
  }

  function TrimRight(s: string): (r: string)
    ensures |r| <= |s|
    ensures r == [] || !IsSpace(r[|r| - 1])
  {
    if s != [] && IsSpace(s[|s| - 1]) then TrimRight(s[..|s| - 1]) else s
  }

  predicate AllDigits(s: string)
  {
    forall i :: 0 <= i < |s| ==> IsDigit(s[i])
  }

  /** `int(s)` for a str: surrounding whitespace, an optional sign, decimal digits. */
  function ParseInt(s: string): (r: Option<int>)
  {
    var t := TrimRight(TrimLeft(s));
    var neg := t != [] && t[0] == '-';
    var digits := if t != [] && (t[0] == '-' || t[0] == '+') then t[1..] else t;
    if digits != [] && AllDigits(digits) then
      var magnitude: int := DigitsValue(digits);
      Some(if neg then -magnitude else magnitude)
    else
      None
  }

  /** Reading back what `str(i)` writes gives `i` again. */
  lemma ParseIntOfIntToString(i: int)
    ensures ParseInt(IntToString(i)) == Some(i)
  {
    var s := IntToString(i);
    var n: nat := if i < 0 then -i else i;
    var d := NatToString(n);
    assert TrimLeft(s) == s by {
      assert s[0] == '-' || IsDigit(s[0]);
    }
    assert TrimRight(s) == s by {
      assert IsDigit(s[|s| - 1]);
    }
    if i < 0 {
      assert s[1..] == d;
    }
    DigitsValueOfNatToString(n);
  }

  /** `int(x)` for a float: truncation toward zero. */
  function Truncate(x: real): (r: int)
    ensures x >= 0.0 ==> r as real <= x < r as real + 1.0
    ensures x < 0.0 ==> r as real - 1.0 < x <= r as real
  {
    if x >= 0.0 then x.Floor else -((-x).Floor)
  }

  /** `int()` strips any of its whitespace, Unicode spaces included, around the sign and digits. */
  lemma ParseIntExamples()
    ensures ParseInt("\U{c}12") == Some(12)
    ensures ParseInt("\U{a0}-7\n") == Some(-7)
    ensures ParseInt("\U{1c}12") == None
    ensures ParseInt(" + ") == None
  {
    assert TrimLeft("\U{c}12") == "12";
    assert TrimRight("12") == "12";
    assert "12"[..1] == "1" && "1"[..0] == [];
    assert DigitsValue("12") == 12;
    assert TrimLeft("\U{a0}-7\n") == "-7\n";
    assert TrimRight("-7\n") == "-7";
    assert "-7"[1..] == "7" && "7"[..0] == [];
    assert DigitsValue("7") == 7;
    assert TrimLeft("\U{1c}12") == "\U{1c}12";
    assert TrimRight("\U{1c}12") == "\U{1c}12";
    var bad := "\U{1c}12";
    assert bad[0] != '-' && bad[0] != '+' && !IsDigit(bad[0]);
    assert TrimRight(TrimLeft(bad)) == bad;
    assert TrimLeft(" + ") == "+ ";
    assert TrimRight("+ ") == "+";
    assert "+"[1..] == [];
  }

  /** Python `int(v)`: None on the TypeError or ValueError it would raise.
      Other objects are taken to raise. */
  function IntOf(v: Value): (r: Option<int>)
    ensures v.IntValue? ==> r == Some(v.i)
    ensures v.BoolValue? ==> r == Some(if v.b then 1 else 0)
    ensures v.FloatValue? ==> r == Some(Truncate(v.x))
    ensures v.NoneValue? || v.SeqValue? || v.OtherValue? ==> r == None
  {
    match v
    case IntValue(i) => Some(i)
    case BoolValue(b) => Some(if b then 1 else 0)
    case FloatValue(x) => Some(Truncate(x))
    case StrValue(s) => ParseInt(s)
    case _ => None
  }
}

=== FILE: search.dfy ===
/**
 * The search engine on a live database. The tables are fields updated in
 * place; the SQL triggers, enable/disable and the two update phases are
 * methods, each tied to the transition of SearchModel it performs and
 * keeping the invariant Coherent.
 */
module Search {
  import opened Wrappers
  import opened PyValue
  import opened SearchModel
  import Utils
  import SearchResults

  /**
   * `SELECT ... LIMIT ?` with no ORDER BY: any `limit` of the matching
   * records (all of them when there are fewer), each once, in any order.
   */
  method FetchLimited(pool: set<EntryKey>, limit: nat) returns (keys: seq<EntryKey>)
    ensures KeySet(keys) <= pool
    ensures |KeySet(keys)| == |keys| == Utils.Min(limit, |pool|)
    ensures forall i, j :: 0 <= i < j < |keys| ==> keys[i] != keys[j]
  {
    keys := [];
    var left := pool;
    while |keys| < limit && left != {}
      invariant KeySet(keys) + left == pool && KeySet(keys) !! left
      invariant |KeySet(keys)| == |keys| <= limit
      invariant forall i, j :: 0 <= i < j < |keys| ==> keys[i] != keys[j]
      decreases |left|
    {
      var k :| k in left;
      assert KeySet(keys + [k]) == KeySet(keys) + {k};
      keys := keys + [k];
      left := left - {k};
    }
    assert |pool| == |KeySet(keys)| + |left|;
  }

  /** The fragment list of one entry, built by appending as the update does. */
  method BuildFragments(strip: string -> string, content: Option<seq<ContentItem>>, summary: Option<string>)
    returns (final: seq<Fragment>)
    ensures final == Fragments(strip, content, summary)
  {
    final := [];
    if content.Some? && content.value != [] {
      var items := content.value;
      for i := 0 to |items|
        invariant final == ContentFragments(strip, items[..i])
      {
        assert items[..i + 1][..i] == items[..i];
        if !Indexed(items[i]) {
          continue;
        }
        final := final + [Fragment(StripOpt(strip, items[i].value), Some(ContentPath(i)))];
      }
      assert items[..|items|] == items;
    }
    if summary.Some? && summary.value != "" {
      final := final + [Fragment(StripOpt(strip, summary), Some(".summary"))];
    }
    if final == [] {
      final := [Fragment(None, None)];
    }
  }

  /** The index rows of one entry: the stripped titles with each fragment. */
  method PrepareEntry(strip: string -> string, snap: Snapshot) returns (p: Prepared)
    ensures p == Prepare(strip, snap)
  {
    var final := BuildFragments(strip, snap.content, snap.summary);
    var rows: seq<IndexRow> := [];
    for j := 0 to |final|
      invariant |rows| == j
      invariant forall m :: 0 <= m < j ==> rows[m] == PreparedRow(snap, strip, final[m])
    {
      rows := rows + [PreparedRow(snap, strip, final[j])];
    }
    p := Prepared(snap.key, snap.lastUpdated, snap.esRowids, rows);
  }

  /**
   * The read phase of an insert chunk, in one read transaction on `s`: the
   * snapshot of each selected entry, with its feed, turned into index rows.
   */
  method ReadChunk(s: State, strip: string -> string, keys: seq<EntryKey>) returns (prepared: seq<Prepared>)
    requires KeySet(keys) <= Selectable(s)
    ensures |prepared| == |keys|
    ensures forall j :: 0 <= j < |keys| ==> prepared[j] == Prepare(strip, SnapshotOf(s, keys[j]))
    ensures forall j :: 0 <= j < |keys| ==>
      prepared[j].key == keys[j] && PointsBack(prepared[j]) && StillPending(s, prepared[j])
  {
    prepared := [];
    for i := 0 to |keys|
      invariant |prepared| == i
      invariant forall j :: 0 <= j < i ==> prepared[j] == Prepare(strip, SnapshotOf(s, keys[j]))
    {
      var snap := SnapshotOf(s, keys[i]);
      var p := PrepareEntry(strip, snap);
      prepared := prepared + [p];
    }
    assert forall j :: 0 <= j < |keys| ==> keys[j] in KeySet(keys);
  }

  class Database {
    var entries: map<EntryKey, EntryRow>
    var feeds: map<string, FeedRow>
    var enabled: bool
    var sync: map<EntryKey, SyncRecord>
    var index: map<int, IndexRow>
    var nextRowid: int

    function State(): State
      reads this
    {
      SearchModel.State(entries, feeds, enabled, sync, index, nextRowid)
    }

    ghost predicate Valid()
      reads this
    {
      Coherent(State())
    }

    /** A database whose search was never enabled. */
    constructor (entries: map<EntryKey, EntryRow>, feeds: map<string, FeedRow>)
      ensures State() == SearchModel.State(entries, feeds, false, map[], map[], 1)
      ensures Valid()
    {
      this.entries := entries;
      this.feeds := feeds;
      enabled := false;
      sync := map[];
      index := map[];
      nextRowid := 1;
    }

    // -------------------------------------------------------------------------
    // Triggers
    // -------------------------------------------------------------------------

    method InsertEntry(k: EntryKey, row: EntryRow)
      requires Valid()
      modifies this
      ensures State() == InsertEntryOf(old(State()), k, row)
      ensures Valid()
    {
      InsertEntryKeepsCoherent(State(), k, row);
      entries := entries[k := row];
      if enabled {
        if k in sync {
          sync := sync[k := sync[k].(toUpdate := true, toDelete := false)];
        } else {
          sync := sync[k := SyncRecord(true, false, [])];
        }
      }
    }

    method UpdateEntry(k: EntryKey, row: EntryRow)
      requires Valid()
      modifies this
      ensures State() == UpdateEntryOf(old(State()), k, row)
      ensures Valid()
    {
      UpdateEntryKeepsCoherent(State(), k, row);
      if k in entries {
        var before := entries[k];
        entries := entries[k := row];
        if enabled && Reindexable(before, row) && k in sync {
          sync := sync[k := sync[k].(toUpdate := true)];
        }
      }
    }

    method DeleteEntry(k: EntryKey)
      requires Valid()
      modifies this
      ensures State() == DeleteEntryOf(old(State()), k)
      ensures Valid()
    {
      DeleteEntryKeepsCoherent(State(), k);
      if k in entries {
        entries := entries - {k};
        if enabled && k in sync {
          sync := sync[k := sync[k].(toDelete := true)];
        }
      }
    }

    method UpdateFeedTitle(url: string, title: Option<string>, userTitle: Option<string>)
      requires Valid()
      modifies this
      ensures State() == UpdateFeedTitleOf(old(State()), url, title, userTitle)
      ensures Valid()
    {
      UpdateFeedTitleKeepsCoherent(State(), url, title, userTitle);
      if url in feeds {
        var before := feeds[url];
        feeds := feeds[url := FeedRow(title, userTitle)];
        if enabled && (SqlNe(before.title, title) || SqlNe(before.userTitle, userTitle)) {
          sync := MarkFeed(sync, url);
        }
      }
    }

    /** UPDATE feeds SET url = to WHERE url = from, with its cascade and trigger. */
    method RenameFeed(from: string, to: string) returns (r: Result<(), RenameError>)
      requires Valid()
      modifies this
      ensures r.Success? <==> RenameFeedOf(old(State()), from, to).Success?
      ensures r.Success? ==> State() == RenameFeedOf(old(State()), from, to).value
      ensures r.Failure? ==> State() == old(State())
      ensures Valid()
    {
      ghost var s0 := State();
      r := ApplyRename(from, to);
      if r.Success? {
        RenameFeedKeepsCoherent(s0, from, to);
      }
    }

    /** The statement itself: any failing step leaves every table as it was. */
    method ApplyRename(from: string, to: string) returns (r: Result<(), RenameError>)
      modifies this
      ensures r.Success? <==> RenameFeedOf(old(State()), from, to).Success?
      ensures r.Success? ==> State() == RenameFeedOf(old(State()), from, to).value
      ensures r.Failure? ==> State() == old(State())
    {
      if from !in feeds || from == to {
        return Success(());
      }
      if to in feeds || RekeyClash(entries, from, to) {
        return Failure(UniqueConstraintFailed);
      }
      ghost var s0 := State();
      ghost var renamed := s0.(feeds := (s0.feeds - {from})[to := s0.feeds[from]],
                               entries := Rekey(s0.entries, from, to));
      var feed := feeds[from];
      var renamedEntries := Rekey(entries, from, to);
      if enabled {
        var dropped := set k | k in sync && k.feed == to && sync[k].toDelete;
        var keptIndex := index - RowidsOf(sync, dropped);
        var keptSync := sync - dropped;
        ghost var cleared := DeleteRecords(renamed, DroppedOnRename(renamed, to));
        assert keptSync == cleared.sync && keptIndex == cleared.index;
        if RekeyClash(keptSync, from, to) {
          return Failure(UniqueConstraintFailed);
        }
        index := Repoint(keptIndex, RowidsOf(keptSync, KeysOfFeed(keptSync, from)), to);
        sync := Rekey(keptSync, from, to);
        feeds := (feeds - {from})[to := feed];
        entries := renamedEntries;
        assert State() == MoveRecords(cleared, from, to);
      } else {
        feeds := (feeds - {from})[to := feed];
        entries := renamedEntries;
        assert State() == renamed;
      }
      r := Success(());
    }

    // -------------------------------------------------------------------------
    // Enable and disable
    // -------------------------------------------------------------------------

    /**
     * Creates the search tables and triggers. When they already exist the
     * creation fails with "table entries_search already exists", which
     * enable swallows: nothing changes.
     */
    method Enable()
      requires Valid()
      modifies this
      ensures State() == EnableOf(old(State()))
      ensures Valid()
    {
      EnableKeepsCoherent(State());
      if enabled {
        return;
      }
      sync := map k | k in entries :: SyncRecord(true, false, []);
      index := map[];
      enabled := true;
    }

    method Disable()
      requires Valid()
      modifies this
      ensures State() == DisableOf(old(State()))
      ensures Valid()
    {
      DisableKeepsCoherent(State());
      enabled := false;
      sync := map[];
      index := map[];
    }

    // -------------------------------------------------------------------------
    // update(): deleting
    // -------------------------------------------------------------------------
    /** `DELETE FROM entries_search WHERE rowid = ?`, once per rowid. */
    method DeleteIndexRows(rowids: seq<int>)
      modifies this
      ensures State() == old(State()).(index := old(index) - RowidSet(rowids))
    {
      for j := 0 to |rowids|
        invariant State() == old(State()).(index := old(index) - RowidSet(rowids[..j]))
      {
        assert RowidSet(rowids[..j + 1]) == RowidSet(rowids[..j]) + {rowids[j]};
        index := index - {rowids[j]};
      }
      assert rowids[..|rowids|] == rowids;
    }

    /** Deletes every index row the records of `keys` list, record by record. */
    method DeleteRowsOf(keys: seq<EntryKey>)
      requires forall i :: 0 <= i < |keys| ==> keys[i] in sync
      modifies this
      ensures State() == old(State()).(index := old(index) - RowidsOf(old(sync), KeySet(keys)))
    {
      for i := 0 to |keys|
        invariant State() == old(State()).(index := old(index) - RowidsOf(old(sync), KeySet(keys[..i])))
      {
        RowidsOfAdd(sync, KeySet(keys[..i]), keys[i]);
        assert KeySet(keys[..i + 1]) == KeySet(keys[..i]) + {keys[i]};
        DeleteIndexRows(sync[keys[i]].esRowids);
      }
      assert keys[..|keys|] == keys;
    }

    /** `DELETE FROM entries_search_sync_state WHERE (id, feed) = (?, ?)`, once per key. */
    method DeleteRecordsOf(keys: seq<EntryKey>)
      modifies this
      ensures State() == old(State()).(sync := old(sync) - KeySet(keys))
    {
      for i := 0 to |keys|
        invariant State() == old(State()).(sync := old(sync) - KeySet(keys[..i]))
      {
        assert KeySet(keys[..i + 1]) == KeySet(keys[..i]) + {keys[i]};
        sync := sync - {keys[i]};
      }
      assert keys[..|keys|] == keys;
    }

    /**
     * One delete chunk: fetch up to `chunk_size or 1` records marked for
     * deletion, delete every index row they list, then the records. Reports
     * more work only when the fetch was full.
     */
    method DeleteOneChunk(chunkSize: nat) returns (more: bool, rows: seq<EntryKey>)
      requires Valid() && enabled
      modifies this
      ensures Valid() && enabled
      ensures KeySet(rows) <= ToDelete(old(State()))
      ensures |KeySet(rows)| == |rows| == Utils.Min(ChunkLimit(chunkSize), |ToDelete(old(State()))|)
      ensures State() == DeleteRecords(old(State()), KeySet(rows))
      ensures more <==> |rows| == ChunkLimit(chunkSize)
    {
      var limit := ChunkLimit(chunkSize);
      rows := FetchLimited(ToDelete(State()), limit);
      assert forall i :: 0 <= i < |rows| ==> rows[i] in KeySet(rows);
      if rows == [] {
        assert DeleteRecords(State(), KeySet(rows)) == State();
        return false, rows;
      }
      DeleteRecordsKeepsCoherent(State(), KeySet(rows));
      DeleteRowsOf(rows);
      DeleteRecordsOf(rows);
      more := !(|rows| < limit);
    }

    /** Runs delete chunks until one reports no more work. */
    method DeleteFromSearch(chunkSize: nat)
      requires Valid() && enabled
      modifies this
      ensures Valid() && enabled
      ensures State() == DeleteRecords(old(State()), ToDelete(old(State())))
      ensures ToDelete(State()) == {}
    {
      ghost var s0 := State();
      ghost var removed: set<EntryKey> := {};
      assert DeleteRecords(s0, {}) == s0;
      var done := false;
      while !done
        invariant Valid() && enabled
        invariant removed <= ToDelete(s0)
        invariant State() == DeleteRecords(s0, removed)
        invariant done ==> ToDelete(State()) == {}
        decreases |ToDelete(State())| + (if done then 0 else 1)
      {
        ghost var before := State();
        var more, rows := DeleteOneChunk(chunkSize);
        DeleteRecordsCompose(s0, removed, KeySet(rows));
        DeleteRecordsProgress(before, KeySet(rows));
        DeleteRecordsProgress(s0, removed);
        if rows != [] {
          RemovingShrinks(ToDelete(before), KeySet(rows));
        }
        if !more {
          FullPart(ToDelete(before), KeySet(rows));
        }
        removed := removed + KeySet(rows);
        done := !more;
      }
      DeleteRecordsProgress(s0, removed);
      assert removed == ToDelete(s0);
    }

    // -------------------------------------------------------------------------
    // update(): inserting
    // -------------------------------------------------------------------------

    /** `INSERT INTO entries_search` of each row in turn, collecting `lastrowid`. */
    method InsertIndexRows(rows: seq<IndexRow>) returns (newRowids: seq<int>)
      modifies this
      ensures newRowids == Span(old(nextRowid), |rows|)
      ensures State() == old(State()).(index := old(index) + NewRows(old(nextRowid), rows),
                                       nextRowid := old(nextRowid) + |rows|)
    {
      newRowids := [];
      for j := 0 to |rows|
        invariant newRowids == Span(old(nextRowid), j)
        invariant State() == old(State()).(index := old(index) + NewRows(old(nextRowid), rows[..j]),
                                           nextRowid := old(nextRowid) + j)
      {
        assert rows[..j + 1][..j] == rows[..j];
        index := index[nextRowid := rows[j]];
        newRowids := newRowids + [nextRowid];
        nextRowid := nextRowid + 1;
      }
      assert rows[..|rows|] == rows;
    }

    /**
     * The write phase for one entry, in its own transaction: re-check that
     * the record is still to update with the snapshot's rowids and that the
     * entry's last_updated is unchanged; if so, replace the snapshot's rows
     * by the new ones and clear to_update. `p` is whatever the read phase
     * saw, so any change in between is allowed for.
     */
    method WriteEntry(p: Prepared) returns (outcome: WriteOutcome)
      requires Valid() && PointsBack(p)
      modifies this
      ensures (State(), outcome) == WriteOf(old(State()), p)
      ensures Valid()
    {
      WriteKeepsCoherent(State(), p);
      if !enabled {
        return NoSuchTable;
      }
      if !(p.key in sync && sync[p.key].toUpdate && RowidSet(sync[p.key].esRowids) == RowidSet(p.esRowids)) {
        return Skipped;
      }
      if !(p.key in entries && entries[p.key].lastUpdated == p.lastUpdated) {
        return Skipped;
      }
      Commit(p);
      outcome := Committed;
    }

    /** The commit of the write phase: swap the entry's rows and clear its record. */
    method Commit(p: Prepared)
      requires p.key in sync
      modifies this
      ensures State() == CommitOf(old(State()), p)
    {
      DeleteIndexRows(p.esRowids);
      var newRowids := InsertIndexRows(p.rows);
      sync := sync[p.key := sync[p.key].(toUpdate := false, esRowids := newRowids)];
    }

    /**
     * The write phase of a chunk: each entry in turn, against whatever the
     * state is by then; each write re-checks its entry.
     */
    method WriteChunk(prepared: seq<Prepared>)
      requires Valid() && enabled && forall j :: 0 <= j < |prepared| ==> PointsBack(prepared[j])
      modifies this
      ensures State() == WriteAll(old(State()), prepared)
      ensures Valid()
    {
      ghost var s0 := State();
      for i := 0 to |prepared|
        invariant State() == WriteAll(s0, prepared[..i])
        invariant Valid()
      {
        assert prepared[..i + 1][..i] == prepared[..i];
        var outcome := WriteEntry(prepared[i]);
      }
      assert prepared[..|prepared|] == prepared;
    }

    /**
     * One insert chunk: read up to `chunk_size or 1` records to update with
     * their entry and feed, build their index rows, then write each entry.
     * Run alone, every entry it read ends up indexed with the rows built
     * from its snapshot, and every other record and its rows stay as they
     * were. Reports more work whenever it read anything.
     */
    method InsertOneChunk(strip: string -> string, chunkSize: nat) returns (more: bool, keys: seq<EntryKey>)
      requires Valid() && enabled
      modifies this
      ensures Valid() && enabled
      ensures entries == old(entries) && feeds == old(feeds)
      ensures KeySet(keys) <= Selectable(old(State()))
      ensures |KeySet(keys)| == |keys| == Utils.Min(ChunkLimit(chunkSize), |Selectable(old(State()))|)
      ensures more <==> keys != []
      ensures Selectable(State()) == Selectable(old(State())) - KeySet(keys)
      ensures ToDelete(State()) == ToDelete(old(State()))
      ensures forall j :: 0 <= j < |keys| ==>
        keys[j] in Selectable(old(State()))
        && IndexedAs(State(), keys[j], Prepare(strip, SnapshotOf(old(State()), keys[j])).rows)
      ensures forall k :: k in old(sync) && k !in KeySet(keys) ==> k in sync && sync[k] == old(sync)[k]
      ensures forall k, rows :: k !in KeySet(keys) && IndexedAs(old(State()), k, rows) ==> IndexedAs(State(), k, rows)
    {
      var limit := ChunkLimit(chunkSize);
      keys := FetchLimited(Selectable(State()), limit);
      if keys == [] {
        return false, keys;
      }
      var prepared := ReadChunk(State(), strip, keys);
      ghost var s0 := State();
      assert ChunkReady(s0, keys, prepared);
      WriteChunk(prepared);
      WriteAllProgress(s0, keys, prepared);
      WriteAllIndexes(s0, keys, prepared);
      forall k, rows | k !in KeySet(keys) && IndexedAs(s0, k, rows)
        ensures IndexedAs(State(), k, rows)
      {
        WriteAllKeepsOthers(s0, keys, prepared, k, rows);
      }
      more := true;
    }

    /**
     * Runs insert chunks until one reads nothing. Run alone, every entry
     * that was to update ends up indexed with the rows built from it.
     */
    method InsertIntoSearch(strip: string -> string, chunkSize: nat)
      requires Valid() && enabled
      modifies this
      ensures Valid() && enabled
      ensures entries == old(entries) && feeds == old(feeds)
      ensures ToDelete(State()) == ToDelete(old(State()))
      ensures Selectable(State()) == {}
      ensures forall k :: k in Selectable(old(State())) ==>
        IndexedAs(State(), k, Prepare(strip, SnapshotOf(old(State()), k)).rows)
    {
      ghost var s0 := State();
      ghost var indexed: set<EntryKey> := {};
      var done := false;
      while !done
        invariant Valid() && enabled
        invariant entries == s0.entries && feeds == s0.feeds
        invariant ToDelete(State()) == ToDelete(s0)
        invariant indexed <= Selectable(s0)
        invariant Selectable(State()) == Selectable(s0) - indexed
        invariant forall k :: k in indexed ==> IndexedAs(State(), k, Prepare(strip, SnapshotOf(s0, k)).rows)
        invariant done ==> Selectable(State()) == {}
        decreases |Selectable(State())| + (if done then 0 else 1)
      {
        ghost var before := State();
        var more, keys := InsertOneChunk(strip, chunkSize);
        DrainStep(strip, s0, before, State(), keys, indexed);
        if more {
          RemovingShrinks(Selectable(before), KeySet(keys));
        }
        indexed := indexed + KeySet(keys);
        done := !more;
      }
    }

    /**
     * update(): delete what was deleted, then index what changed. With the
     * search tables missing, the first query fails with "no such table",
     * which the wrapper reports as search not enabled. Afterwards every
     * entry whose feed exists has a clean record.
     */
    method Update(strip: string -> string, chunkSize: nat) returns (r: Result<(), SearchResults.Classified>)
      requires Valid()
      modifies this
      ensures Valid()
      ensures !old(enabled) ==> r == Failure(SearchResults.SearchNotEnabled) && State() == old(State())
      ensures old(enabled) ==> r.Success? && ToDelete(State()) == {} && Selectable(State()) == {}
      ensures old(enabled) ==> entries == old(entries) && feeds == old(feeds)
      ensures old(enabled) ==> forall k :: k in entries && k.feed in feeds ==>
        k in sync && !sync[k].toUpdate && !sync[k].toDelete
      ensures old(enabled) ==> forall k :: k in Selectable(old(State())) ==>
        IndexedAs(State(), k, Prepare(strip, SnapshotOf(old(State()), k)).rows)
    {
      if !enabled {
        var table := "entries_search_sync_state";
        SearchResults.MissingTableMeansNotEnabled(table);
        return Failure(SearchResults.ClassifyOperationalError("no such table: " + table, true, false));
      }
      ghost var s0 := State();
      DeleteFromSearch(chunkSize);
      ghost var s1 := State();
      DeletingLeavesSelectable(s0);
      InsertIntoSearch(strip, chunkSize);
      forall k | k in Selectable(s0)
        ensures IndexedAs(State(), k, Prepare(strip, SnapshotOf(s0, k)).rows)
      {
        PrepareIgnoresRecord(strip, s1, s0, k);
      }
      r := Success(());
      forall k | k in entries && k.feed in feeds
        ensures k in sync && !sync[k].toUpdate && !sync[k].toDelete
      {
        assert k !in Selectable(State());
      }
    }
  }
}

=== FILE: search_model.dfy ===
/**
 * The state the full-text search engine keeps beside the entries and feeds
 * tables, as values: the sync-state records, the index rows and the next
 * rowid. The SQL triggers and the update chunks are functions from state to
 * state here; the class in search.dfy performs them in place.
 */
module SearchModel {
  import opened Wrappers
  import opened PyValue

  // ---------------------------------------------------------------------------
  // Tables
  // ---------------------------------------------------------------------------

  /** The primary key of an entry and of its sync-state record: (id, feed URL). */
  datatype EntryKey = EntryKey(id: string, feed: string)

  /** One element of the JSON list stored in entries.content: a Content's
      type, value and language. The index reads only type and value, but the
      update trigger compares the whole text, language included. */
  datatype ContentItem = ContentItem(contentType: Option<string>, value: Option<string>,
                                     language: Option<string>)

  /** The entries columns the triggers watch and the update reads; None is NULL. */
  datatype EntryRow = EntryRow(title: Option<string>, summary: Option<string>,
                               content: Option<seq<ContentItem>>, lastUpdated: string)

  /** The feeds columns the triggers watch and the update reads. */
  datatype FeedRow = FeedRow(title: Option<string>, userTitle: Option<string>)

  /** A row of entries_search_sync_state (keyed by EntryKey). */
  datatype SyncRecord = SyncRecord(toUpdate: bool, toDelete: bool, esRowids: seq<int>)

  /** A row of the entries_search full-text table (keyed by rowid). */
  datatype IndexRow = IndexRow(title: Option<string>, content: Option<string>, feed: Option<string>,
                               id: string, feedUrl: string, contentPath: Option<string>,
                               isFeedUserTitle: bool)
  {
    /** The entry the row points back at (`_id`, `_feed`). */
    function Key(): EntryKey { EntryKey(id, feedUrl) }
  }

  /**
   * The database as the search engine sees it. `enabled` says whether the
   * search tables and triggers exist; `nextRowid` is the rowid the next
   * index insert receives.
   */
  datatype State = State(entries: map<EntryKey, EntryRow>, feeds: map<string, FeedRow>,
                         enabled: bool, sync: map<EntryKey, SyncRecord>,
                         index: map<int, IndexRow>, nextRowid: int)

  function RowidSet(rowids: seq<int>): set<int>
  {
    set r | r in rowids
  }

  /** The rowids listed by the records of `keys`. */
  function RowidsOf(sync: map<EntryKey, SyncRecord>, keys: set<EntryKey>): set<int>
  {
    set k, r | k in keys && k in sync && r in sync[k].esRowids :: r
  }

  /** Adding one record to `keys` adds the rowids it lists. */
  lemma RowidsOfAdd(sync: map<EntryKey, SyncRecord>, keys: set<EntryKey>, k: EntryKey)
    requires k in sync
    ensures RowidsOf(sync, keys + {k}) == RowidsOf(sync, keys) + RowidSet(sync[k].esRowids)
  {
    forall r | r in RowidSet(sync[k].esRowids)
      ensures r in RowidsOf(sync, keys + {k})
    {
      assert k in keys + {k} && r in sync[k].esRowids;
    }
  }

  /** The index rows pointing back at entry `k`. */
  function RowsOf(s: State, k: EntryKey): set<int>
  {
    set r | r in s.index && s.index[r].Key() == k
  }

  // ---------------------------------------------------------------------------
  // The invariant the engine keeps
  // ---------------------------------------------------------------------------

  /** Every rowid a record lists is an index row pointing back at that record. */
  ghost predicate Listed(s: State)
  {
    forall k, r :: k in s.sync && r in s.sync[k].esRowids ==> r in s.index && s.index[r].Key() == k
  }

  /** Every index row is listed by the record of the entry it points at. */
  ghost predicate Owned(s: State)
  {
    forall r :: r in s.index ==> s.index[r].Key() in s.sync && r in s.sync[s.index[r].Key()].esRowids
  }

  /** Rowids still to be handed out are above every rowid in use. */
  ghost predicate FreshRowids(s: State)
  {
    forall r :: r in s.index ==> r < s.nextRowid
  }

  /**
   * Records and index rows agree, and disabled search has neither (the
   * tables do not exist).
   */
  ghost predicate Consistent(s: State)
  {
    Listed(s) && Owned(s) && FreshRowids(s)
    && (!s.enabled ==> s.sync == map[] && s.index == map[])
  }

  /**
   * Under Consistent, the rowids an entry's record lists are exactly the
   * index rows pointing at that entry.
   */
  lemma RecordedRowsAreIndexRows(s: State, k: EntryKey)
    requires Consistent(s) && k in s.sync
    ensures RowidSet(s.sync[k].esRowids) == RowsOf(s, k)
  {
    forall r | r in RowidSet(s.sync[k].esRowids)
      ensures r in RowsOf(s, k)
    {
    }
    forall r | r in RowsOf(s, k)
      ensures r in RowidSet(s.sync[k].esRowids)
    {
    }
  }

  /**
   * With search enabled, the entries are exactly the records not marked
   * for deletion.
   */
  ghost predicate Tracked(s: State)
  {
    s.enabled ==> forall k :: k in s.entries <==> k in s.sync && !s.sync[k].toDelete
  }

  /** The invariant every operation of the engine keeps. */
  ghost predicate Coherent(s: State)
  {
    Consistent(s) && Tracked(s)
  }

  // ---------------------------------------------------------------------------
  // Triggers
  // ---------------------------------------------------------------------------

  /** SQL `a != b`: NULL on either side gives NULL, which a WHEN clause treats as false. */
  predicate SqlNe<T(==)>(a: Option<T>, b: Option<T>)
  {
    a.Some? && b.Some? && a.value != b.value
  }

  /** The WHEN clause of the entry update trigger. */
  predicate Reindexable(before: EntryRow, after: EntryRow)
  {
    SqlNe(before.title, after.title) || SqlNe(before.summary, after.summary)
    || SqlNe(before.content, after.content)
  }

  /**
   * INSERT (OR REPLACE) of an entry. With search enabled, one of two
   * triggers fires: without a record, a fresh one marked for update; with
   * a record, it is marked for update and unmarked for deletion.
   */
  function InsertEntryOf(s: State, k: EntryKey, row: EntryRow): (r: State)
    ensures r.entries == s.entries[k := row]
    ensures r.feeds == s.feeds && r.index == s.index && r.enabled == s.enabled && r.nextRowid == s.nextRowid
  {
    var sync :=
      if !s.enabled then s.sync
      else if k in s.sync then s.sync[k := s.sync[k].(toUpdate := true, toDelete := false)]
      else s.sync[k := SyncRecord(true, false, [])];
    s.(entries := s.entries[k := row], sync := sync)
  }

  /** UPDATE of an entry's columns; the trigger fires only on a non-NULL change. */
  function UpdateEntryOf(s: State, k: EntryKey, row: EntryRow): (r: State)
    ensures r.feeds == s.feeds && r.index == s.index && r.enabled == s.enabled && r.nextRowid == s.nextRowid
    ensures r.sync.Keys == s.sync.Keys
  {
    if k !in s.entries then s
    else
      var sync :=
        if s.enabled && Reindexable(s.entries[k], row) && k in s.sync
        then s.sync[k := s.sync[k].(toUpdate := true)]
        else s.sync;
      s.(entries := s.entries[k := row], sync := sync)
  }

  /** DELETE of an entry; the trigger only marks its record. */
  function DeleteEntryOf(s: State, k: EntryKey): (r: State)
    ensures r.feeds == s.feeds && r.index == s.index && r.enabled == s.enabled && r.nextRowid == s.nextRowid
    ensures r.sync.Keys == s.sync.Keys
    ensures k !in r.entries
  {
    if k !in s.entries then s
    else
      var sync :=
        if s.enabled && k in s.sync then s.sync[k := s.sync[k].(toDelete := true)] else s.sync;
      s.(entries := s.entries - {k}, sync := sync)
  }

  /** Marks every record of feed `url` for update. */
  function MarkFeed(sync: map<EntryKey, SyncRecord>, url: string): (r: map<EntryKey, SyncRecord>)
    ensures r.Keys == sync.Keys
  {
    map k | k in sync :: if k.feed == url then sync[k].(toUpdate := true) else sync[k]
  }

  /** UPDATE of a feed's title and user title. */
  function UpdateFeedTitleOf(s: State, url: string, title: Option<string>, userTitle: Option<string>)
    : (r: State)
    ensures r.entries == s.entries && r.index == s.index && r.enabled == s.enabled && r.nextRowid == s.nextRowid
    ensures r.sync.Keys == s.sync.Keys
  {
    if url !in s.feeds then s
    else
      var f := s.feeds[url];
      var sync :=
        if s.enabled && (SqlNe(f.title, title) || SqlNe(f.userTitle, userTitle))
        then MarkFeed(s.sync, url) else s.sync;
      s.(feeds := s.feeds[url := FeedRow(title, userTitle)], sync := sync)
  }

  /** The keys of feed `url`. */
  function KeysOfFeed<V>(m: map<EntryKey, V>, url: string): set<EntryKey>
  {
    set k | k in m && k.feed == url
  }

  /** The key `k` takes when feed `from` is renamed to `to`. */
  function Renamed(k: EntryKey, from: string, to: string): EntryKey
  {
    if k.feed == from then EntryKey(k.id, to) else k
  }

  /** Moving an entry of feed `from` to `to` would hit an existing key. */
  predicate RekeyClash<V>(m: map<EntryKey, V>, from: string, to: string)
  {
    exists k :: k in m && k.feed == from && EntryKey(k.id, to) in m
  }

  /** `UPDATE ... SET feed = to WHERE feed = from` on a table keyed by (id, feed). */
  function Rekey<V>(m: map<EntryKey, V>, from: string, to: string): (r: map<EntryKey, V>)
    requires from != to && !RekeyClash(m, from, to)
    ensures forall k :: k in m && k.feed != from ==> k in r && r[k] == m[k]
    ensures forall k :: k in m && k.feed == from ==> EntryKey(k.id, to) in r && r[EntryKey(k.id, to)] == m[k]
    ensures forall k :: k in r ==> k.feed != from
    ensures forall k :: k in r ==> (k in m && k.feed != from) || (k.feed == to && EntryKey(k.id, from) in m)
  {
    var kept := map k | k in m && k.feed != from :: m[k];
    var moved := set k | k in m && k.feed == from :: EntryKey(k.id, to);
    var movedMap := map k | k in moved :: m[EntryKey(k.id, from)];
    assert forall k :: k in m && k.feed == from ==> EntryKey(k.id, to) in moved;
    kept + movedMap
  }

  /** Points the index rows `rowids` at feed `to`. */
  function Repoint(index: map<int, IndexRow>, rowids: set<int>, to: string): (r: map<int, IndexRow>)
    ensures r.Keys == index.Keys
  {
    map r | r in index :: if r in rowids then index[r].(feedUrl := to) else index[r]
  }

  /** Why a feed URL change fails. */
  datatype RenameError = UniqueConstraintFailed

  /** The records of feed `to` marked for deletion, which the rename trigger drops first. */
  function DroppedOnRename(s: State, to: string): set<EntryKey>
  {
    set k | k in s.sync && k.feed == to && s.sync[k].toDelete
  }

  /** The last two statements of the rename trigger: repoint the rows, then move the records. */
  function MoveRecords(s: State, from: string, to: string): (r: State)
    requires from != to && !RekeyClash(s.sync, from, to)
  {
    s.(index := Repoint(s.index, RowidsOf(s.sync, KeysOfFeed(s.sync, from)), to),
       sync := Rekey(s.sync, from, to))
  }

  /**
   * UPDATE of a feed's URL. Nothing happens if the feed does not exist or
   * the URL is unchanged. The feed and its entries (by cascade) take the
   * new URL; then the trigger drops the records of the new URL marked for
   * deletion, with their rows, and moves the old URL's records and rows to
   * the new URL. A primary-key clash in any of these tables fails the
   * whole statement.
   */
  function RenameFeedOf(s: State, from: string, to: string): (r: Result<State, RenameError>)
    ensures r.Success? && from in s.feeds && from != to ==>
      from !in r.value.feeds && to in r.value.feeds && r.value.feeds[to] == s.feeds[from]
    ensures r.Success? && from in s.feeds && from != to ==>
      forall k :: k in r.value.entries ==> k.feed != from
    ensures r.Success? && from in s.feeds && from != to && s.enabled ==>
      forall k :: k in r.value.sync ==> k.feed != from
    ensures r.Success? ==> r.value.enabled == s.enabled && r.value.nextRowid == s.nextRowid
    ensures from !in s.feeds || from == to ==> r == Success(s)
    ensures from in s.feeds && from != to && to in s.feeds ==> r.Failure?
  {
    if from !in s.feeds || from == to then Success(s)
    else if to in s.feeds || RekeyClash(s.entries, from, to) then Failure(UniqueConstraintFailed)
    else
      var renamed := s.(feeds := (s.feeds - {from})[to := s.feeds[from]],
                        entries := Rekey(s.entries, from, to));
      if !s.enabled then Success(renamed)
      else
        var cleared := DeleteRecords(renamed, DroppedOnRename(renamed, to));
        if RekeyClash(cleared.sync, from, to) then Failure(UniqueConstraintFailed)
        else Success(MoveRecords(cleared, from, to))
  }

  /** search enable: creates the tables with one record per entry, all to update. */
  function EnableOf(s: State): (r: State)
    ensures r.enabled
    ensures r.entries == s.entries && r.feeds == s.feeds
    ensures !s.enabled ==>
      && r.index == map[]
      && r.sync.Keys == s.entries.Keys
      && (forall k :: k in r.sync ==> r.sync[k] == SyncRecord(true, false, []))
  {
    if s.enabled then s
    else s.(enabled := true, sync := map k | k in s.entries :: SyncRecord(true, false, []), index := map[])
  }

  /** search disable: drops the triggers and tables. */
  function DisableOf(s: State): (r: State)
    ensures !r.enabled && r.sync == map[] && r.index == map[]
    ensures r.entries == s.entries && r.feeds == s.feeds
  {
    s.(enabled := false, sync := map[], index := map[])
  }

  // ---------------------------------------------------------------------------
  // Deleting from the index
  // ---------------------------------------------------------------------------

  /** `self.chunk_size or 1`. */
  function ChunkLimit(chunkSize: nat): (c: nat)
    ensures c >= 1
    ensures chunkSize > 0 ==> c == chunkSize
  {
    if chunkSize == 0 then 1 else chunkSize
  }

  /** The records marked for deletion. */
  function ToDelete(s: State): set<EntryKey>
  {
    set k | k in s.sync && s.sync[k].toDelete
  }

  /** Deletes the index rows the records of `keys` list, then those records. */
  function DeleteRecords(s: State, keys: set<EntryKey>): (r: State)
    ensures r.entries == s.entries && r.feeds == s.feeds && r.enabled == s.enabled && r.nextRowid == s.nextRowid
    ensures r.sync.Keys == s.sync.Keys - keys && r.index.Keys <= s.index.Keys
  {
    s.(sync := s.sync - keys, index := s.index - RowidsOf(s.sync, keys))
  }

  // ---------------------------------------------------------------------------
  // Inserting into the index
  // ---------------------------------------------------------------------------

  /** The records the read phase can select: to update, with their entry and feed. */
  function Selectable(s: State): (r: set<EntryKey>)
    ensures forall k :: k in r ==> k in s.sync && s.sync[k].toUpdate && k in s.entries && k.feed in s.feeds
  {
    set k | k in s.sync && s.sync[k].toUpdate && k in s.entries && k.feed in s.feeds
  }

  /** What the read phase fetches for one entry. */
  datatype Snapshot = Snapshot(key: EntryKey, lastUpdated: string, esRowids: seq<int>,
                               feedTitle: Option<string>, isFeedUserTitle: bool,
                               title: Option<string>, summary: Option<string>,
                               content: Option<seq<ContentItem>>)

  function SnapshotOf(s: State, k: EntryKey): (r: Snapshot)
    requires k in s.sync && k in s.entries && k.feed in s.feeds
    ensures r.key == k && r.esRowids == s.sync[k].esRowids && r.lastUpdated == s.entries[k].lastUpdated
    ensures r.isFeedUserTitle <==> s.feeds[k.feed].userTitle.Some?
  {
    var e := s.entries[k];
    var f := s.feeds[k.feed];
    Snapshot(k, e.lastUpdated, s.sync[k].esRowids,
             if f.userTitle.Some? then f.userTitle else f.title,  // coalesce(user_title, title)
             f.userTitle.Some?, e.title, e.summary, e.content)
  }

  /** `strip_html`, which leaves NULL (and any non-string) alone. */
  function StripOpt(strip: string -> string, v: Option<string>): (r: Option<string>)
    ensures r.Some? <==> v.Some?
  {
    if v.Some? then Some(strip(v.value)) else None
  }

  /** A piece of an entry to index: its stripped text and its path. */
  datatype Fragment = Fragment(content: Option<string>, path: Option<string>)

  const IndexedTypes: set<string> := {"", "text/html", "text/xhtml", "text/plain"}

  /** A content item is indexed when its lower-cased type (missing counts as '') is textual. */
  predicate Indexed(item: ContentItem)
  {
    Lower(if item.contentType.Some? then item.contentType.value else "") in IndexedTypes
  }

  function ContentPath(i: nat): string
  {
    ".content[" + NatToString(i) + "].value"
  }

  function ContentFragment(strip: string -> string, items: seq<ContentItem>, i: nat): Fragment
    requires i < |items|
  {
    Fragment(StripOpt(strip, items[i].value), Some(ContentPath(i)))
  }

  /** The fragments of the indexed content items, in order. */
  function ContentFragments(strip: string -> string, items: seq<ContentItem>): (r: seq<Fragment>)
    ensures |r| <= |items|
    ensures forall f :: f in r ==> f.path.Some?
    decreases |items|
  {
    if items == [] then []
    else
      var n := |items| - 1;
      ContentFragments(strip, items[..n])
      + (if Indexed(items[n]) then [ContentFragment(strip, items, n)] else [])
  }

  predicate SummaryIndexed(summary: Option<string>)
  {
    summary.Some? && summary.value != ""
  }

  /** The fragments of an entry: its indexed content, then its summary, or a single empty one. */
  function Fragments(strip: string -> string, content: Option<seq<ContentItem>>, summary: Option<string>)
    : (r: seq<Fragment>)
    ensures |r| >= 1
    ensures r == [Fragment(None, None)] <==>
      (content.None? || ContentFragments(strip, content.value) == []) && !SummaryIndexed(summary)
    ensures SummaryIndexed(summary) ==> r[|r| - 1] == Fragment(StripOpt(strip, summary), Some(".summary"))
  {
    var fromContent := if content.Some? then ContentFragments(strip, content.value) else [];
    var final := fromContent
      + (if SummaryIndexed(summary) then [Fragment(StripOpt(strip, summary), Some(".summary"))] else []);
    if final == [] then [Fragment(None, None)]
    else
      assert final[0] in fromContent || final[0].path == Some(".summary");
      final
  }

  predicate Increasing(p: seq<nat>)
  {
    forall i, j :: 0 <= i < j < |p| ==> p[i] < p[j]
  }

  /** The original indexes of the indexed content items, in order. */
  function IndexedPositions(items: seq<ContentItem>): seq<nat>
    decreases |items|
  {
    if items == [] then []
    else
      var n := |items| - 1;
      IndexedPositions(items[..n]) + (if Indexed(items[n]) then [n] else [])
  }

  /** The indexed positions are increasing and are exactly the indexed items. */
  lemma IndexedPositionsShape(items: seq<ContentItem>)
    ensures Increasing(IndexedPositions(items))
    ensures forall i: nat :: i in IndexedPositions(items) <==> (i < |items| && Indexed(items[i]))
  {
    IndexedPositionsIncreasing(items);
    IndexedPositionsExact(items);
  }

  lemma {:induction false} IndexedPositionsBelow(items: seq<ContentItem>)
    ensures forall j :: 0 <= j < |IndexedPositions(items)| ==> IndexedPositions(items)[j] < |items|
    decreases |items|
  {
    if items != [] {
      IndexedPositionsBelow(items[..|items| - 1]);
    }
  }

  lemma {:induction false} IndexedPositionsIncreasing(items: seq<ContentItem>)
    ensures Increasing(IndexedPositions(items))
    decreases |items|
  {
    if items != [] {
      var n := |items| - 1;
      IndexedPositionsIncreasing(items[..n]);
      IndexedPositionsBelow(items[..n]);
    }
  }

  lemma {:induction false} IndexedPositionsExact(items: seq<ContentItem>)
    ensures forall i: nat :: i in IndexedPositions(items) <==> (i < |items| && Indexed(items[i]))
    decreases |items|
  {
    if items != [] {
      var n := |items| - 1;
      var init := items[..n];
      var q := IndexedPositions(init);
      IndexedPositionsExact(init);
      IndexedPositionsBelow(init);
      var p := IndexedPositions(items);
      assert p == q + (if Indexed(items[n]) then [n] else []);
      forall i: nat
        ensures i in p <==> (i < |items| && Indexed(items[i]))
      {
        if i < n {
          assert init[i] == items[i];
        }
      }
    }
  }

  /**
   * The content fragments, position by position: the k-th fragment comes
   * from the k-th indexed item, and carries that item's original index in
   * its path.
   */
  lemma {:induction false} ContentFragmentsPositions(strip: string -> string, items: seq<ContentItem>)
    ensures |ContentFragments(strip, items)| == |IndexedPositions(items)|
    ensures forall j :: 0 <= j < |IndexedPositions(items)| ==>
      (IndexedPositions(items)[j] < |items|
       && ContentFragments(strip, items)[j] == ContentFragment(strip, items, IndexedPositions(items)[j]))
    decreases |items|
  {
    if items != [] {
      var n := |items| - 1;
      var init := items[..n];
      var q := IndexedPositions(init);
      ContentFragmentsPositions(strip, init);
      IndexedPositionsBelow(init);
      var before := ContentFragments(strip, init);
      forall j | 0 <= j < |q|
        ensures before[j] == ContentFragment(strip, items, q[j])
      {
        assert init[q[j]] == items[q[j]];
      }
    }
  }

  /** An entry ready to be written: the snapshot it came from and its index rows. */
  datatype Prepared = Prepared(key: EntryKey, lastUpdated: string, esRowids: seq<int>, rows: seq<IndexRow>)

  function PreparedRow(snap: Snapshot, strip: string -> string, f: Fragment): IndexRow
  {
    IndexRow(StripOpt(strip, snap.title), f.content, StripOpt(strip, snap.feedTitle),
             snap.key.id, snap.key.feed, f.path, snap.isFeedUserTitle)
  }

  /** One index row per fragment, each pointing back at the entry. */
  function Prepare(strip: string -> string, snap: Snapshot): (p: Prepared)
    ensures p.key == snap.key && p.lastUpdated == snap.lastUpdated && p.esRowids == snap.esRowids
    ensures |p.rows| == |Fragments(strip, snap.content, snap.summary)| >= 1
    ensures forall j :: 0 <= j < |p.rows| ==> p.rows[j].Key() == snap.key
  {
    var fs := Fragments(strip, snap.content, snap.summary);
    Prepared(snap.key, snap.lastUpdated, snap.esRowids,
             seq(|fs|, j requires 0 <= j < |fs| => PreparedRow(snap, strip, fs[j])))
  }

  /** Every row of `p` points back at `p`'s entry. */
  predicate PointsBack(p: Prepared)
  {
    forall j :: 0 <= j < |p.rows| ==> p.rows[j].Key() == p.key
  }

  datatype WriteOutcome = Committed | Skipped | NoSuchTable

  /** The write phase's re-check: the record and entry are as the snapshot saw them. */
  predicate StillPending(s: State, p: Prepared)
  {
    p.key in s.sync && s.sync[p.key].toUpdate
    && RowidSet(s.sync[p.key].esRowids) == RowidSet(p.esRowids)
    && p.key in s.entries && s.entries[p.key].lastUpdated == p.lastUpdated
  }

  /** `[base, base + 1, ..., base + n - 1]`. */
  function Span(base: int, n: nat): (r: seq<int>)
    ensures |r| == n && forall j :: 0 <= j < n ==> r[j] == base + j
  {
    seq(n, j requires 0 <= j < n => base + j)
  }

  /** The rows inserted from rowid `base` on. */
  function NewRows(base: int, rows: seq<IndexRow>): (r: map<int, IndexRow>)
    ensures forall i :: i in r <==> base <= i < base + |rows|
    ensures forall j :: 0 <= j < |rows| ==> r[base + j] == rows[j]
    decreases |rows|
  {
    if rows == [] then map[]
    else
      var n := |rows| - 1;
      NewRows(base, rows[..n])[base + n := rows[n]]
  }

  /** The commit: replace the snapshot's rows by the new ones and clear to_update. */
  function CommitOf(s: State, p: Prepared): (r: State)
    requires p.key in s.sync
    ensures r.entries == s.entries && r.feeds == s.feeds && r.enabled == s.enabled
    ensures r.sync.Keys == s.sync.Keys && r.nextRowid == s.nextRowid + |p.rows|
  {
    var base := s.nextRowid;
    s.(index := (s.index - RowidSet(p.esRowids)) + NewRows(base, p.rows),
       sync := s.sync[p.key := s.sync[p.key].(toUpdate := false, esRowids := Span(base, |p.rows|))],
       nextRowid := base + |p.rows|)
  }

  /** The write phase for one entry, against whatever the state is by then. */
  function WriteOf(s: State, p: Prepared): (r: (State, WriteOutcome))
    ensures r.1 == Committed <==> s.enabled && StillPending(s, p)
    ensures r.1 != Committed ==> r.0 == s
  {
    if !s.enabled then (s, NoSuchTable)
    else if StillPending(s, p) then (CommitOf(s, p), Committed)
    else (s, Skipped)
  }

  /** `k`'s record is up to date and its index rows hold `rows`, in order. */
  ghost predicate IndexedAs(s: State, k: EntryKey, rows: seq<IndexRow>)
  {
    k in s.sync && !s.sync[k].toUpdate && |s.sync[k].esRowids| == |rows|
    && forall j :: 0 <= j < |rows| ==> s.sync[k].esRowids[j] in s.index && s.index[s.sync[k].esRowids[j]] == rows[j]
  }

  // ---------------------------------------------------------------------------
  // What the triggers do, and the invariant they keep
  // ---------------------------------------------------------------------------

  /**
   * The two insert triggers: a new record is marked for update with no
   * rows; an existing one is marked for update, unmarked for deletion, and
   * keeps its rows. Every other record, and the index, stay as they were.
   */
  lemma InsertEntryRecord(s: State, k: EntryKey, row: EntryRow)
    requires s.enabled
    ensures var r := InsertEntryOf(s, k, row);
      && r.sync.Keys == s.sync.Keys + {k}
      && r.sync[k].toUpdate && !r.sync[k].toDelete
      && r.sync[k].esRowids == (if k in s.sync then s.sync[k].esRowids else [])
      && (forall k' :: k' in s.sync && k' != k ==> r.sync[k'] == s.sync[k'])
  {
  }

  lemma InsertEntryKeepsCoherent(s: State, k: EntryKey, row: EntryRow)
    requires Coherent(s)
    ensures Coherent(InsertEntryOf(s, k, row))
  {
    var r := InsertEntryOf(s, k, row);
    assert Listed(r) by {
      forall k', i | k' in r.sync && i in r.sync[k'].esRowids
        ensures i in r.index && r.index[i].Key() == k'
      {
        assert k' in s.sync && i in s.sync[k'].esRowids;
      }
    }
  }

  /**
   * The update trigger marks the entry's record for update exactly when a
   * watched column changed between two non-NULL values; nothing else moves.
   */
  lemma UpdateEntryRecord(s: State, k: EntryKey, row: EntryRow)
    requires s.enabled && k in s.entries && k in s.sync
    ensures var r := UpdateEntryOf(s, k, row);
      && r.entries[k] == row
      && (r.sync[k].toUpdate <==> s.sync[k].toUpdate || Reindexable(s.entries[k], row))
      && r.sync[k].toDelete == s.sync[k].toDelete && r.sync[k].esRowids == s.sync[k].esRowids
      && (forall k' :: k' in s.sync && k' != k ==> r.sync[k'] == s.sync[k'])
  {
  }

  /**
   * SQL `!=` ignores NULL: an entry that gains a summary (NULL to text),
   * all else equal, is not marked for update.
   */
  lemma NullToTextIsNotReindexed(s: State, k: EntryKey, summary: string)
    requires s.enabled && k in s.entries && k in s.sync && s.entries[k].summary.None?
    ensures UpdateEntryOf(s, k, s.entries[k].(summary := Some(summary))).sync == s.sync
  {
  }

  /** A change of a content item's language alone marks the entry for re-indexing. */
  lemma LanguageChangeIsReindexed(s: State, k: EntryKey, item: ContentItem, language: string)
    requires s.enabled && k in s.entries && k in s.sync
    requires s.entries[k].content == Some([item]) && item.language.Some? && item.language.value != language
    ensures UpdateEntryOf(s, k, s.entries[k].(content := Some([item.(language := Some(language))]))).sync[k].toUpdate
  {
    assert [item] != [item.(language := Some(language))];
    UpdateEntryRecord(s, k, s.entries[k].(content := Some([item.(language := Some(language))])));
  }

  lemma UpdateEntryKeepsCoherent(s: State, k: EntryKey, row: EntryRow)
    requires Coherent(s)
    ensures Coherent(UpdateEntryOf(s, k, row))
  {
    var r := UpdateEntryOf(s, k, row);
    assert Listed(r) by {
      forall k', i | k' in r.sync && i in r.sync[k'].esRowids
        ensures i in r.index && r.index[i].Key() == k'
      {
        assert i in s.sync[k'].esRowids;
      }
    }
  }

  /**
   * The delete trigger only marks the record for deletion: the record, its
   * rowids and the index rows stay until the next update.
   */
  lemma DeleteEntryRecord(s: State, k: EntryKey)
    requires s.enabled && k in s.entries && k in s.sync
    ensures var r := DeleteEntryOf(s, k);
      && r.sync[k].toDelete
      && r.sync[k].toUpdate == s.sync[k].toUpdate && r.sync[k].esRowids == s.sync[k].esRowids
      && r.index == s.index
      && (forall k' :: k' in s.sync && k' != k ==> r.sync[k'] == s.sync[k'])
  {
  }

  lemma DeleteEntryKeepsCoherent(s: State, k: EntryKey)
    requires Coherent(s)
    ensures Coherent(DeleteEntryOf(s, k))
  {
    var r := DeleteEntryOf(s, k);
    assert Listed(r) by {
      forall k', i | k' in r.sync && i in r.sync[k'].esRowids
        ensures i in r.index && r.index[i].Key() == k'
      {
        assert i in s.sync[k'].esRowids;
      }
    }
  }

  /**
   * A non-NULL change of a feed's title or user title marks every record
   * of that feed for update, and no other record.
   */
  lemma FeedTitleMarksFeed(s: State, url: string, title: Option<string>, userTitle: Option<string>)
    requires s.enabled && url in s.feeds
    requires SqlNe(s.feeds[url].title, title) || SqlNe(s.feeds[url].userTitle, userTitle)
    ensures var r := UpdateFeedTitleOf(s, url, title, userTitle);
      && (forall k :: k in s.sync && k.feed == url ==> r.sync[k] == s.sync[k].(toUpdate := true))
      && (forall k :: k in s.sync && k.feed != url ==> r.sync[k] == s.sync[k])
  {
  }

  lemma UpdateFeedTitleKeepsCoherent(s: State, url: string, title: Option<string>, userTitle: Option<string>)
    requires Coherent(s)
    ensures Coherent(UpdateFeedTitleOf(s, url, title, userTitle))
  {
    var r := UpdateFeedTitleOf(s, url, title, userTitle);
    assert Listed(r) by {
      forall k', i | k' in r.sync && i in r.sync[k'].esRowids
        ensures i in r.index && r.index[i].Key() == k'
      {
        assert i in s.sync[k'].esRowids;
      }
    }
  }

  // ---------------------------------------------------------------------------
  // Deleting records
  // ---------------------------------------------------------------------------

  /** Deleting records together with the rows they list keeps records and rows in agreement. */
  lemma DeleteRecordsKeepsConsistent(s: State, keys: set<EntryKey>)
    requires Consistent(s)
    ensures Consistent(DeleteRecords(s, keys))
  {
    var r := DeleteRecords(s, keys);
    assert Listed(r) by {
      forall k, i | k in r.sync && i in r.sync[k].esRowids
        ensures i in r.index && r.index[i].Key() == k
      {
      }
    }
    assert Owned(r) by {
      forall i | i in r.index
        ensures r.index[i].Key() in r.sync && i in r.sync[r.index[i].Key()].esRowids
      {
      }
    }
  }

  /**
   * Deleting records and the rows they list keeps the invariant, provided
   * the records are marked for deletion (so no entry loses its record).
   */
  lemma DeleteRecordsKeepsCoherent(s: State, keys: set<EntryKey>)
    requires Coherent(s) && keys <= ToDelete(s)
    ensures Coherent(DeleteRecords(s, keys))
  {
    DeleteRecordsKeepsConsistent(s, keys);
  }

  /** Deleting records drops them from the set still to delete. */
  lemma DeleteRecordsProgress(s: State, keys: set<EntryKey>)
    ensures ToDelete(DeleteRecords(s, keys)) == ToDelete(s) - keys
    ensures Selectable(DeleteRecords(s, keys)) == Selectable(s) - keys
  {
  }

  /** Two rounds of deletion are one round over both sets of records. */
  lemma DeleteRecordsCompose(s: State, a: set<EntryKey>, b: set<EntryKey>)
    ensures DeleteRecords(DeleteRecords(s, a), b) == DeleteRecords(s, a + b)
  {
    var once := DeleteRecords(s, a);
    assert RowidsOf(s.sync, a) + RowidsOf(once.sync, b) == RowidsOf(s.sync, a + b) by {
      forall i | i in RowidsOf(s.sync, a + b)
        ensures i in RowidsOf(s.sync, a) + RowidsOf(once.sync, b)
      {
        var k :| k in a + b && k in s.sync && i in s.sync[k].esRowids;
        if k !in a {
          assert k in once.sync;
        }
      }
    }
    assert s.sync - a - b == s.sync - (a + b);
    assert s.index - RowidsOf(s.sync, a) - RowidsOf(once.sync, b) == s.index - RowidsOf(s.sync, a + b);
  }

  // ---------------------------------------------------------------------------
  // Renaming a feed
  // ---------------------------------------------------------------------------

  /** Moving the records of `from` to `to` (with their rows) keeps the invariant. */
  lemma MoveRecordsKeepsConsistent(s: State, from: string, to: string)
    requires Consistent(s) && s.enabled && from != to && !RekeyClash(s.sync, from, to)
    ensures Consistent(MoveRecords(s, from, to))
  {
    MoveRecordsKeepsListed(s, from, to);
    MoveRecordsKeepsOwned(s, from, to);
  }

  lemma MoveRecordsKeepsListed(s: State, from: string, to: string)
    requires Listed(s) && from != to && !RekeyClash(s.sync, from, to)
    ensures Listed(MoveRecords(s, from, to))
  {
    var r := MoveRecords(s, from, to);
    var moving := RowidsOf(s.sync, KeysOfFeed(s.sync, from));
    MovingRowsAreOfFeed(s, from);
    forall k, i | k in r.sync && i in r.sync[k].esRowids
      ensures i in r.index && r.index[i].Key() == k
    {
      if k in s.sync && k.feed != from {
        assert i in s.sync[k].esRowids;
        assert i !in moving;
      } else {
        var k0 := EntryKey(k.id, from);
        assert k0 in s.sync && r.sync[k] == s.sync[k0];
        assert i in moving;
      }
    }
  }

  /** The rows the rename repoints are the rows of the old feed's entries. */
  lemma MovingRowsAreOfFeed(s: State, from: string)
    requires Listed(s)
    ensures forall i :: i in RowidsOf(s.sync, KeysOfFeed(s.sync, from)) ==>
      i in s.index && s.index[i].feedUrl == from
  {
  }

  lemma MoveRecordsKeepsOwned(s: State, from: string, to: string)
    requires Listed(s) && Owned(s) && from != to && !RekeyClash(s.sync, from, to)
    ensures Owned(MoveRecords(s, from, to))
  {
    var r := MoveRecords(s, from, to);
    var moving := RowidsOf(s.sync, KeysOfFeed(s.sync, from));
    forall i | i in r.index
      ensures r.index[i].Key() in r.sync && i in r.sync[r.index[i].Key()].esRowids
    {
      var k := s.index[i].Key();
      if i in moving {
        var k0 :| k0 in KeysOfFeed(s.sync, from) && k0 in s.sync && i in s.sync[k0].esRowids;
        assert k0 == k;
      }
    }
  }

  lemma MoveRecordsKeepsTracked(s: State, from: string, to: string, entries: map<EntryKey, EntryRow>)
    requires Tracked(s) && s.enabled && from != to && !RekeyClash(s.sync, from, to)
    requires !RekeyClash(s.entries, from, to) && entries == Rekey(s.entries, from, to)
    ensures Tracked(MoveRecords(s, from, to).(entries := entries))
  {
    var r := MoveRecords(s, from, to).(entries := entries);
    forall k
      ensures k in r.entries <==> k in r.sync && !r.sync[k].toDelete
    {
      if k.feed == to && EntryKey(k.id, from) in s.sync {
        var k0 := EntryKey(k.id, from);
        assert k0 in s.entries <==> !s.sync[k0].toDelete;
        if k in r.entries && !(k0 in s.entries) {
          assert k in s.entries && k.feed != from;
          assert k in s.sync;
        }
      }
    }
  }

  /**
   * A successful rename keeps the invariant. Afterwards the records of the
   * new URL that were marked for deletion are gone together with the rows
   * they listed.
   */
  lemma RenameFeedKeepsCoherent(s: State, from: string, to: string)
    requires Coherent(s) && RenameFeedOf(s, from, to).Success?
    ensures Coherent(RenameFeedOf(s, from, to).value)
    ensures s.enabled && from in s.feeds && from != to ==>
      forall k, i :: k in s.sync && k.feed == to && s.sync[k].toDelete && i in s.sync[k].esRowids
        ==> i !in RenameFeedOf(s, from, to).value.index
  {
    if from in s.feeds && from != to && s.enabled {
      var renamed := s.(feeds := (s.feeds - {from})[to := s.feeds[from]],
                        entries := Rekey(s.entries, from, to));
      var dropped := DroppedOnRename(renamed, to);
      var cleared := DeleteRecords(renamed, dropped);
      assert Consistent(renamed);
      assert dropped <= ToDelete(renamed);
      DeleteRecordsKeepsConsistent(renamed, dropped);
      MoveRecordsKeepsConsistent(cleared, from, to);
      MoveRecordsKeepsTracked(cleared.(entries := s.entries), from, to, renamed.entries);
      assert MoveRecords(cleared.(entries := s.entries), from, to).(entries := renamed.entries)
          == MoveRecords(cleared, from, to);
      forall k, i | k in s.sync && k.feed == to && s.sync[k].toDelete && i in s.sync[k].esRowids
        ensures i !in RenameFeedOf(s, from, to).value.index
      {
        assert k in dropped;
        assert i in RowidsOf(renamed.sync, dropped);
      }
    }
  }

  /**
   * With every entry's feed present, renaming to an unused URL always
   * succeeds: the only records the new URL can have are deleted ones,
   * which the trigger drops before moving the old URL's records.
   */
  lemma RenameToFreeUrlSucceeds(s: State, from: string, to: string)
    requires Coherent(s) && from in s.feeds && to !in s.feeds
    requires forall k :: k in s.entries ==> k.feed in s.feeds
    ensures RenameFeedOf(s, from, to).Success?
  {
    assert !RekeyClash(s.entries, from, to);
    if s.enabled && from != to {
      var renamed := s.(feeds := (s.feeds - {from})[to := s.feeds[from]],
                        entries := Rekey(s.entries, from, to));
      var cleared := DeleteRecords(renamed, DroppedOnRename(renamed, to));
      forall k | k in cleared.sync
        ensures k.feed != to
      {
      }
    }
  }

  // ---------------------------------------------------------------------------
  // Enabling and disabling
  // ---------------------------------------------------------------------------

  /** Enabling twice is enabling once: the second attempt finds the tables and changes nothing. */
  lemma EnableIdempotent(s: State)
    ensures EnableOf(EnableOf(s)) == EnableOf(s)
  {
  }

  lemma EnableKeepsCoherent(s: State)
    requires Coherent(s)
    ensures Coherent(EnableOf(s))
  {
  }

  lemma DisableKeepsCoherent(s: State)
    requires Coherent(s)
    ensures Coherent(DisableOf(s))
  {
  }

  // ---------------------------------------------------------------------------
  // Writing one entry
  // ---------------------------------------------------------------------------

  /**
   * The commit keeps the invariant, and leaves the entry up to date with
   * exactly its new rows, in fragment order: so the rowids its record
   * lists are exactly the index rows pointing at it.
   */
  lemma CommitIndexesEntry(s: State, p: Prepared)
    requires Coherent(s) && s.enabled && StillPending(s, p) && PointsBack(p)
    ensures Coherent(CommitOf(s, p))
    ensures IndexedAs(CommitOf(s, p), p.key, p.rows)
  {
    CommitListed(s, p);
    CommitOwned(s, p);
    CommitFresh(s, p);
    CommitTracked(s, p);
    CommitRows(s, p);
  }

  lemma CommitFresh(s: State, p: Prepared)
    requires FreshRowids(s) && p.key in s.sync
    ensures FreshRowids(CommitOf(s, p))
  {
  }

  lemma CommitTracked(s: State, p: Prepared)
    requires Tracked(s) && p.key in s.sync
    ensures Tracked(CommitOf(s, p))
  {
  }

  lemma CommitRows(s: State, p: Prepared)
    requires StillPending(s, p)
    ensures IndexedAs(CommitOf(s, p), p.key, p.rows)
  {
    var r := CommitOf(s, p);
    forall j | 0 <= j < |p.rows|
      ensures r.sync[p.key].esRowids[j] in r.index && r.index[r.sync[p.key].esRowids[j]] == p.rows[j]
    {
      assert r.sync[p.key].esRowids[j] == s.nextRowid + j;
    }
  }

  lemma CommitListed(s: State, p: Prepared)
    requires Consistent(s) && StillPending(s, p) && PointsBack(p)
    ensures Listed(CommitOf(s, p))
  {
    var r := CommitOf(s, p);
    var base := s.nextRowid;
    forall k, i | k in r.sync && i in r.sync[k].esRowids
      ensures i in r.index && r.index[i].Key() == k
    {
      if k == p.key {
        var j := i - base;
        assert 0 <= j < |p.rows| && r.index[i] == p.rows[j];
      } else {
        assert i in s.sync[k].esRowids;
        assert s.index[i].Key() == k && i < base;
        assert i !in RowidSet(p.esRowids) by {
          assert forall x :: x in RowidSet(p.esRowids) ==> s.index[x].Key() == p.key;
        }
      }
    }
  }

  lemma CommitOwned(s: State, p: Prepared)
    requires Consistent(s) && StillPending(s, p) && PointsBack(p)
    ensures Owned(CommitOf(s, p))
  {
    var r := CommitOf(s, p);
    var base := s.nextRowid;
    forall i | i in r.index
      ensures r.index[i].Key() in r.sync && i in r.sync[r.index[i].Key()].esRowids
    {
      if i in NewRows(base, p.rows) {
        var j := i - base;
        assert r.index[i] == p.rows[j];
        assert r.sync[p.key].esRowids[j] == i;
      } else {
        var k := s.index[i].Key();
        assert i in s.sync[k].esRowids;
        assert i !in RowidSet(s.sync[p.key].esRowids);
      }
    }
  }

  /** A commit for one entry leaves every other entry's record and rows alone. */
  lemma CommitKeepsOthers(s: State, p: Prepared, k: EntryKey, rows: seq<IndexRow>)
    requires Consistent(s) && StillPending(s, p) && k != p.key && IndexedAs(s, k, rows)
    ensures IndexedAs(CommitOf(s, p), k, rows)
  {
    var r := CommitOf(s, p);
    forall j | 0 <= j < |rows|
      ensures r.sync[k].esRowids[j] in r.index && r.index[r.sync[k].esRowids[j]] == rows[j]
    {
      var i := s.sync[k].esRowids[j];
      assert i in s.sync[k].esRowids;
      assert i !in RowidSet(p.esRowids);
    }
  }

  /** A commit takes its entry, and only it, off the set still to update. */
  lemma CommitProgress(s: State, p: Prepared)
    requires p.key in s.sync
    ensures Selectable(CommitOf(s, p)) == Selectable(s) - {p.key}
    ensures ToDelete(CommitOf(s, p)) == ToDelete(s)
    ensures CommitOf(s, p).sync.Keys == s.sync.Keys
    ensures forall k :: k in s.sync && k != p.key ==> CommitOf(s, p).sync[k] == s.sync[k]
  {
  }

  /**
   * One entry's write keeps the invariant. It changes nothing unless it
   * commits, and a commit leaves the entry's recorded rowids equal to the
   * set of index rows pointing at it.
   */
  lemma WriteKeepsCoherent(s: State, p: Prepared)
    requires Coherent(s) && PointsBack(p)
    ensures Coherent(WriteOf(s, p).0)
    ensures WriteOf(s, p).1 == Committed ==>
      && IndexedAs(WriteOf(s, p).0, p.key, p.rows)
      && RowidSet(WriteOf(s, p).0.sync[p.key].esRowids) == RowsOf(WriteOf(s, p).0, p.key)
  {
    if WriteOf(s, p).1 == Committed {
      CommitIndexesEntry(s, p);
      RecordedRowsAreIndexRows(CommitOf(s, p), p.key);
    }
  }

  /** The keys a read phase returned, as a set. */
  function KeySet(keys: seq<EntryKey>): set<EntryKey>
  {
    set k | k in keys
  }

  /** Taking a non-empty part of a finite set leaves fewer elements. */
  lemma RemovingShrinks(a: set<EntryKey>, b: set<EntryKey>)
    requires b <= a && b != {}
    ensures |a - b| < |a|
  {
    var x :| x in b;
    assert a - b <= a - {x};
  }

  /** A part of a set as large as the set is the whole set. */
  lemma FullPart(a: set<EntryKey>, b: set<EntryKey>)
    requires b <= a && |b| == |a|
    ensures b == a
  {
    assert a == (a - b) + b;
    assert |a - b| == 0;
  }

  /** The write phase of a chunk: each prepared entry written in turn. */
  function WriteAll(s: State, ps: seq<Prepared>): (r: State)
    ensures r.entries == s.entries && r.feeds == s.feeds && r.enabled == s.enabled
    ensures r.sync.Keys == s.sync.Keys && r.nextRowid >= s.nextRowid
    decreases |ps|
  {
    if ps == [] then s
    else WriteOf(WriteAll(s, ps[..|ps| - 1]), ps[|ps| - 1]).0
  }

  /** The entries of a chunk: distinct, each prepared from a snapshot that is still current. */
  predicate ChunkReady(s: State, keys: seq<EntryKey>, ps: seq<Prepared>)
  {
    && |ps| == |keys|
    && (forall i, j :: 0 <= i < j < |keys| ==> keys[i] != keys[j])
    && (forall j :: 0 <= j < |keys| ==> ps[j].key == keys[j] && PointsBack(ps[j]) && StillPending(s, ps[j]))
  }

  /**
   * Run alone, the write phase of a chunk commits every entry, and exactly
   * the chunk's entries leave the set still to update; no record outside
   * the chunk changes, and neither do the entries and feeds.
   */
  lemma {:induction false} WriteAllProgress(s: State, keys: seq<EntryKey>, ps: seq<Prepared>)
    requires s.enabled && ChunkReady(s, keys, ps)
    ensures var r := WriteAll(s, ps);
      && r.enabled && r.entries == s.entries && r.feeds == s.feeds
      && Selectable(r) == Selectable(s) - KeySet(keys)
      && ToDelete(r) == ToDelete(s)
      && r.sync.Keys == s.sync.Keys
      && (forall k :: k in s.sync && k !in KeySet(keys) ==> r.sync[k] == s.sync[k])
  {
    if ps == [] {
      assert KeySet(keys) == {};
    } else {
      var n := |ps| - 1;
      ChunkReadyPrefix(s, keys, ps);
      WriteAllProgress(s, keys[..n], ps[..n]);
      var before := WriteAll(s, ps[..n]);
      PendingAfterPrefix(s, before, keys, ps);
      CommitProgress(before, ps[n]);
    }
  }

  /**
   * Run alone on a coherent index, the write phase of a chunk keeps the
   * invariant and leaves each of its entries up to date with its own new
   * rows, in order.
   */
  lemma {:induction false} WriteAllIndexes(s: State, keys: seq<EntryKey>, ps: seq<Prepared>)
    requires Coherent(s) && s.enabled && ChunkReady(s, keys, ps)
    ensures Coherent(WriteAll(s, ps))
    ensures forall j :: 0 <= j < |keys| ==> IndexedAs(WriteAll(s, ps), keys[j], ps[j].rows)
  {
    if ps != [] {
      var n := |ps| - 1;
      ChunkReadyPrefix(s, keys, ps);
      WriteAllIndexes(s, keys[..n], ps[..n]);
      var before := WriteAll(s, ps[..n]);
      LastStillPending(s, keys, ps);
      CommitIndexesEntry(before, ps[n]);
      CommitKeepsDone(before, keys[..n], ps[..n], ps[n]);
      IndexedPrefixAndLast(CommitOf(before, ps[n]), keys, ps, keys[..n], ps[..n]);
    }
  }

  /**
   * Run alone on a coherent index, the write phase of a chunk leaves every
   * entry outside the chunk indexed as it was.
   */
  lemma {:induction false} WriteAllKeepsOthers(s: State, keys: seq<EntryKey>, ps: seq<Prepared>,
                                               k: EntryKey, rows: seq<IndexRow>)
    requires Coherent(s) && s.enabled && ChunkReady(s, keys, ps)
    requires k !in KeySet(keys) && IndexedAs(s, k, rows)
    ensures IndexedAs(WriteAll(s, ps), k, rows)
  {
    if ps != [] {
      var n := |ps| - 1;
      ChunkReadyPrefix(s, keys, ps);
      WriteAllKeepsOthers(s, keys[..n], ps[..n], k, rows);
      WriteAllIndexes(s, keys[..n], ps[..n]);
      var before := WriteAll(s, ps[..n]);
      LastStillPending(s, keys, ps);
      CommitKeepsOthers(before, ps[n], k, rows);
    }
  }

  /**
   * The rows prepared for an entry depend on its entry and feed only, not
   * on its record: two states that agree on entries and feeds prepare the
   * same rows.
   */
  lemma PrepareIgnoresRecord(strip: string -> string, s: State, t: State, k: EntryKey)
    requires k in s.sync && k in s.entries && k.feed in s.feeds
    requires k in t.sync && t.entries == s.entries && t.feeds == s.feeds
    ensures Prepare(strip, SnapshotOf(t, k)).rows == Prepare(strip, SnapshotOf(s, k)).rows
  {
    var a := SnapshotOf(s, k);
    var b := SnapshotOf(t, k);
    assert b == a.(esRowids := t.sync[k].esRowids);
    var fs := Fragments(strip, a.content, a.summary);
    forall j | 0 <= j < |fs|
      ensures PreparedRow(b, strip, fs[j]) == PreparedRow(a, strip, fs[j])
    {
    }
  }

  /**
   * One insert chunk extends what the drain has indexed: after it, every
   * key indexed so far or read by the chunk is indexed with the rows built
   * from the state the drain started from.
   */
  lemma DrainStep(strip: string -> string, s0: State, before: State, after: State,
                  keys: seq<EntryKey>, indexed: set<EntryKey>)
    requires before.entries == s0.entries && before.feeds == s0.feeds
    requires indexed <= Selectable(s0) && Selectable(before) == Selectable(s0) - indexed
    requires forall k :: k in indexed ==> IndexedAs(before, k, Prepare(strip, SnapshotOf(s0, k)).rows)
    requires KeySet(keys) <= Selectable(before) && Selectable(after) == Selectable(before) - KeySet(keys)
    requires forall j :: 0 <= j < |keys| ==>
      keys[j] in Selectable(before) && IndexedAs(after, keys[j], Prepare(strip, SnapshotOf(before, keys[j])).rows)
    requires forall k, rows :: k !in KeySet(keys) && IndexedAs(before, k, rows) ==> IndexedAs(after, k, rows)
    ensures indexed + KeySet(keys) <= Selectable(s0)
    ensures Selectable(after) == Selectable(s0) - (indexed + KeySet(keys))
    ensures forall k :: k in indexed + KeySet(keys) ==> IndexedAs(after, k, Prepare(strip, SnapshotOf(s0, k)).rows)
  {
    forall k | k in indexed + KeySet(keys)
      ensures IndexedAs(after, k, Prepare(strip, SnapshotOf(s0, k)).rows)
    {
      if k in KeySet(keys) {
        var j :| 0 <= j < |keys| && keys[j] == k;
        PrepareIgnoresRecord(strip, s0, before, k);
      } else {
        assert IndexedAs(before, k, Prepare(strip, SnapshotOf(s0, k)).rows);
      }
    }
  }

  /**
   * With search enabled, no record the insert phase can select is marked
   * for deletion: deleting those records leaves the selectable ones alone.
   */
  lemma DeletingLeavesSelectable(s: State)
    requires Coherent(s) && s.enabled
    ensures Selectable(DeleteRecords(s, ToDelete(s))) == Selectable(s)
  {
    DeleteRecordsProgress(s, ToDelete(s));
    assert Selectable(s) * ToDelete(s) == {};
  }

  lemma ChunkReadyPrefix(s: State, keys: seq<EntryKey>, ps: seq<Prepared>)
    requires ChunkReady(s, keys, ps) && ps != []
    ensures ChunkReady(s, keys[..|ps| - 1], ps[..|ps| - 1])
    ensures keys[|ps| - 1] !in keys[..|ps| - 1]
    ensures KeySet(keys) == KeySet(keys[..|ps| - 1]) + {keys[|ps| - 1]}
  {
    assert keys == keys[..|ps| - 1] + [keys[|ps| - 1]];
  }

  /** The entries of the chunk are indexed once its prefix and its last entry are. */
  lemma IndexedPrefixAndLast(r: State, keys: seq<EntryKey>, ps: seq<Prepared>, done: seq<EntryKey>, donePs: seq<Prepared>)
    requires |ps| == |keys| && ps != [] && done == keys[..|ps| - 1] && donePs == ps[..|ps| - 1]
    requires forall j :: 0 <= j < |done| ==> IndexedAs(r, done[j], donePs[j].rows)
    requires IndexedAs(r, ps[|ps| - 1].key, ps[|ps| - 1].rows) && ps[|ps| - 1].key == keys[|ps| - 1]
    ensures forall j :: 0 <= j < |keys| ==> IndexedAs(r, keys[j], ps[j].rows)
  {
    var n := |ps| - 1;
    forall j | 0 <= j < |keys|
      ensures IndexedAs(r, keys[j], ps[j].rows)
    {
      if j < n {
        assert keys[..n][j] == keys[j] && ps[..n][j] == ps[j];
      }
    }
  }

  /** The chunk's last entry is still pending after the writes before it. */
  lemma LastStillPending(s: State, keys: seq<EntryKey>, ps: seq<Prepared>)
    requires s.enabled && ChunkReady(s, keys, ps) && ps != []
    ensures StillPending(WriteAll(s, ps[..|ps| - 1]), ps[|ps| - 1])
  {
    var n := |ps| - 1;
    ChunkReadyPrefix(s, keys, ps);
    WriteAllProgress(s, keys[..n], ps[..n]);
    PendingAfterPrefix(s, WriteAll(s, ps[..n]), keys, ps);
  }

  lemma PendingAfterPrefix(s: State, before: State, keys: seq<EntryKey>, ps: seq<Prepared>)
    requires ChunkReady(s, keys, ps) && ps != []
    requires before.entries == s.entries && before.sync.Keys == s.sync.Keys
    requires forall k :: k in s.sync && k !in KeySet(keys[..|ps| - 1]) ==> before.sync[k] == s.sync[k]
    ensures StillPending(before, ps[|ps| - 1])
  {
    var n := |ps| - 1;
    assert keys[n] !in KeySet(keys[..n]);
  }


  /** Committing one more entry leaves the entries written before it alone. */
  lemma CommitKeepsDone(before: State, done: seq<EntryKey>, donePs: seq<Prepared>, p: Prepared)
    requires |donePs| == |done| && p.key !in done
    requires Consistent(before) && StillPending(before, p)
    requires forall j :: 0 <= j < |done| ==> IndexedAs(before, done[j], donePs[j].rows)
    ensures forall j :: 0 <= j < |done| ==> IndexedAs(CommitOf(before, p), done[j], donePs[j].rows)
  {
    forall j | 0 <= j < |done|
      ensures IndexedAs(CommitOf(before, p), done[j], donePs[j].rows)
    {
      CommitKeepsOthers(before, p, done[j], donePs[j].rows);
    }
  }

}

=== FILE: search_results.dfy ===
/**
 * Shaping a full-text search row into an entry search result, and sorting
 * SQLite's operational errors into the search errors the library raises.
 */
module SearchResults {
  import opened Wrappers
  import opened PyValue
  import opened Utils

  // ---------------------------------------------------------------------------
  // wrap_search_exceptions
  // ---------------------------------------------------------------------------

  /** Lower-cased message fragments that mark a malformed full-text query. */
  const QueryErrorFragments: seq<string> := [
    "fts5: syntax error near",
    "unknown special query",
    "no such column",
    "no such cursor",
    "unterminated string"
  ]

  /** What happens to an sqlite3.OperationalError raised inside the wrapper. */
  datatype Classified =
    | SearchNotEnabled                  // SearchNotEnabledError
    | InvalidSearchQuery(message: string) // InvalidSearchQueryError(message=str(e))
    | Reraise                           // the original error propagates

  predicate MentionsQueryError(lowered: string)
  {
    exists f :: f in QueryErrorFragments && Contains(lowered, f)
  }

  /**
   * `enabled` reports a missing table as "search not enabled"; `query` turns
   * a query-syntax complaint into an invalid-query error that keeps the
   * original (not lower-cased) message. The table check comes first.
   */
  function ClassifyOperationalError(message: string, enabled: bool, query: bool): (r: Classified)
    ensures r == SearchNotEnabled <==> enabled && Contains(Lower(message), "no such table")
    ensures r.InvalidSearchQuery? <==>
      !(enabled && Contains(Lower(message), "no such table")) && query && MentionsQueryError(Lower(message))
    ensures r.InvalidSearchQuery? ==> r.message == message
  {
    var lowered := Lower(message);
    if enabled && Contains(lowered, "no such table") then SearchNotEnabled
    else if query && MentionsQueryError(lowered) then InvalidSearchQuery(message)
    else Reraise
  }

  lemma LowerIdempotent(s: string)
    ensures Lower(Lower(s)) == Lower(s)
  {
  }

  /**
   * The classification looks only at the lower-cased message: a message and
   * its lower-cased form are sorted alike (the invalid-query error carries
   * whichever message it was given).
   */
  lemma ClassificationIgnoresCase(message: string, enabled: bool, query: bool)
    ensures ClassifyOperationalError(Lower(message), enabled, query).SearchNotEnabled?
        == ClassifyOperationalError(message, enabled, query).SearchNotEnabled?
    ensures ClassifyOperationalError(Lower(message), enabled, query).InvalidSearchQuery?
        == ClassifyOperationalError(message, enabled, query).InvalidSearchQuery?
  {
    LowerIdempotent(message);
  }

  lemma ContainsAtStart(s: string, sub: string)
    requires StartsWith(s, sub)
    ensures Contains(s, sub)
  {
    assert OccursAt(s, sub, 0);
  }

  /** The error raised when the search tables were dropped, inside update(). */
  lemma MissingTableMeansNotEnabled(table: string)
    ensures ClassifyOperationalError("no such table: " + table, true, false) == SearchNotEnabled
  {
    var m := "no such table: " + table;
    var lowered := Lower(m);
    assert lowered[..13] == "no such table";
    ContainsAtStart(lowered, "no such table");
  }

  /** A syntax error in a search query, with query wrapping on. */
  lemma SyntaxErrorIsInvalidQuery(rest: string)
    requires !Contains(Lower("fts5: syntax error near " + rest), "no such table")
    ensures ClassifyOperationalError("fts5: syntax error near " + rest, true, true)
         == InvalidSearchQuery("fts5: syntax error near " + rest)
  {
    var m := "fts5: syntax error near " + rest;
    var lowered := Lower(m);
    assert lowered[..23] == "fts5: syntax error near";
    ContainsAtStart(lowered, "fts5: syntax error near");
    assert QueryErrorFragments[0] == "fts5: syntax error near";
  }

  /** The same syntax error outside a query is not translated. */
  lemma SyntaxErrorOutsideQueryIsReraised(rest: string)
    requires !Contains(Lower("fts5: syntax error near " + rest), "no such table")
    ensures ClassifyOperationalError("fts5: syntax error near " + rest, true, false) == Reraise
  {
  }

  // ---------------------------------------------------------------------------
  // entry_search_result_factory
  // ---------------------------------------------------------------------------

  /** One element of a result row's JSON content array: a fragment's path and snippet. */
  datatype Snippet = Snippet(path: Option<string>, value: string)

  /** The columns of a search result row the factory uses (the rank is ignored). */
  datatype SearchRow = SearchRow(entryId: string, feedUrl: string, title: Option<string>,
                                 feedTitle: Option<string>, isFeedUserTitle: bool,
                                 content: seq<Snippet>)

  /**
   * An entry search result. `content` is an ordered mapping, kept as a
   * sequence of (path, highlighted value) pairs with distinct paths.
   */
  datatype EntrySearchResult<H> = EntrySearchResult(feedUrl: string, entryId: string,
                                                    metadata: map<string, H>,
                                                    content: seq<(string, H)>)

  /** `HighlightedString.extract(text, before_mark, after_mark)`. */
  type Extract<!H> = (string, string, string) -> H

  /** Python truthiness of an optional string. */
  predicate Present(s: Option<string>)
  {
    s.Some? && s.value != ""
  }

  predicate DistinctKeys<H>(od: seq<(string, H)>)
  {
    forall i, j :: 0 <= i < j < |od| ==> od[i].0 != od[j].0
  }

  /**
   * `od[key] = value` on an OrderedDict: an existing key keeps its position
   * and takes the new value; a new key goes at the end.
   */
  function OdSet<H>(od: seq<(string, H)>, key: string, value: H): (r: seq<(string, H)>)
    ensures key in Firsts(od) ==> |r| == |od| && Firsts(r) == Firsts(od)
    ensures key !in Firsts(od) ==> r == od + [(key, value)]
    ensures forall i :: 0 <= i < |r| && r[i].0 == key ==> r[i].1 == value
    ensures forall i :: 0 <= i < |od| && od[i].0 != key ==> r[i] == od[i]
  {
    if key in Firsts(od) then
      seq(|od|, i requires 0 <= i < |od| => if od[i].0 == key then (key, value) else od[i])
    else
      assert forall i :: 0 <= i < |od| ==> od[i].0 == Firsts(od)[i] != key;
      od + [(key, value)]
  }

  /** Setting a key keeps the keys of an ordered dictionary distinct. */
  lemma OdSetDistinct<H>(od: seq<(string, H)>, key: string, value: H)
    requires DistinctKeys(od)
    ensures DistinctKeys(OdSet(od, key, value))
  {
    var r := OdSet(od, key, value);
    if key in Firsts(od) {
      assert forall i :: 0 <= i < |r| ==> r[i].0 == Firsts(r)[i] == Firsts(od)[i] == od[i].0;
    } else {
      forall i | 0 <= i < |od|
        ensures od[i].0 != key
      {
        assert Firsts(od)[i] == od[i].0;
      }
    }
  }

  /** The paths of the snippets that have a non-empty path, in order. */
  function PresentPaths(snippets: seq<Snippet>): set<string>
  {
    set c | c in snippets && Present(c.path) :: c.path.value
  }

  /** `OrderedDict((c['path'], extract(c['value'], ...)) for c in content if c['path'])`. */
  function ContentOf<H>(snippets: seq<Snippet>, before: string, after: string, extract: Extract<H>)
    : (r: seq<(string, H)>)
    ensures DistinctKeys(r)
    decreases |snippets|
  {
    if snippets == [] then []
    else
      var n := |snippets| - 1;
      var od := ContentOf(snippets[..n], before, after, extract);
      assert forall c :: c in snippets[..n] ==> c in snippets;
      var c := snippets[n];
      if Present(c.path) then
        OdSetDistinct(od, c.path.value, extract(c.value, before, after));
        OdSet(od, c.path.value, extract(c.value, before, after))
      else od
  }

  /**
   * The reference meaning of the content mapping when paths do not repeat
   * (the index gives each fragment of an entry its own path): the snippets
   * with a non-empty path, in order, each highlighted.
   */
  function Highlighted<H>(snippets: seq<Snippet>, before: string, after: string, extract: Extract<H>)
    : seq<(string, H)>
  {
    if snippets == [] then []
    else
      var c := snippets[0];
      (if Present(c.path) then [(c.path.value, extract(c.value, before, after))] else [])
      + Highlighted(snippets[1..], before, after, extract)
  }

  predicate DistinctPaths(snippets: seq<Snippet>)
  {
    forall i, j :: 0 <= i < j < |snippets| && snippets[i].path.Some? && snippets[j].path.Some?
      ==> snippets[i].path.value != snippets[j].path.value
  }

  lemma HighlightedSnoc<H>(snippets: seq<Snippet>, c: Snippet, before: string, after: string, extract: Extract<H>)
    ensures Highlighted(snippets + [c], before, after, extract)
         == Highlighted(snippets, before, after, extract)
            + (if Present(c.path) then [(c.path.value, extract(c.value, before, after))] else [])
    decreases |snippets|
  {
    if snippets != [] {
      assert (snippets + [c])[1..] == snippets[1..] + [c];
      HighlightedSnoc(snippets[1..], c, before, after, extract);
    }
  }

  lemma HighlightedKeys<H>(snippets: seq<Snippet>, before: string, after: string, extract: Extract<H>)
    ensures forall k :: k in Firsts(Highlighted(snippets, before, after, extract)) ==> k in PresentPaths(snippets)
    decreases |snippets|
  {
    if snippets != [] {
      var c := snippets[0];
      var rest := Highlighted(snippets[1..], before, after, extract);
      HighlightedKeys(snippets[1..], before, after, extract);
      var head := if Present(c.path) then [(c.path.value, extract(c.value, before, after))] else [];
      assert Highlighted(snippets, before, after, extract) == head + rest;
      forall k | k in Firsts(head + rest)
        ensures k in PresentPaths(snippets)
      {
        var i :| 0 <= i < |head + rest| && Firsts(head + rest)[i] == k;
        if i < |head| {
          assert c in snippets;
        } else {
          assert Firsts(rest)[i - |head|] == k;
          assert k in Firsts(rest);
          assert k in PresentPaths(snippets[1..]);
          var d :| d in snippets[1..] && Present(d.path) && d.path.value == k;
          assert d in snippets;
        }
      }
    }
  }

  /**
   * With distinct paths the content mapping keeps every fragment that has a
   * path, in fragment order, and drops those without one.
   */
  lemma {:induction false} ContentKeepsOrder<H>(snippets: seq<Snippet>, before: string, after: string,
                                                extract: Extract<H>)
    requires DistinctPaths(snippets)
    ensures ContentOf(snippets, before, after, extract) == Highlighted(snippets, before, after, extract)
    decreases |snippets|
  {
    if snippets != [] {
      var n := |snippets| - 1;
      var init := snippets[..n];
      var c := snippets[n];
      assert DistinctPaths(init);
      ContentKeepsOrder(init, before, after, extract);
      assert snippets == init + [c];
      HighlightedSnoc(init, c, before, after, extract);
      if Present(c.path) {
        LastPathIsNew(snippets);
        HighlightedKeys(init, before, after, extract);
      }
    }
  }

  lemma LastPathIsNew(snippets: seq<Snippet>)
    requires snippets != [] && DistinctPaths(snippets) && Present(snippets[|snippets| - 1].path)
    ensures snippets[|snippets| - 1].path.value !in PresentPaths(snippets[..|snippets| - 1])
  {
    var n := |snippets| - 1;
    forall d | d in snippets[..n] && Present(d.path)
      ensures d.path.value != snippets[n].path.value
    {
      var j :| 0 <= j < n && snippets[..n][j] == d;
      assert snippets[j] == d;
    }
  }

  /** The metadata key the feed title goes under. */
  function FeedTitleKey(isFeedUserTitle: bool): string
  {
    if isFeedUserTitle then ".feed.user_title" else ".feed.title"
  }

  function EntrySearchResultFactory<H>(row: SearchRow, before: string, after: string, extract: Extract<H>)
    : (r: EntrySearchResult<H>)
    ensures r.feedUrl == row.feedUrl && r.entryId == row.entryId
    ensures ".title" in r.metadata <==> Present(row.title)
    ensures Present(row.title) ==> r.metadata[".title"] == extract(row.title.value, before, after)
    ensures ".feed.user_title" in r.metadata <==> Present(row.feedTitle) && row.isFeedUserTitle
    ensures ".feed.title" in r.metadata <==> Present(row.feedTitle) && !row.isFeedUserTitle
    ensures Present(row.feedTitle) ==>
      r.metadata[FeedTitleKey(row.isFeedUserTitle)] == extract(row.feedTitle.value, before, after)
    ensures r.metadata.Keys <= {".title", ".feed.title", ".feed.user_title"}
    ensures r.content == ContentOf(row.content, before, after, extract)
  {
    var titled: map<string, H> :=
      if Present(row.title) then map[".title" := extract(row.title.value, before, after)] else map[];
    var metadata :=
      if Present(row.feedTitle)
      then titled[FeedTitleKey(row.isFeedUserTitle) := extract(row.feedTitle.value, before, after)]
      else titled;
    EntrySearchResult(row.feedUrl, row.entryId, metadata, ContentOf(row.content, before, after, extract))
  }

  lemma ContentOfSnoc<H>(snippets: seq<Snippet>, c: Snippet, before: string, after: string, extract: Extract<H>)
    ensures ContentOf(snippets + [c], before, after, extract)
         == var od := ContentOf(snippets, before, after, extract);
            if Present(c.path) then OdSet(od, c.path.value, extract(c.value, before, after)) else od
  {
    assert (snippets + [c])[..|snippets|] == snippets;
  }

  /** The first three fragments of the example below: two distinct paths, one fragment without a path. */
  lemma DistinctPathsPrefix<H>(before: string, after: string, extract: Extract<H>)
    ensures ContentOf([Snippet(Some(".summary"), "a"), Snippet(None, "b"), Snippet(Some(".title"), "c")],
                      before, after, extract)
         == [(".summary", extract("a", before, after)), (".title", extract("c", before, after))]
  {
    var a := extract("a", before, after);
    var c := extract("c", before, after);
    var s1 := [Snippet(Some(".summary"), "a")];
    var s2 := s1 + [Snippet(None, "b")];
    var od1 := [(".summary", a)];
    assert Firsts(od1) == [".summary"];
    ContentOfSnoc([], s1[0], before, after, extract);
    assert [] + s1 == s1;
    ContentOfSnoc(s1, Snippet(None, "b"), before, after, extract);
    ContentOfSnoc(s2, Snippet(Some(".title"), "c"), before, after, extract);
    assert [Snippet(Some(".summary"), "a"), Snippet(None, "b"), Snippet(Some(".title"), "c")]
        == s2 + [Snippet(Some(".title"), "c")];
  }

  /** A repeated path keeps its first position and takes the last snippet's value. */
  lemma RepeatedPathExample<H>(before: string, after: string, extract: Extract<H>)
    ensures ContentOf([Snippet(Some(".summary"), "a"), Snippet(None, "b"), Snippet(Some(".title"), "c"),
                       Snippet(Some(".summary"), "d")], before, after, extract)
         == [(".summary", extract("d", before, after)), (".title", extract("c", before, after))]
  {
    var s3 := [Snippet(Some(".summary"), "a"), Snippet(None, "b"), Snippet(Some(".title"), "c")];
    var od2 := [(".summary", extract("a", before, after)), (".title", extract("c", before, after))];
    DistinctPathsPrefix(before, after, extract);
    assert [Snippet(Some(".summary"), "a"), Snippet(None, "b"), Snippet(Some(".title"), "c"),
            Snippet(Some(".summary"), "d")] == s3 + [Snippet(Some(".summary"), "d")];
    ContentOfSnoc(s3, Snippet(Some(".summary"), "d"), before, after, extract);
    assert Firsts(od2) == [".summary", ".title"];
    var r := OdSet(od2, ".summary", extract("d", before, after));
    assert |r| == 2 && Firsts(r)[0] == ".summary";
    assert r[0] == (".summary", extract("d", before, after));
    assert od2[1].0 != ".summary";
    assert r[1] == od2[1];
  }
}

=== FILE: types.dfy ===
/**
 * The reader library's internal value types and argument validators
 * (reader/_types.py): the data records the parser produces, the update
 * intent handed to storage, the tag and tristate filter normalisers, the
 * `from_args` constructors of the two filter-option records, and the
 * reserved-name scheme.
 */
module Types {
  import opened Wrappers
  import opened PyValue

  /** The exceptions these validators raise. */
  datatype Error = ValueError(message: string) | TypeError

  /** A naive UTC datetime, as a count of seconds. */
  type Datetime = int

  // ---------------------------------------------------------------------
  // Records

  /** Content(value, type=None, language=None) of the public types. */
  datatype Content = Content(value: Value, contentType: Value, language: Value)

  /** Enclosure(href, type=None, length=None) of the public types. */
  datatype Enclosure = Enclosure(href: Value, enclosureType: Value, length: Option<int>)

  /** Feed data that comes from the feed. `updated` holds the parser's time
      tuple; turning it into a datetime is not part of this model. */
  datatype FeedData = FeedData(
    url: string,
    updated: Option<Value>,
    title: Value,
    link: Value,
    author: Value,
    subtitle: Value,
    version: Option<string>)

  /** Entry data that comes from the feed; `resource_id` is (feed_url, id). */
  datatype EntryData = EntryData(
    feedUrl: string,
    id: Value,
    updated: Option<Value>,
    title: Value,
    link: Value,
    author: Value,
    published: Option<Value>,
    summary: Value,
    content: seq<Content>,
    enclosures: seq<Enclosure>)

  /** Data passed to storage when updating an entry. first_updated,
      first_updated_epoch and recent_sort are None when the entry already
      exists. */
  datatype EntryUpdateIntent = EntryUpdateIntent(
    entry: EntryData,
    lastUpdated: Datetime,
    firstUpdated: Option<Datetime>,
    firstUpdatedEpoch: Option<Datetime>,
    recentSort: Option<Datetime>,
    feedOrder: int,
    hashChanged: Option<int>,
    addedBy: string)
  {
    /** Whether the entry is new. */
    predicate New()
    {
      firstUpdatedEpoch.Some?
    }

    /** The documented shape: the three "first seen" fields are all set (a new
        entry) or all None (an entry that already exists). */
    predicate WellFormed()
    {
      firstUpdated.Some? == firstUpdatedEpoch.Some? && firstUpdatedEpoch.Some? == recentSort.Some?
    }
  }

  /** For a well-formed intent, `new` agrees with every "first seen" field. */
  lemma NewMeansFirstSeen(intent: EntryUpdateIntent)
    requires intent.WellFormed()
    ensures intent.New() <==> intent.firstUpdated.Some?
    ensures intent.New() <==> intent.recentSort.Some?
    ensures !intent.New() ==> intent.firstUpdated == intent.firstUpdatedEpoch == intent.recentSort == None
  {
  }

  // ---------------------------------------------------------------------
  // tag_filter_argument

  /** A normalised tag: a bare bool (has any tag / has no tags) or a
      (is_negation, tag) pair. */
  datatype Tag = BoolTag(b: bool) | NameTag(negated: bool, name: string)

  /** An AND of OR-groups of tags. */
  type TagFilter = seq<seq<Tag>>

  function TopLevelMessage(name: string): string
  {
    name + " must be none, bool, or a non-string sequence"
  }

  function ElementsMessage(name: string): string
  {
    "the elements of " + name + " must be strings, bool or string/bool sequences"
  }

  const EmptyTagMessage: string := "tag strings must be non-empty"

  /** The value a normalised tag stands for: the bool itself, or the tag
      string with a leading '-' when it is negated. */
  function TagValue(t: Tag): Value
  {
    match t
    case BoolTag(b) => BoolValue(b)
    case NameTag(negated, name) => StrValue((if negated then "-" else "") + name)
  }

  /** The tags normalisation can produce: a non-empty name, which starts
      with '-' only when the tag is negated (so '--x' is the negation of '-x'). */
  predicate CanonicalTag(t: Tag)
  {
    t.NameTag? ==> t.name != "" && (t.negated || !StartsWith(t.name, "-"))
  }

  /** A tag normalisation accepts: a bool, or a string other than '' and '-'. */
  predicate ValidTag(v: Value)
  {
    v.BoolValue? || (v.StrValue? && v.s != "" && v.s != "-")
  }

  /** normalize_tag. */
  function NormalizeTag(tag: Value, name: string): (r: Result<Tag, Error>)
    ensures r.Success? <==> ValidTag(tag)
    ensures r.Success? ==> TagValue(r.value) == tag && CanonicalTag(r.value)
    ensures tag.StrValue? && r.Failure? ==> r.error == ValueError(EmptyTagMessage)
    ensures !tag.BoolValue? && !tag.StrValue? ==> r == Failure(ValueError(ElementsMessage(name)))
  {
    match tag
    case BoolValue(b) => Success(BoolTag(b))
    case StrValue(s) =>
      var negated := StartsWith(s, "-");
      var rest := if negated then s[1..] else s;
      assert negated ==> s == "-" + rest;
      if rest == "" then Failure(ValueError(EmptyTagMessage))
      else Success(NameTag(negated, rest))
    case _ => Failure(ValueError(ElementsMessage(name)))
  }

  /** Normalisation undoes TagValue on the tags it can produce. */
  lemma NormalizeTagValue(t: Tag, name: string)
    requires CanonicalTag(t)
    ensures NormalizeTag(TagValue(t), name) == Success(t)
  {
    if t.NameTag? {
      var s := TagValue(t).s;
      if t.negated {
        assert s == "-" + t.name;
        assert s[..1] == "-" && s[1..] == t.name;
      } else {
        assert s == "" + t.name == t.name;
      }
    }
  }

  /** `list(map(normalize_tag, subtags))`: the first bad tag raises. */
  function NormalizeAll(tags: seq<Value>, name: string): (r: Result<seq<Tag>, Error>)
  {
    if tags == [] then Success([])
    else
      match NormalizeTag(tags[0], name)
      case Failure(e) => Failure(e)
      case Success(t) =>
        match NormalizeAll(tags[1..], name)
        case Failure(e) => Failure(e)
        case Success(ts) => Success([t] + ts)
  }

  /** What one element of `tags` contributes: a one-tag group for a bare
      bool or string, None for an empty sub-sequence, a group otherwise. */
  function GroupOf(subtags: Value, name: string): Result<Option<seq<Tag>>, Error>
  {
    if subtags.BoolValue? || subtags.StrValue? then
      match NormalizeTag(subtags, name)
      case Failure(e) => Failure(e)
      case Success(t) => Success(Some([t]))
    else if !subtags.SeqValue? then Failure(ValueError(ElementsMessage(name)))
    else if subtags.items == [] then Success(None)
    else
      match NormalizeAll(subtags.items, name)
      case Failure(e) => Failure(e)
      case Success(ts) => Success(Some(ts))
  }

  /** Put what has been built so far in front of the rest's outcome. */
  function Prepend<T>(done: seq<T>, rest: Result<seq<T>, Error>): Result<seq<T>, Error>
  {
    match rest
    case Failure(e) => Failure(e)
    case Success(xs) => Success(done + xs)
  }

  lemma PrependPrepend<T>(done: seq<T>, more: seq<T>, rest: Result<seq<T>, Error>)
    ensures Prepend(done, Prepend(more, rest)) == Prepend(done + more, rest)
  {
    if rest.Success? {
      assert done + (more + rest.value) == (done + more) + rest.value;
    }
  }

  /** The groups of a sequence argument, element by element; the first bad
      element raises. */
  function Groups(elements: seq<Value>, name: string): Result<TagFilter, Error>
  {
    if elements == [] then Success([])
    else
      match GroupOf(elements[0], name)
      case Failure(e) => Failure(e)
      case Success(g) =>
        Prepend(if g.Some? then [g.value] else [], Groups(elements[1..], name))
  }

  /** tag_filter_argument(tags, name), as a function of its input. */
  function TagFilterOf(tags: Value, name: string): Result<TagFilter, Error>
  {
    match tags
    case NoneValue => Success([])
    case BoolValue(b) => Success([[BoolTag(b)]])
    case SeqValue(elements) => Groups(elements, name)
    case _ => Failure(ValueError(TopLevelMessage(name)))
  }

  /** tag_filter_argument: the loop that appends one group per element. */
  method TagFilterArgument(tags: Value, name: string) returns (r: Result<TagFilter, Error>)
    ensures r == TagFilterOf(tags, name)
  {
    if tags.NoneValue? {
      return Success([]);
    }
    if tags.BoolValue? {
      return Success([[BoolTag(tags.b)]]);
    }
    if !tags.SeqValue? {
      return Failure(ValueError(TopLevelMessage(name)));
    }
    var elements := tags.items;
    var rv: TagFilter := [];
    assert elements[0..] == elements;
    match Groups(elements, name) {
      case Failure(e) =>
      case Success(gs) => assert rv + gs == gs;
    }
    for i := 0 to |elements|
      invariant Groups(elements, name) == Prepend(rv, Groups(elements[i..], name))
    {
      assert elements[i..][1..] == elements[i + 1..];
      var subtags := elements[i];
      if subtags.BoolValue? || subtags.StrValue? {
        var tag := NormalizeTag(subtags, name);
        if tag.Failure? {
          return Failure(tag.error);
        }
        PrependPrepend(rv, [[tag.value]], Groups(elements[i + 1..], name));
        rv := rv + [[tag.value]];
        continue;
      }
      if !subtags.SeqValue? {
        return Failure(ValueError(ElementsMessage(name)));
      }
      if subtags.items == [] {
        PrependPrepend(rv, [], Groups(elements[i + 1..], name));
        assert rv + [] == rv;
        continue;
      }
      var group := NormalizeAll(subtags.items, name);
      if group.Failure? {
        return Failure(group.error);
      }
      PrependPrepend(rv, [group.value], Groups(elements[i + 1..], name));
      rv := rv + [group.value];
    }
    assert elements[|elements|..] == [];
    assert rv + [] == rv;
    r := Success(rv);
  }

  /** An element the normaliser accepts: a valid tag, or a sequence of them. */
  predicate ValidElement(v: Value)
  {
    ValidTag(v) || (v.SeqValue? && forall i :: 0 <= i < |v.items| ==> ValidTag(v.items[i]))
  }

  /** A filter in normal form: every group non-empty, every tag canonical. */
  predicate CanonicalFilter(f: TagFilter)
  {
    forall i :: 0 <= i < |f| ==> f[i] != [] && forall j :: 0 <= j < |f[i]| ==> CanonicalTag(f[i][j])
  }

  /** The argument a filter stands for: a list of lists of tag values. */
  function FilterValue(f: TagFilter): Value
  {
    SeqValue(seq(|f|, i requires 0 <= i < |f| => SeqValue(seq(|f[i]|, j requires 0 <= j < |f[i]| => TagValue(f[i][j])))))
  }

  lemma {:induction false} NormalizeAllIff(tags: seq<Value>, name: string)
    ensures NormalizeAll(tags, name).Success? <==> forall i :: 0 <= i < |tags| ==> ValidTag(tags[i])
    ensures NormalizeAll(tags, name).Success? ==>
      var ts := NormalizeAll(tags, name).value;
      |ts| == |tags| && forall i :: 0 <= i < |ts| ==> TagValue(ts[i]) == tags[i] && CanonicalTag(ts[i])
    decreases |tags|
  {
    if tags != [] {
      NormalizeAllIff(tags[1..], name);
      assert forall i :: 1 <= i < |tags| ==> tags[i] == tags[1..][i - 1];
    }
  }

  /** The sequence argument is accepted exactly when every element is valid;
      then every group is non-empty and in normal form. */
  lemma {:induction false} GroupsIff(elements: seq<Value>, name: string)
    ensures Groups(elements, name).Success? <==> forall i :: 0 <= i < |elements| ==> ValidElement(elements[i])
    ensures Groups(elements, name).Success? ==> CanonicalFilter(Groups(elements, name).value)
    decreases |elements|
  {
    if elements != [] {
      GroupsIff(elements[1..], name);
      assert forall i :: 1 <= i < |elements| ==> elements[i] == elements[1..][i - 1];
      var v := elements[0];
      if v.SeqValue? {
        NormalizeAllIff(v.items, name);
      }
    }
  }

  /** tag_filter_argument accepts None, a bool, or a non-string sequence of
      valid elements, and nothing else; what it returns is in normal form. */
  lemma TagFilterAccepts(tags: Value, name: string)
    ensures TagFilterOf(tags, name).Success? <==>
      tags.NoneValue? || tags.BoolValue? ||
      (tags.SeqValue? && forall i :: 0 <= i < |tags.items| ==> ValidElement(tags.items[i]))
    ensures TagFilterOf(tags, name).Success? ==> CanonicalFilter(TagFilterOf(tags, name).value)
    ensures tags.StrValue? || tags.IntValue? || tags.FloatValue? || tags.OtherValue? ==>
      TagFilterOf(tags, name) == Failure(ValueError(TopLevelMessage(name)))
  {
    if tags.SeqValue? {
      GroupsIff(tags.items, name);
    }
  }

  /** Groups of a concatenation are the concatenated groups: elements are
      handled one at a time, in order, and the first failure wins. */
  lemma {:induction false} GroupsAppend(xs: seq<Value>, ys: seq<Value>, name: string)
    ensures Groups(xs + ys, name) ==
      match Groups(xs, name)
      case Failure(e) => Failure(e)
      case Success(gs) => Prepend(gs, Groups(ys, name))
    decreases |xs|
  {
    if xs == [] {
      assert xs + ys == ys;
      match Groups(ys, name)
      case Failure(e) =>
      case Success(hs) => assert [] + hs == hs;
    } else {
      assert (xs + ys)[0] == xs[0];
      assert (xs + ys)[1..] == xs[1..] + ys;
      GroupsAppend(xs[1..], ys, name);
      match GroupOf(xs[0], name)
      case Failure(e) =>
      case Success(g) =>
        var head: seq<seq<Tag>> := if g.Some? then [g.value] else [];
        match Groups(xs[1..], name)
        case Failure(e) =>
        case Success(gs) =>
          match Groups(ys, name)
          case Failure(e) =>
          case Success(hs) => assert head + (gs + hs) == (head + gs) + hs;
    }
  }

  /** A bare string or bool element is a one-tag group; an empty
      sub-sequence contributes nothing. */
  lemma GroupsOfOne(v: Value, name: string)
    ensures ValidTag(v) ==> Groups([v], name) == Success([[NormalizeTag(v, name).value]])
    ensures v == SeqValue([]) ==> Groups([v], name) == Success([])
  {
    assert [v][1..] == [];
    if ValidTag(v) {
      var t := NormalizeTag(v, name).value;
      assert [[t]] + [] == [[t]];
    }
    if v == SeqValue([]) {
      assert GroupOf(v, name) == Success(None);
      assert Groups([v], name) == Prepend([], Groups([], name));
      var none: TagFilter := [];
      assert none + [] == none;
    }
  }

  /** Normalisation is a round trip on normal forms: a filter in normal form
      comes back unchanged from the argument it stands for. */
  lemma {:induction false} TagFilterRoundTrip(f: TagFilter, name: string)
    requires CanonicalFilter(f)
    ensures TagFilterOf(FilterValue(f), name) == Success(f)
    decreases |f|
  {
    var elements := FilterValue(f).items;
    if f != [] {
      var rest := f[1..];
      TagFilterRoundTrip(rest, name);
      assert FilterValue(rest).items == elements[1..];
      NormalizeAllRoundTrip(f[0], name);
      assert elements[0] == SeqValue(seq(|f[0]|, j requires 0 <= j < |f[0]| => TagValue(f[0][j])));
      assert [f[0]] + rest == f;
    }
  }

  lemma {:induction false} NormalizeAllRoundTrip(ts: seq<Tag>, name: string)
    requires forall j :: 0 <= j < |ts| ==> CanonicalTag(ts[j])
    ensures NormalizeAll(seq(|ts|, j requires 0 <= j < |ts| => TagValue(ts[j])), name) == Success(ts)
    decreases |ts|
  {
    var vs := seq(|ts|, j requires 0 <= j < |ts| => TagValue(ts[j]));
    if ts != [] {
      NormalizeTagValue(ts[0], name);
      NormalizeAllRoundTrip(ts[1..], name);
      assert vs[1..] == seq(|ts[1..]|, j requires 0 <= j < |ts[1..]| => TagValue(ts[1..][j]));
      assert [ts[0]] + ts[1..] == ts;
    }
  }

  /** [['a', '-b'], 'c', [], True] normalises to
      [[(False, 'a'), (True, 'b')], [(False, 'c')], [True]]. */
  lemma TagFilterExample()
    ensures TagFilterOf(SeqValue([SeqValue([StrValue("a"), StrValue("-b")]), StrValue("c"), SeqValue([]), BoolValue(true)]), "tags")
         == Success([[NameTag(false, "a"), NameTag(true, "b")], [NameTag(false, "c")], [BoolTag(true)]])
  {
    var xs := [SeqValue([StrValue("a"), StrValue("-b")]), StrValue("c"), SeqValue([]), BoolValue(true)];
    assert xs[1..] == [StrValue("c"), SeqValue([]), BoolValue(true)];
    ExampleFirstGroup();
    ExampleLaterGroups();
    assert [[NameTag(false, "a"), NameTag(true, "b")]] + [[NameTag(false, "c")], [BoolTag(true)]]
        == [[NameTag(false, "a"), NameTag(true, "b")], [NameTag(false, "c")], [BoolTag(true)]];
  }

  /** The example's first element: a sub-sequence holding a plain and a negated tag. */
  lemma ExampleFirstGroup()
    ensures GroupOf(SeqValue([StrValue("a"), StrValue("-b")]), "tags")
         == Success(Some([NameTag(false, "a"), NameTag(true, "b")]))
  {
    assert StartsWith("-b", "-") && "-b"[1..] == "b";
    assert "a"[..1] == "a";
    assert [StrValue("a"), StrValue("-b")][1..] == [StrValue("-b")];
    assert NormalizeTag(StrValue("-b"), "tags") == Success(NameTag(true, "b"));
    assert [StrValue("-b")][1..] == [];
    assert NormalizeAll([], "tags") == Success([]);
    assert [NameTag(true, "b")] + [] == [NameTag(true, "b")];
    assert NormalizeAll([StrValue("-b")], "tags") == Success([NameTag(true, "b")]);
    assert NormalizeTag(StrValue("a"), "tags") == Success(NameTag(false, "a"));
    assert [NameTag(false, "a")] + [NameTag(true, "b")] == [NameTag(false, "a"), NameTag(true, "b")];
  }

  /** The example's later elements: a bare string, an empty sub-sequence (no group), a bare bool. */
  lemma ExampleLaterGroups()
    ensures Groups([StrValue("c"), SeqValue([]), BoolValue(true)], "tags")
         == Success([[NameTag(false, "c")], [BoolTag(true)]])
  {
    var xs := [StrValue("c"), SeqValue([]), BoolValue(true)];
    var tail := [SeqValue([]), BoolValue(true)];
    assert xs[1..] == tail && tail[1..] == [BoolValue(true)];
    assert "c"[..1] == "c";
    GroupsOfOne(BoolValue(true), "tags");
    assert GroupOf(SeqValue([]), "tags") == Success(None);
    assert Groups(tail, "tags") == Prepend([], Groups([BoolValue(true)], "tags"));
    assert [] + [[BoolTag(true)]] == [[BoolTag(true)]];
    assert NormalizeTag(StrValue("c"), "tags") == Success(NameTag(false, "c"));
    assert [[NameTag(false, "c")]] + [[BoolTag(true)]] == [[NameTag(false, "c")], [BoolTag(true)]];
  }

  // ---------------------------------------------------------------------
  // tristate_filter_argument

  datatype TristateFilter = IsTrue | IsFalse | NotSet | NotTrue | NotFalse | IsSet | Any

  /** The literal names, in declaration order (`get_args(TristateFilter)`). */
  const TristateNames: seq<string> := ["istrue", "isfalse", "notset", "nottrue", "notfalse", "isset", "any"]

  /** repr() of that tuple, as the error message shows it. */
  const TristateNamesRepr: string := "('istrue', 'isfalse', 'notset', 'nottrue', 'notfalse', 'isset', 'any')"

  function TristateName(t: TristateFilter): (r: string)
    ensures r in TristateNames
  {
    match t
    case IsTrue => "istrue"
    case IsFalse => "isfalse"
    case NotSet => "notset"
    case NotTrue => "nottrue"
    case NotFalse => "notfalse"
    case IsSet => "isset"
    case Any => "any"
  }

  /** The literal with a given name, if any. */
  function TristateNamed(s: string): (r: Option<TristateFilter>)
    ensures r.Some? <==> s in TristateNames
    ensures r.Some? ==> TristateName(r.value) == s
  {
    if s == "istrue" then Some(IsTrue)
    else if s == "isfalse" then Some(IsFalse)
    else if s == "notset" then Some(NotSet)
    else if s == "nottrue" then Some(NotTrue)
    else if s == "notfalse" then Some(NotFalse)
    else if s == "isset" then Some(IsSet)
    else if s == "any" then Some(Any)
    else None
  }

  /** The names are a faithful encoding: every literal is found by its name. */
  lemma TristateNameRoundTrip(t: TristateFilter)
    ensures TristateNamed(TristateName(t)) == Some(t)
  {
  }

  /** tristate_filter_argument(value, name). `value == True` also holds for
      the int 1, and `value == False` for 0. */
  function TristateFilterArgument(value: Value, name: string): (r: Result<TristateFilter, Error>)
    ensures value == NoneValue ==> r == Success(Any)
    ensures EqualsTrue(value) ==> r == Success(IsTrue)
    ensures EqualsFalse(value) ==> r == Success(NotTrue)
    ensures value.StrValue? && value.s in TristateNames ==> r.Success? && TristateName(r.value) == value.s
    ensures r.Success? <==> value == NoneValue || EqualsTrue(value) || EqualsFalse(value) || (value.StrValue? && value.s in TristateNames)
    ensures r.Failure? ==> r.error == ValueError(name + " must be none, bool, or one of " + TristateNamesRepr)
  {
    if value == NoneValue then Success(Any)
    else if EqualsTrue(value) then Success(IsTrue)
    else if EqualsFalse(value) then Success(NotTrue)
    else if value.StrValue? && TristateNamed(value.s).Some? then Success(TristateNamed(value.s).value)
    else Failure(ValueError(name + " must be none, bool, or one of " + TristateNamesRepr))
  }

  /** Every literal passes through unchanged. */
  lemma TristatePassesThrough(t: TristateFilter, name: string)
    ensures TristateFilterArgument(StrValue(TristateName(t)), name) == Success(t)
  {
    TristateNameRoundTrip(t);
  }

  // ---------------------------------------------------------------------
  // EntryFilterOptions.from_args / FeedFilterOptions.from_args

  /** `v in (None, False, True)` as the from_args checks state it. */
  function NoneOrBoolMessage(name: string): string
  {
    name + " should be one of (None, False, True)"
  }

  datatype EntryFilterOptions = EntryFilterOptions(
    feedUrl: Option<string>,
    entryId: Option<string>,
    read: Value,
    important: TristateFilter,
    hasEnclosures: Value,
    feedTags: TagFilter)

  /** EntryFilterOptions.from_args. `feed` is the feed's URL and `entry` the
      (feed URL, entry id) pair, as the feed and entry argument helpers give
      them. */
  function EntryFilterFromArgs(feed: Option<string>, entry: Option<(string, string)>, read: Value,
                               important: Value, hasEnclosures: Value, feedTags: Value): (r: Result<EntryFilterOptions, Error>)
    ensures r.Success? <==>
      IsNoneOrBool(read) && TristateFilterArgument(important, "important").Success?
      && IsNoneOrBool(hasEnclosures) && TagFilterOf(feedTags, "feed_tags").Success?
    ensures !IsNoneOrBool(read) ==> r == Failure(ValueError(NoneOrBoolMessage("read")))
    ensures IsNoneOrBool(read) && TristateFilterArgument(important, "important").Failure? ==>
      r == Failure(TristateFilterArgument(important, "important").error)
    ensures IsNoneOrBool(read) && TristateFilterArgument(important, "important").Success? && !IsNoneOrBool(hasEnclosures) ==>
      r == Failure(ValueError(NoneOrBoolMessage("has_enclosures")))
    ensures r.Success? ==>
      && r.value.feedUrl == (if entry.Some? then Some(entry.value.0) else feed)
      && r.value.entryId == (if entry.Some? then Some(entry.value.1) else None)
      && r.value.read == read && r.value.hasEnclosures == hasEnclosures
      && Success(r.value.important) == TristateFilterArgument(important, "important")
      && Success(r.value.feedTags) == TagFilterOf(feedTags, "feed_tags")
  {
    var feedUrl := if entry.Some? then Some(entry.value.0) else feed;
    var entryId := if entry.Some? then Some(entry.value.1) else None;
    if !IsNoneOrBool(read) then Failure(ValueError(NoneOrBoolMessage("read")))
    else
      match TristateFilterArgument(important, "important")
      case Failure(e) => Failure(e)
      case Success(importantFilter) =>
        if !IsNoneOrBool(hasEnclosures) then Failure(ValueError(NoneOrBoolMessage("has_enclosures")))
        else
          match TagFilterOf(feedTags, "feed_tags")
          case Failure(e) => Failure(e)
          case Success(feedTagFilter) =>
            Success(EntryFilterOptions(feedUrl, entryId, read, importantFilter, hasEnclosures, feedTagFilter))
  }

  datatype FeedFilterOptions = FeedFilterOptions(
    feedUrl: Option<string>,
    tags: TagFilter,
    broken: Value,
    updatesEnabled: Value,
    newOnly: Value)

  /** FeedFilterOptions.from_args; the tags are checked before the flags. */
  function FeedFilterFromArgs(feed: Option<string>, tags: Value, broken: Value,
                              updatesEnabled: Value, newOnly: Value): (r: Result<FeedFilterOptions, Error>)
    ensures r.Success? <==>
      TagFilterOf(tags, "tags").Success? && IsNoneOrBool(broken) && IsNoneOrBool(updatesEnabled) && IsNoneOrBool(newOnly)
    ensures TagFilterOf(tags, "tags").Failure? ==> r == Failure(TagFilterOf(tags, "tags").error)
    ensures TagFilterOf(tags, "tags").Success? && !IsNoneOrBool(broken) ==>
      r == Failure(ValueError(NoneOrBoolMessage("broken")))
    ensures TagFilterOf(tags, "tags").Success? && IsNoneOrBool(broken) && !IsNoneOrBool(updatesEnabled) ==>
      r == Failure(ValueError(NoneOrBoolMessage("updates_enabled")))
    ensures TagFilterOf(tags, "tags").Success? && IsNoneOrBool(broken) && IsNoneOrBool(updatesEnabled) && !IsNoneOrBool(newOnly) ==>
      r == Failure(ValueError(NoneOrBoolMessage("new")))
    ensures r.Success? ==>
      r.value == FeedFilterOptions(feed, TagFilterOf(tags, "tags").value, broken, updatesEnabled, newOnly)
  {
    match TagFilterOf(tags, "tags")
    case Failure(e) => Failure(e)
    case Success(tagFilter) =>
      if !IsNoneOrBool(broken) then Failure(ValueError(NoneOrBoolMessage("broken")))
      else if !IsNoneOrBool(updatesEnabled) then Failure(ValueError(NoneOrBoolMessage("updates_enabled")))
      else if !IsNoneOrBool(newOnly) then Failure(ValueError(NoneOrBoolMessage("new")))
      else Success(FeedFilterOptions(feed, tagFilter, broken, updatesEnabled, newOnly))
  }

  /** The int 1 and the floats 1.0 and 0.0 are accepted where a bool is
      expected, and kept as given; 2 and 0.5 are not. */
  lemma FromArgsAcceptsOne()
    ensures EntryFilterFromArgs(None, None, IntValue(1), NoneValue, NoneValue, NoneValue).Success?
    ensures EntryFilterFromArgs(None, None, IntValue(1), NoneValue, NoneValue, NoneValue).value.read == IntValue(1)
    ensures EntryFilterFromArgs(None, None, IntValue(2), NoneValue, NoneValue, NoneValue).Failure?
    ensures EntryFilterFromArgs(None, None, FloatValue(1.0), NoneValue, FloatValue(0.0), NoneValue).Success?
    ensures EntryFilterFromArgs(None, None, FloatValue(0.5), NoneValue, NoneValue, NoneValue).Failure?
    ensures FeedFilterFromArgs(None, NoneValue, FloatValue(1.0), FloatValue(0.0), NoneValue).Success?
  {
  }

  /** `1.0 == True` and `0.0 == False` in Python, so the floats pick the bool filters. */
  lemma TristateOfFloats(name: string)
    ensures TristateFilterArgument(FloatValue(1.0), name) == Success(IsTrue)
    ensures TristateFilterArgument(FloatValue(0.0), name) == Success(NotTrue)
    ensures TristateFilterArgument(FloatValue(2.0), name).Failure?
  {
  }

  // ---------------------------------------------------------------------
  // NameScheme

  /** How reserved names (tag and metadata keys) are built. */
  datatype NameScheme = NameScheme(readerPrefix: string, pluginPrefix: string, separator: string)
  {
    /** make_reader_name(key): the reader prefix followed by the key. */
    function MakeReaderName(key: string): (r: string)
      ensures StartsWith(r, readerPrefix) && r[|readerPrefix|..] == key
    {
      readerPrefix + key
    }

    /** make_plugin_name(plugin_name, key): the plugin prefix and name,
        then the separator and the key only when a key is given. */
    function MakePluginName(pluginName: string, key: Option<string>): (r: string)
      ensures StartsWith(r, pluginPrefix) && StartsWith(r[|pluginPrefix|..], pluginName)
      ensures key.None? ==> r[|pluginPrefix|..] == pluginName
      ensures key.Some? ==> r[|pluginPrefix| + |pluginName|..] == separator + key.value
    {
      var rv := pluginPrefix + pluginName;
      if key.Some? then rv + separator + key.value else rv
    }
  }

  /** Within one scheme, distinct keys give distinct reader names, and
      distinct keys of one plugin give distinct plugin names. */
  lemma NamesInjective(scheme: NameScheme, plugin: string, k1: string, k2: string)
    ensures scheme.MakeReaderName(k1) == scheme.MakeReaderName(k2) ==> k1 == k2
    ensures scheme.MakePluginName(plugin, Some(k1)) == scheme.MakePluginName(plugin, Some(k2)) ==> k1 == k2
  {
    var n := |scheme.pluginPrefix| + |plugin| + |scheme.separator|;
    if scheme.MakePluginName(plugin, Some(k1)) == scheme.MakePluginName(plugin, Some(k2)) {
      assert (scheme.separator + k1)[|scheme.separator|..] == k1;
      assert (scheme.separator + k2)[|scheme.separator|..] == k2;
    }
  }

  /** The name without a key is a prefix of every name with one. */
  lemma PluginNameExtends(scheme: NameScheme, plugin: string, key: string)
    ensures StartsWith(scheme.MakePluginName(plugin, Some(key)), scheme.MakePluginName(plugin, None))
  {
    var short := scheme.MakePluginName(plugin, None);
    var long := scheme.MakePluginName(plugin, Some(key));
    assert long == short + scheme.separator + key;
    assert long[..|short|] == short;
  }

  const SchemeKeys: set<string> := {"reader_prefix", "plugin_prefix", "separator"}

  /** NameScheme.from_value: `cls(**value)` needs exactly the three fields,
      and building a sample name of each kind needs all three to be strings;
      anything else raises TypeError. */
  function NameSchemeFromValue(value: map<string, Value>): (r: Result<NameScheme, Error>)
    ensures r.Success? <==>
      value.Keys == SchemeKeys && forall k :: k in SchemeKeys ==> value[k].StrValue?
    ensures r.Failure? ==> r.error == TypeError
    ensures r.Success? ==>
      && StrValue(r.value.readerPrefix) == value["reader_prefix"]
      && StrValue(r.value.pluginPrefix) == value["plugin_prefix"]
      && StrValue(r.value.separator) == value["separator"]
  {
    if value.Keys == SchemeKeys
      && value["reader_prefix"].StrValue? && value["plugin_prefix"].StrValue? && value["separator"].StrValue?
    then
      Success(NameScheme(value["reader_prefix"].s, value["plugin_prefix"].s, value["separator"].s))
    else
      Failure(TypeError)
  }

  const DefaultReservedNameScheme: map<string, Value> :=
    map["reader_prefix" := StrValue(".reader."), "plugin_prefix" := StrValue(".plugin."), "separator" := StrValue(".")]

  /** The default scheme builds '.reader.<key>' and '.plugin.<name>.<key>'. */
  lemma DefaultNameScheme()
    ensures NameSchemeFromValue(DefaultReservedNameScheme) == Success(NameScheme(".reader.", ".plugin.", "."))
    ensures NameScheme(".reader.", ".plugin.", ".").MakeReaderName("key") == ".reader.key"
    ensures NameScheme(".reader.", ".plugin.", ".").MakePluginName("name", Some("key")) == ".plugin.name.key"
    ensures NameScheme(".reader.", ".plugin.", ".").MakePluginName("name", None) == ".plugin.name"
  {
    assert DefaultReservedNameScheme.Keys == SchemeKeys;
  }
}

=== FILE: utils.dfy ===
/**
 * The sequence helpers of reader/_utils.py: zero_or_one, exactly_one, the
 * keyset pager join_paginated_iter, chunks and count_consumed.
 */
module Utils {
  import opened Wrappers

  /** What the helpers raise: the exception made by `make_exc()`, or the
      AssertionError of `assert False, "shouldn't get here"`. */
  datatype Raised = MadeException | AssertionFailed

  /** zero_or_one(things, make_exc, default); `default == None` stands for MISSING. */
  function ZeroOrOne<U>(things: seq<U>, default: Option<U>): (r: Result<U, Raised>)
    ensures r.Success? <==> |things| == 1 || (things == [] && default.Some?)
    ensures r.Success? && things == [] ==> default == Some(r.value)
    ensures r.Success? && things != [] ==> things == [r.value]
    ensures r.Failure? && things == [] ==> r.error == MadeException
    ensures r.Failure? && things != [] ==> r.error == AssertionFailed
  {
    if |things| == 0 then
      if default.None? then Failure(MadeException) else Success(default.value)
    else if |things| == 1 then
      Success(things[0])
    else
      Failure(AssertionFailed)
  }

  /** exactly_one(things). */
  function ExactlyOne<U>(things: seq<U>): (r: Result<U, Raised>)
    ensures r.Success? <==> |things| == 1
    ensures r.Success? ==> things == [r.value]
    ensures r.Failure? ==> r.error == AssertionFailed
  {
    if |things| == 1 then Success(things[0]) else Failure(AssertionFailed)
  }

  /** On a non-empty input the two helpers agree, whatever the default. */
  lemma ExactlyOneAgreesWithZeroOrOne<U>(things: seq<U>, default: Option<U>)
    requires things != []
    ensures ZeroOrOne(things, default) == ExactlyOne(things)
  {
  }

  // ---------------------------------------------------------------------
  // join_paginated_iter

  function Min(a: nat, b: nat): nat
  {
    if a <= b then a else b
  }

  /** One call `get_things(to_get, last)`. */
  datatype Call<C> = Call(toGet: nat, last: Option<C>)

  /** What a pager run yields, and the calls it made, in order. */
  datatype Run<U, C> = Run(items: seq<U>, calls: seq<Call<C>>)

  /** A page source: `get_things(n, last)` returns (thing, cursor) pairs. */
  type PageSource<U, !C> = (nat, Option<C>) -> seq<(U, C)>

  /** `(t for t, _ in things)`. */
  function Firsts<U, C>(things: seq<(U, C)>): (r: seq<U>)
    ensures |r| == |things|
    ensures forall i :: 0 <= i < |things| ==> r[i] == things[i].0
  {
    seq(|things|, i requires 0 <= i < |things| => things[i].0)
  }

  /** The page a call got back. */
  function PageOf<U, C>(get: PageSource<U, C>, c: Call<C>): seq<(U, C)>
  {
    get(c.toGet, c.last)
  }

  /** The chunked loop of join_paginated_iter, from the state (last, remaining),
      making at most `fuel` more calls. */
  function PageLoop<U, C>(get: PageSource<U, C>, chunkSize: nat, last: Option<C>,
                          limit: nat, remaining: nat, fuel: nat): Run<U, C>
    requires chunkSize > 0
    decreases fuel
  {
    if fuel == 0 || (limit > 0 && remaining == 0) then Run([], [])
    else
      var toGet := if limit > 0 then Min(remaining, chunkSize) else chunkSize;
      var remaining' := if limit > 0 then remaining - toGet else remaining;
      var things := get(toGet, last);
      if things == [] then Run([], [Call(toGet, last)])
      else if |things| < toGet then Run(Firsts(things), [Call(toGet, last)])
      else
        var rest := PageLoop(get, chunkSize, Some(things[|things| - 1].1), limit, remaining', fuel - 1);
        Run(Firsts(things) + rest.items, [Call(toGet, last)] + rest.calls)
  }

  /** join_paginated_iter(get_things, chunk_size, last, limit), allowed at most
      `maxCalls` calls when chunked. */
  function Paginate<U, C>(get: PageSource<U, C>, chunkSize: nat, last: Option<C>,
                          limit: nat, maxCalls: nat): Run<U, C>
  {
    if chunkSize == 0 then Run(Firsts(get(limit, last)), [Call(limit, last)])
    else PageLoop(get, chunkSize, last, limit, limit, maxCalls)
  }

  /** The generator itself: a loop that updates `remaining` and `last`. */
  method JoinPaginatedIter<U, C>(get: PageSource<U, C>, chunkSize: nat, last: Option<C>,
                                 limit: nat, maxCalls: nat)
    returns (items: seq<U>, calls: seq<Call<C>>)
    ensures Run(items, calls) == Paginate(get, chunkSize, last, limit, maxCalls)
  {
    if chunkSize == 0 {
      var things := get(limit, last);
      return Firsts(things), [Call(limit, last)];
    }
    var remaining: nat := limit;
    var cursor := last;
    var fuel := maxCalls;
    items, calls := [], [];
    ghost var rest := PageLoop(get, chunkSize, cursor, limit, remaining, fuel);
    ghost var target := rest;
    assert Run(items + rest.items, calls + rest.calls) == rest;
    while true
      invariant rest == PageLoop(get, chunkSize, cursor, limit, remaining, fuel)
      invariant target == Run(items + rest.items, calls + rest.calls)
      decreases fuel
    {
      if fuel == 0 || (limit > 0 && remaining == 0) {
        break;
      }
      var toGet: nat := if limit > 0 then Min(remaining, chunkSize) else chunkSize;
      var remaining': nat := if limit > 0 then remaining - toGet else remaining;
      var things := get(toGet, cursor);
      PageLoopAdvance(get, chunkSize, cursor, limit, remaining, fuel, toGet, remaining', things);
      var call := Call(toGet, cursor);
      ghost var items0, calls0, here := items, calls, rest;
      calls := calls + [call];
      remaining, fuel := remaining', fuel - 1;
      if things == [] {
        rest := Run([], []);
        assert items0 + [] == items;
        SeqShift(calls0, [call], [], calls);
        break;
      }
      cursor := Some(things[|things| - 1].1);
      items := items + Firsts(things);
      if |things| < toGet {
        rest := Run([], []);
        SeqShift(items0, Firsts(things), [], items);
        SeqShift(calls0, [call], [], calls);
        break;
      }
      rest := PageLoop(get, chunkSize, cursor, limit, remaining, fuel);
      SeqShift(items0, Firsts(things), rest.items, items);
      SeqShift(calls0, [call], rest.calls, calls);
    }
    assert items + [] == items && calls + [] == calls;
  }

  /** Moving one page from what is left to what has been produced. */
  lemma SeqShift<T>(done: seq<T>, page: seq<T>, left: seq<T>, done': seq<T>)
    requires done' == done + page
    ensures done + (page + left) == done' + left
  {
  }

  /** One step of the chunked loop, stated on the values the generator computes. */
  lemma PageLoopAdvance<U, C>(get: PageSource<U, C>, chunkSize: nat, cursor: Option<C>,
      limit: nat, remaining: nat, fuel: nat, toGet: nat, remaining': nat, things: seq<(U, C)>)
    requires chunkSize > 0 && fuel > 0 && !(limit > 0 && remaining == 0)
    requires toGet == (if limit > 0 then Min(remaining, chunkSize) else chunkSize)
    requires remaining' == (if limit > 0 then remaining - toGet else remaining)
    requires things == get(toGet, cursor)
    ensures toGet > 0
    ensures things == [] ==>
      PageLoop(get, chunkSize, cursor, limit, remaining, fuel) == Run([], [Call(toGet, cursor)])
    ensures things != [] && |things| < toGet ==>
      PageLoop(get, chunkSize, cursor, limit, remaining, fuel) == Run(Firsts(things), [Call(toGet, cursor)])
    ensures |things| >= toGet > 0 ==>
      PageLoop(get, chunkSize, cursor, limit, remaining, fuel)
        == Run(Firsts(things) + PageLoop(get, chunkSize, Some(things[|things| - 1].1), limit, remaining', fuel - 1).items,
               [Call(toGet, cursor)] + PageLoop(get, chunkSize, Some(things[|things| - 1].1), limit, remaining', fuel - 1).calls)
  {
  }

  /** The number of things requested by a list of calls. */
  function Requested<C>(calls: seq<Call<C>>): nat
  {
    if calls == [] then 0 else calls[0].toGet + Requested(calls[1..])
  }

  /** The source honours its `n`: it never returns more than was asked for. */
  ghost predicate HonoursLimit<U, C(!new)>(get: PageSource<U, C>)
  {
    forall n: nat, c: Option<C> {:trigger get(n, c)} :: 0 < n ==> |get(n, c)| <= n
  }

  /** Without chunking the pager makes exactly one call, get_things(limit, last),
      and yields the first components of what it returns. */
  lemma PagerUnchunked<U, C>(get: PageSource<U, C>, last: Option<C>, limit: nat, maxCalls: nat)
    ensures Paginate(get, 0, last, limit, maxCalls).calls == [Call(limit, last)]
    ensures Paginate(get, 0, last, limit, maxCalls).items == Firsts(get(limit, last))
  {
  }

  lemma {:induction false} PageLoopItemsWithin<U, C(!new)>(get: PageSource<U, C>, chunkSize: nat,
      last: Option<C>, limit: nat, remaining: nat, fuel: nat)
    requires chunkSize > 0 && limit > 0 && HonoursLimit(get)
    ensures |PageLoop(get, chunkSize, last, limit, remaining, fuel).items| <= remaining
    decreases fuel
  {
    if fuel > 0 && remaining > 0 {
      var toGet := Min(remaining, chunkSize);
      var things := get(toGet, last);
      PageLoopAdvance(get, chunkSize, last, limit, remaining, fuel, toGet, remaining - toGet, things);
      assert |things| <= toGet;
      if things != [] && |things| >= toGet {
        var next := Some(things[|things| - 1].1);
        PageLoopItemsWithin(get, chunkSize, next, limit, remaining - toGet, fuel - 1);
      }
    }
  }

  lemma {:induction false} PageLoopRequestedWithin<U, C>(get: PageSource<U, C>, chunkSize: nat,
      last: Option<C>, limit: nat, remaining: nat, fuel: nat)
    requires chunkSize > 0 && limit > 0
    ensures Requested(PageLoop(get, chunkSize, last, limit, remaining, fuel).calls) <= remaining
    decreases fuel
  {
    if fuel > 0 && remaining > 0 {
      var toGet := Min(remaining, chunkSize);
      var things := get(toGet, last);
      PageLoopAdvance(get, chunkSize, last, limit, remaining, fuel, toGet, remaining - toGet, things);
      var call := Call(toGet, last);
      if things != [] && |things| >= toGet {
        var next := Some(things[|things| - 1].1);
        PageLoopRequestedWithin(get, chunkSize, next, limit, remaining - toGet, fuel - 1);
        var rest := PageLoop(get, chunkSize, next, limit, remaining - toGet, fuel - 1).calls;
        assert ([call] + rest)[1..] == rest;
      } else {
        assert Requested([call]) == toGet;
      }
    }
  }

  /** With a limit, the pager yields at most `limit` things and asks for at most
      `limit` in all. */
  lemma PagerLimit<U, C(!new)>(get: PageSource<U, C>, chunkSize: nat, last: Option<C>, limit: nat, maxCalls: nat)
    requires limit > 0 && HonoursLimit(get)
    ensures |Paginate(get, chunkSize, last, limit, maxCalls).items| <= limit
    ensures chunkSize > 0 ==> Requested(Paginate(get, chunkSize, last, limit, maxCalls).calls) <= limit
  {
    if chunkSize > 0 {
      PageLoopItemsWithin(get, chunkSize, last, limit, limit, maxCalls);
      PageLoopRequestedWithin(get, chunkSize, last, limit, limit, maxCalls);
    }
  }

  /** Call `i` asked for what the pager's rule prescribes when `remaining`
      of the limit was left before the first call. */
  ghost predicate RequestOk<C>(calls: seq<Call<C>>, i: nat, chunkSize: nat, limit: nat, remaining: nat)
    requires i < |calls|
  {
    if limit > 0 then
      Requested(calls[..i]) < remaining && calls[i].toGet == Min(remaining - Requested(calls[..i]), chunkSize)
    else
      calls[i].toGet == chunkSize
  }

  ghost predicate RequestsOk<C>(calls: seq<Call<C>>, chunkSize: nat, limit: nat, remaining: nat)
  {
    forall i :: 0 <= i < |calls| ==> RequestOk(calls, i, chunkSize, limit, remaining)
  }

  lemma RequestedCons<C>(c: Call<C>, rest: seq<Call<C>>, i: nat)
    requires 0 < i <= |rest| + 1
    ensures Requested(([c] + rest)[..i]) == c.toGet + Requested(rest[..i - 1])
  {
    assert ([c] + rest)[..i] == [c] + rest[..i - 1];
    assert ([c] + rest[..i - 1])[1..] == rest[..i - 1];
  }

  lemma {:induction false} PageLoopRequests<U, C>(get: PageSource<U, C>, chunkSize: nat,
      last: Option<C>, limit: nat, remaining: nat, fuel: nat)
    requires chunkSize > 0
    ensures RequestsOk(PageLoop(get, chunkSize, last, limit, remaining, fuel).calls, chunkSize, limit, remaining)
    decreases fuel
  {
    var calls := PageLoop(get, chunkSize, last, limit, remaining, fuel).calls;
    if fuel == 0 || (limit > 0 && remaining == 0) {
      assert calls == [];
    } else {
      var toGet := if limit > 0 then Min(remaining, chunkSize) else chunkSize;
      var remaining' := if limit > 0 then remaining - toGet else remaining;
      var things := get(toGet, last);
      assert calls[0] == Call(toGet, last);
      assert RequestOk(calls, 0, chunkSize, limit, remaining) by {
        assert calls[..0] == [];
      }
      if things != [] && |things| >= toGet {
        var next := Some(things[|things| - 1].1);
        PageLoopRequests(get, chunkSize, next, limit, remaining', fuel - 1);
        var rest := PageLoop(get, chunkSize, next, limit, remaining', fuel - 1).calls;
        assert calls == [Call(toGet, last)] + rest;
        forall i | 0 < i < |calls|
          ensures RequestOk(calls, i, chunkSize, limit, remaining)
        {
          assert 0 <= i - 1 < |rest|;
          assert RequestOk(rest, i - 1, chunkSize, limit, remaining');
          RequestedCons(Call(toGet, last), rest, i);
          assert calls[i] == rest[i - 1];
        }
      } else {
        assert |calls| == 1;
      }
    }
  }

  /** Each call asks for `min(remaining, chunk_size)` when there is a limit, where
      `remaining` is what the earlier calls left of it, and for `chunk_size`
      otherwise. */
  lemma PagerRequests<U, C>(get: PageSource<U, C>, chunkSize: nat, last: Option<C>, limit: nat, maxCalls: nat)
    requires chunkSize > 0
    ensures var calls := Paginate(get, chunkSize, last, limit, maxCalls).calls;
      forall i :: 0 <= i < |calls| ==>
        if limit > 0 then
          Requested(calls[..i]) < limit && calls[i].toGet == Min(limit - Requested(calls[..i]), chunkSize)
        else
          calls[i].toGet == chunkSize
  {
    PageLoopRequests(get, chunkSize, last, limit, limit, maxCalls);
    var calls := Paginate(get, chunkSize, last, limit, maxCalls).calls;
    forall i | 0 <= i < |calls|
      ensures if limit > 0 then
          Requested(calls[..i]) < limit && calls[i].toGet == Min(limit - Requested(calls[..i]), chunkSize)
        else
          calls[i].toGet == chunkSize
    {
      assert RequestOk(calls, i, chunkSize, limit, limit);
    }
  }

  /** The pages behind a list of calls, first components concatenated. */
  function YieldedBy<U, C>(get: PageSource<U, C>, calls: seq<Call<C>>): seq<U>
  {
    if calls == [] then [] else Firsts(PageOf(get, calls[0])) + YieldedBy(get, calls[1..])
  }

  /** A call is followed by another only after a full page, and the next call
      resumes from the cursor of that page's last element. */
  ghost predicate Chained<U, C>(get: PageSource<U, C>, calls: seq<Call<C>>)
  {
    forall i :: 0 <= i < |calls| - 1 ==> Follows(get, calls, i)
  }

  /** Call `i` got a full page (at least what it asked for) and call `i + 1`
      resumes after its last element. */
  ghost predicate Follows<U, C>(get: PageSource<U, C>, calls: seq<Call<C>>, i: nat)
    requires i < |calls| - 1
  {
    var page := PageOf(get, calls[i]);
    0 < calls[i].toGet <= |page| && calls[i + 1].last == Some(page[|page| - 1].1)
  }

  /** Prepending a call that got a full page ending at the next call's cursor keeps a run chained. */
  lemma ChainedCons<U, C>(get: PageSource<U, C>, first: Call<C>, rest: seq<Call<C>>)
    requires Chained(get, rest)
    requires rest != [] ==>
      var page := PageOf(get, first);
      0 < first.toGet <= |page| && rest[0].last == Some(page[|page| - 1].1)
    ensures Chained(get, [first] + rest)
  {
    var calls := [first] + rest;
    forall i | 0 <= i < |calls| - 1
      ensures Follows(get, calls, i)
    {
      if i > 0 {
        assert Follows(get, rest, i - 1);
        assert calls[i] == rest[i - 1] && calls[i + 1] == rest[i];
      } else {
        assert calls[1] == rest[0];
      }
    }
  }

  /** The first call of a chunked run resumes from the pager's own `last`. */
  lemma PageLoopFirstCall<U, C>(get: PageSource<U, C>, chunkSize: nat,
      last: Option<C>, limit: nat, remaining: nat, fuel: nat)
    requires chunkSize > 0
    ensures PageLoop(get, chunkSize, last, limit, remaining, fuel).calls != [] ==>
      PageLoop(get, chunkSize, last, limit, remaining, fuel).calls[0].last == last
  {
    if fuel > 0 && !(limit > 0 && remaining == 0) {
      var toGet := if limit > 0 then Min(remaining, chunkSize) else chunkSize;
      var remaining' := if limit > 0 then remaining - toGet else remaining;
      var things := get(toGet, last);
      PageLoopAdvance(get, chunkSize, last, limit, remaining, fuel, toGet, remaining', things);
    }
  }

  lemma {:induction false} PageLoopYields<U, C>(get: PageSource<U, C>, chunkSize: nat,
      last: Option<C>, limit: nat, remaining: nat, fuel: nat)
    requires chunkSize > 0
    ensures PageLoop(get, chunkSize, last, limit, remaining, fuel).items
         == YieldedBy(get, PageLoop(get, chunkSize, last, limit, remaining, fuel).calls)
    decreases fuel
  {
    var run := PageLoop(get, chunkSize, last, limit, remaining, fuel);
    if fuel == 0 || (limit > 0 && remaining == 0) {
      assert run.calls == [];
    } else {
      var toGet := if limit > 0 then Min(remaining, chunkSize) else chunkSize;
      var remaining' := if limit > 0 then remaining - toGet else remaining;
      var things := get(toGet, last);
      PageLoopAdvance(get, chunkSize, last, limit, remaining, fuel, toGet, remaining', things);
      var first := Call(toGet, last);
      assert PageOf(get, first) == things;
      if |things| < toGet {
        assert run.calls == [first] && run.items == Firsts(things);
        assert run.calls[1..] == [];
        assert YieldedBy(get, run.calls) == Firsts(PageOf(get, run.calls[0])) + YieldedBy(get, run.calls[1..]);
        assert Firsts(things) + [] == Firsts(things);
      } else {
        var next := Some(things[|things| - 1].1);
        PageLoopYields(get, chunkSize, next, limit, remaining', fuel - 1);
        var rest := PageLoop(get, chunkSize, next, limit, remaining', fuel - 1);
        assert run.calls == [first] + rest.calls;
        assert run.items == Firsts(things) + rest.items;
        assert run.calls[1..] == rest.calls;
        assert run.calls[0] == first;
        assert YieldedBy(get, run.calls) == Firsts(PageOf(get, run.calls[0])) + YieldedBy(get, run.calls[1..]);
      }
    }
  }

  lemma {:induction false} PageLoopChained<U, C>(get: PageSource<U, C>, chunkSize: nat,
      last: Option<C>, limit: nat, remaining: nat, fuel: nat)
    requires chunkSize > 0
    ensures Chained(get, PageLoop(get, chunkSize, last, limit, remaining, fuel).calls)
    decreases fuel
  {
    if fuel > 0 && !(limit > 0 && remaining == 0) {
      var toGet := if limit > 0 then Min(remaining, chunkSize) else chunkSize;
      var remaining' := if limit > 0 then remaining - toGet else remaining;
      var things := get(toGet, last);
      if |things| >= toGet > 0 {
        var next := Some(things[|things| - 1].1);
        PageLoopChained(get, chunkSize, next, limit, remaining', fuel - 1);
        PageLoopFirstCall(get, chunkSize, next, limit, remaining', fuel - 1);
      }
      ChainedStep(get, chunkSize, last, limit, remaining, fuel, toGet, remaining', things);
    } else {
      PageLoopCallsEmpty(get, chunkSize, last, limit, remaining, fuel);
    }
  }

  /** One step of PageLoopChained: the first call in front of a chained rest. */
  lemma ChainedStep<U, C>(get: PageSource<U, C>, chunkSize: nat, last: Option<C>,
      limit: nat, remaining: nat, fuel: nat, toGet: nat, remaining': nat, things: seq<(U, C)>)
    requires chunkSize > 0 && fuel > 0 && !(limit > 0 && remaining == 0)
    requires toGet == (if limit > 0 then Min(remaining, chunkSize) else chunkSize)
    requires remaining' == (if limit > 0 then remaining - toGet else remaining)
    requires things == get(toGet, last)
    requires |things| >= toGet > 0 ==>
      var rest := PageLoop(get, chunkSize, Some(things[|things| - 1].1), limit, remaining', fuel - 1).calls;
      Chained(get, rest) && (rest != [] ==> rest[0].last == Some(things[|things| - 1].1))
    ensures Chained(get, PageLoop(get, chunkSize, last, limit, remaining, fuel).calls)
  {
    PageLoopAdvance(get, chunkSize, last, limit, remaining, fuel, toGet, remaining', things);
    var first := Call(toGet, last);
    assert PageOf(get, first) == things;
    if |things| < toGet {
      ChainedCons(get, first, []);
    } else {
      var rest := PageLoop(get, chunkSize, Some(things[|things| - 1].1), limit, remaining', fuel - 1).calls;
      ChainedCons(get, first, rest);
    }
  }

  lemma {:induction false} PageLoopCallsBound<U, C>(get: PageSource<U, C>, chunkSize: nat,
      last: Option<C>, limit: nat, remaining: nat, fuel: nat)
    requires chunkSize > 0
    ensures |PageLoop(get, chunkSize, last, limit, remaining, fuel).calls| <= fuel
    decreases fuel
  {
    if fuel > 0 && !(limit > 0 && remaining == 0) {
      var toGet := if limit > 0 then Min(remaining, chunkSize) else chunkSize;
      var remaining' := if limit > 0 then remaining - toGet else remaining;
      var things := get(toGet, last);
      PageLoopAdvance(get, chunkSize, last, limit, remaining, fuel, toGet, remaining', things);
      if |things| >= toGet {
        PageLoopCallsBound(get, chunkSize, Some(things[|things| - 1].1), limit, remaining', fuel - 1);
      }
    }
  }

  /** The last of a non-empty list of calls got a short page. */
  ghost predicate EndsShort<U, C>(get: PageSource<U, C>, calls: seq<Call<C>>)
    requires calls != []
  {
    |PageOf(get, calls[|calls| - 1])| < calls[|calls| - 1].toGet
  }

  lemma EndsShortCons<U, C>(get: PageSource<U, C>, first: Call<C>, rest: seq<Call<C>>)
    requires rest != [] && EndsShort(get, rest)
    ensures EndsShort(get, [first] + rest)
  {
    assert ([first] + rest)[|rest|] == rest[|rest| - 1];
  }

  lemma RequestedHead<C>(first: Call<C>, rest: seq<Call<C>>)
    ensures Requested([first] + rest) == first.toGet + Requested(rest)
  {
    assert ([first] + rest)[1..] == rest;
  }

  /** The chunked loop makes a call unless it is out of calls or of limit. */
  lemma PageLoopCallsEmpty<U, C>(get: PageSource<U, C>, chunkSize: nat,
      last: Option<C>, limit: nat, remaining: nat, fuel: nat)
    requires chunkSize > 0
    ensures PageLoop(get, chunkSize, last, limit, remaining, fuel).calls == [] <==>
      fuel == 0 || (limit > 0 && remaining == 0)
  {
  }

  /** The induction step of PageLoopStopsShort, on the calls alone. */
  lemma StopsShortStep<U, C>(get: PageSource<U, C>, first: Call<C>, rest: seq<Call<C>>,
      limit: nat, remaining: nat, remaining': nat, fuel: nat)
    requires fuel > 0 && remaining' == (if limit > 0 then remaining - first.toGet else remaining)
    requires 0 < |rest| < fuel - 1 && (limit == 0 || Requested(rest) < remaining') ==> EndsShort(get, rest)
    requires rest == [] ==> fuel - 1 == 0 || (limit > 0 && remaining' == 0)
    ensures 0 < |[first] + rest| < fuel && (limit == 0 || Requested([first] + rest) < remaining) ==>
      EndsShort(get, [first] + rest)
  {
    RequestedHead(first, rest);
    if rest != [] && 0 < |[first] + rest| < fuel && (limit == 0 || Requested([first] + rest) < remaining) {
      EndsShortCons(get, first, rest);
    }
  }

  lemma {:induction false} PageLoopStopsShort<U, C>(get: PageSource<U, C>, chunkSize: nat,
      last: Option<C>, limit: nat, remaining: nat, fuel: nat)
    requires chunkSize > 0
    ensures var run := PageLoop(get, chunkSize, last, limit, remaining, fuel);
      0 < |run.calls| < fuel && (limit == 0 || Requested(run.calls) < remaining) ==>
        EndsShort(get, run.calls)
    decreases fuel
  {
    if fuel > 0 && !(limit > 0 && remaining == 0) {
      var toGet := if limit > 0 then Min(remaining, chunkSize) else chunkSize;
      var remaining' := if limit > 0 then remaining - toGet else remaining;
      var things := get(toGet, last);
      if |things| >= toGet > 0 {
        var next := Some(things[|things| - 1].1);
        PageLoopStopsShort(get, chunkSize, next, limit, remaining', fuel - 1);
        PageLoopCallsEmpty(get, chunkSize, next, limit, remaining', fuel - 1);
      }
      StopsShortLoopStep(get, chunkSize, last, limit, remaining, fuel, toGet, remaining', things);
    }
  }

  /** One step of PageLoopStopsShort: a short page ends the run, a full one
      puts its call in front of the rest. */
  lemma StopsShortLoopStep<U, C>(get: PageSource<U, C>, chunkSize: nat, last: Option<C>,
      limit: nat, remaining: nat, fuel: nat, toGet: nat, remaining': nat, things: seq<(U, C)>)
    requires chunkSize > 0 && fuel > 0 && !(limit > 0 && remaining == 0)
    requires toGet == (if limit > 0 then Min(remaining, chunkSize) else chunkSize)
    requires remaining' == (if limit > 0 then remaining - toGet else remaining)
    requires things == get(toGet, last)
    requires |things| >= toGet > 0 ==>
      var rest := PageLoop(get, chunkSize, Some(things[|things| - 1].1), limit, remaining', fuel - 1).calls;
      && (0 < |rest| < fuel - 1 && (limit == 0 || Requested(rest) < remaining') ==> EndsShort(get, rest))
      && (rest == [] ==> fuel - 1 == 0 || (limit > 0 && remaining' == 0))
    ensures var run := PageLoop(get, chunkSize, last, limit, remaining, fuel);
      0 < |run.calls| < fuel && (limit == 0 || Requested(run.calls) < remaining) ==>
        EndsShort(get, run.calls)
  {
    PageLoopAdvance(get, chunkSize, last, limit, remaining, fuel, toGet, remaining', things);
    var first := Call(toGet, last);
    if |things| < toGet {
      assert PageOf(get, first) == things;
      assert EndsShort(get, [first]);
    } else {
      var rest := PageLoop(get, chunkSize, Some(things[|things| - 1].1), limit, remaining', fuel - 1).calls;
      StopsShortStep(get, first, rest, limit, remaining, remaining', fuel);
    }
  }

  /** The stopping rule: every call but the last got a full page, each later call
      starts from the cursor of the previous page's last element, what is yielded
      is the pages' first components in call order, and a run that stopped with
      calls and limit to spare stopped on a short (possibly empty) page. */
  lemma PagerStoppingRule<U, C>(get: PageSource<U, C>, chunkSize: nat, last: Option<C>, limit: nat, maxCalls: nat)
    requires chunkSize > 0
    ensures var run := Paginate(get, chunkSize, last, limit, maxCalls);
      && Chained(get, run.calls)
      && run.items == YieldedBy(get, run.calls)
      && (run.calls != [] ==> run.calls[0].last == last)
      && |run.calls| <= maxCalls
      && (0 < |run.calls| < maxCalls && (limit == 0 || Requested(run.calls) < limit) ==>
            var lastCall := run.calls[|run.calls| - 1];
            |PageOf(get, lastCall)| < lastCall.toGet)
  {
    PageLoopFirstCall(get, chunkSize, last, limit, limit, maxCalls);
    PageLoopYields(get, chunkSize, last, limit, limit, maxCalls);
    PageLoopChained(get, chunkSize, last, limit, limit, maxCalls);
    PageLoopCallsBound(get, chunkSize, last, limit, limit, maxCalls);
    PageLoopStopsShort(get, chunkSize, last, limit, limit, maxCalls);
  }

  // The docstring's page source: the numbers one to ten, keyed by their value.

  const Names: seq<string> := ["one", "two", "three", "four", "five", "six", "seven", "eight", "nine", "ten"]

  /** count_to_ten(n, last): the (name, number) pairs after `last`, at most `n`
      of them when `n` is not 0. */
  function CountToTen(n: nat, last: Option<nat>): seq<(string, nat)>
  {
    var start: nat := if last.Some? && last.value <= 10 then last.value else if last.Some? then 10 else 0;
    var all := seq(10 - start, i requires 0 <= i < 10 - start => (Names[start + i], start + i + 1));
    if n == 0 || n >= |all| then all else all[..n]
  }

  lemma PagerExampleChunked()
    ensures Paginate(CountToTen, 4, None, 0, 10)
         == Run(Names, [Call(4, None), Call(4, Some(4)), Call(4, Some(8))])
  {
    assert CountToTen(4, None) == [("one", 1), ("two", 2), ("three", 3), ("four", 4)];
    assert CountToTen(4, Some(4)) == [("five", 5), ("six", 6), ("seven", 7), ("eight", 8)];
    assert CountToTen(4, Some(8)) == [("nine", 9), ("ten", 10)];
  }

  lemma PagerExampleUnchunked()
    ensures Paginate(CountToTen, 0, None, 0, 10) == Run(Names, [Call(0, None)])
    ensures Paginate(CountToTen, 0, Some(4), 0, 10) == Run(Names[4..], [Call(0, Some(4))])
  {
    assert CountToTen(0, None) == seq(10, i requires 0 <= i < 10 => (Names[i], i + 1));
    assert CountToTen(0, Some(4)) == [("five", 5), ("six", 6), ("seven", 7), ("eight", 8), ("nine", 9), ("ten", 10)];
  }

  lemma PagerExampleFromCursor()
    ensures Paginate(CountToTen, 4, Some(4), 0, 10) == Run(Names[4..], [Call(4, Some(4)), Call(4, Some(8))])
  {
    assert CountToTen(4, Some(4)) == [("five", 5), ("six", 6), ("seven", 7), ("eight", 8)];
    assert CountToTen(4, Some(8)) == [("nine", 9), ("ten", 10)];
  }

  lemma PagerExampleLimited()
    ensures Paginate(CountToTen, 4, Some(4), 5, 10) == Run(Names[4..9], [Call(4, Some(4)), Call(1, Some(8))])
    ensures Paginate(CountToTen, 0, Some(4), 5, 10) == Run(Names[4..9], [Call(5, Some(4))])
  {
    assert CountToTen(4, Some(4)) == [("five", 5), ("six", 6), ("seven", 7), ("eight", 8)];
    assert CountToTen(1, Some(8)) == [("nine", 9)];
    assert CountToTen(5, Some(4)) == [("five", 5), ("six", 6), ("seven", 7), ("eight", 8), ("nine", 9)];
  }

  // ---------------------------------------------------------------------
  // chunks

  /** chunks(n, xs) for n >= 0, every chunk consumed before the next is asked for. */
  function Chunks<T>(n: nat, xs: seq<T>): seq<seq<T>>
    decreases |xs|
  {
    if n == 0 || xs == [] then []
    else if |xs| <= n then [xs]
    else [xs[..n]] + Chunks(n, xs[n..])
  }

  function Concat<T>(xss: seq<seq<T>>): seq<T>
  {
    if xss == [] then [] else xss[0] + Concat(xss[1..])
  }

  /** `itslice` refuses a negative size with ValueError. */
  datatype ChunkError = NegativeSize

  /** The generator: it takes up to `n` elements from the shared iterator each
      round and stops when it gets none. */
  method ChunkIter<T>(n: int, xs: seq<T>) returns (r: Result<seq<seq<T>>, ChunkError>)
    ensures n < 0 <==> r.Failure?
    ensures n >= 0 ==> r == Success(Chunks(n, xs))
  {
    if n < 0 {
      return Failure(NegativeSize);
    }
    var out: seq<seq<T>> := [];
    var rest := xs;
    while true
      invariant out + Chunks(n, rest) == Chunks(n, xs)
      decreases |rest|
    {
      var chunk := if n <= |rest| then rest[..n] else rest;
      if chunk == [] {
        break;
      }
      if |rest| <= n {
        assert chunk == rest && rest[|chunk|..] == [];
      }
      assert Chunks(n, rest) == [chunk] + Chunks(n, rest[|chunk|..]);
      out := out + [chunk];
      rest := rest[|chunk|..];
    }
    assert Chunks(n, rest) == [];
    assert out + [] == out;
    return Success(out);
  }

  /** For n >= 1 the chunks put back together give the input. */
  lemma {:induction false} ChunksConcat<T>(n: nat, xs: seq<T>)
    requires n >= 1
    ensures Concat(Chunks(n, xs)) == xs
    decreases |xs|
  {
    var cs := Chunks(n, xs);
    if xs != [] && |xs| > n {
      ChunksConcat(n, xs[n..]);
      assert cs == [xs[..n]] + Chunks(n, xs[n..]);
      assert cs[0] == xs[..n] && cs[1..] == Chunks(n, xs[n..]);
      assert Concat(cs) == xs[..n] + xs[n..];
      assert xs[..n] + xs[n..] == xs;
    } else if xs != [] {
      assert cs == [xs] && cs[1..] == [];
      assert Concat(cs) == xs + [];
    }
  }

  /** For n >= 1 every chunk is non-empty with at most n elements, and every
      chunk but the last has exactly n. */
  lemma {:induction false} ChunksShape<T>(n: nat, xs: seq<T>)
    requires n >= 1
    ensures var cs := Chunks(n, xs);
      (forall i :: 0 <= i < |cs| ==> 0 < |cs[i]| <= n)
      && (forall i :: 0 <= i < |cs| - 1 ==> |cs[i]| == n)
    decreases |xs|
  {
    if xs != [] && |xs| > n {
      ChunksShape(n, xs[n..]);
      var cs := Chunks(n, xs);
      assert cs[1..] == Chunks(n, xs[n..]);
      forall i | 0 < i < |cs| ensures cs[i] == Chunks(n, xs[n..])[i - 1] { }
    }
  }

  /** chunks(0, xs) yields nothing, even for a non-empty xs. */
  lemma ChunksOfZero<T>(xs: seq<T>)
    ensures Chunks(0, xs) == []
  {
  }

  /** grouper(2, 'ABCDE') --> AB CD E */
  lemma ChunksExample()
    ensures Chunks(2, "ABCDE") == ["AB", "CD", "E"]
  {
    assert "ABCDE"[..2] == "AB" && "ABCDE"[2..] == "CDE";
    assert "CDE"[..2] == "CD" && "CDE"[2..] == "E";
    assert Chunks(2, "E") == ["E"];
    assert Chunks(2, "CDE") == ["CD", "E"];
  }

  // ---------------------------------------------------------------------
  // count_consumed

  /** count_consumed(it): the wrapper generator and its counter, which goes up
      only when the generator is resumed after a yield, that is, once the
      consumer asks for the element after the one it was given. */
  class CountConsumed<T> {
    const items: seq<T>
    var position: nat
    var suspended: bool
    var consumed: nat

    ghost predicate Valid()
      reads this
    {
      position <= |items|
      && (suspended ==> position > 0)
      && consumed == position - (if suspended then 1 else 0)
    }

    constructor (it: seq<T>)
      ensures Valid() && items == it
      ensures position == 0 && !suspended && consumed == 0
    {
      items := it;
      position := 0;
      suspended := false;
      consumed := 0;
    }

    /** next() on the wrapper. */
    method Next() returns (x: Option<T>)
      requires Valid()
      modifies this
      ensures Valid()
      ensures old(position) < |items| ==> x == Some(items[old(position)]) && position == old(position) + 1 && suspended
      ensures old(position) == |items| ==> x == None && position == old(position) && !suspended
      ensures consumed == old(position) == (if x.Some? then position - 1 else position)
    {
      if suspended {
        consumed := consumed + 1;
        suspended := false;
      }
      if position < |items| {
        x := Some(items[position]);
        position := position + 1;
        suspended := true;
      } else {
        x := None;
      }
    }

    /** get_count(). */
    method GetCount() returns (n: nat)
      requires Valid()
      ensures n == consumed
      ensures n <= |items|
      ensures !suspended ==> n == position
    {
      n := consumed;
    }
  }
}

=== FILE: wrappers.dfy ===
/** Option and Result, the failure-carrying values used across the model. */
module Wrappers {

  datatype Option<+T> = None | Some(value: T)

  /** A Python call either returns a value or raises an exception. */
  datatype Result<+T, +E> = Success(value: T) | Failure(error: E)
}
